=== FILE: README.md ===
# canvas-crony in Dafny

A model of the report-building core of canvas-crony. This is a tool that pulls a
course from the Canvas LMS, sorts the course's submissions into per-TA grading
piles, and mails PDF and spreadsheet reports to the staff.

The model covers:

- **Rehydration** (`src/canvas.py`). The fetched users, cohorts, instructors,
  group memberships, assignments and submissions become a course:
  - cleaned users, indexed by id and by email;
  - students;
  - cohort staff resolved by email;
  - group member sets, with `group_membership_ids` left empty as the code
    leaves it (a corrected course fills it);
  - submissions joined to their user, assignment and grader.
- **Record helpers** (`src/canvas_data.py`): `clean_user`, the eleven grading
  statuses and the non-critical set.
- **Pure helpers of `src/canvas_request.py`**: `days_between` and
  `check_response_errors`.
- **`src/filesystem.py`**: `clean_filename`.
- **Piles** (`src/reports/course_helpers.py`):
  - who grades which student;
  - how a submission is classified, with per-student, group and section
    overrides deciding its availability window;
  - the grading, graded and ungraded piles;
  - recency counts.
- **`src/reports/ungraded_reports.py`**:
  - the older classifier with its strict `[]` reads;
  - the per-status summary table;
  - the list of links, oldest first, with a header for each drop in
    `round(log2(age))`.
- **Score statistics**: `f`, `iqr` and `get_normal_stats` in
  `src/reports/stats_helpers.py`.
- **The score reporter** (`src/reports/reporters/score_reports.py`):
  - grouping by assignment;
  - zeroes and perfects;
  - normalised scores;
  - `combine_tables`.
- **The legacy score report** (`src/reports/score_reports.py`): its grader
  piles, unclamped `iqr`, unguarded `get_normal_stats` and header renaming.
- **The instructor grading sheet** (`src/reports/reporters/grading_reports.py`):
  graded and assigned counts, their difference, and whole-number percentages.
- **`src/email_service.py`**:
  - batching reports per recipient with an allow-list;
  - the message `send_email` builds: subject template, `From`, the string
    it assigns to `msg["To"]` (written without its closing `>`), body and
    attachments.

Modelling choices:

- **Time.** Timestamps are integers in seconds, and the current time `now` is a
  parameter. `past_date(t)` is `t < now`. `timedelta.days` is floor division
  by 86400 and `days_between` takes its absolute value.
- **Data.** Python dicts whose insertion order matters are sequences:
  - `grouped_targets` and the other dicts of lists are sequences of key/items
    entries (`Collections.GroupBy`);
  - `course["staff"]`, read back through `.values()`, is the sequence of its
    values, one per distinct id in the order each id was first inserted, each
    the last value stored under it (`Collections.ByKeyOrdered`).

  Other dicts are Dafny maps, with the last duplicate key winning
  (`Collections.ByKey`).
- **Errors.** Exceptions are the `Err` case of a `Result`: `KeyError`,
  `IndexError`, `TypeError` and `ZeroDivisionError`.
- **Graders.** A submission's grader is one of three cases, modelled
  faithfully: nobody (`None`), a machine sentinel (an integer `<= 0`, where `0`
  is falsy), or a user.

## Model

| member | source | states |
|---|---|---|
| Wrappers.Get | src/reports/course_helpers.py:38 | `dict.get(k, default)`: the stored value when the key is present, the default otherwise |
| Text.IntText | src/canvas_request.py:44 | `str(n)` is non-empty, all digits for non-negative `n`, and starts with `-` exactly when `n` is negative |
| Text.NatText | src/reports/ungraded_reports.py:85 | `str(n)` of a count is a non-empty digit string without a leading zero |
| Text.ParseNatText | src/reports/ungraded_reports.py:85 | reading the decimal text of `n` back gives `n`, so different counts print differently |
| Text.TwoHundredsStartWithTwo | src/canvas_request.py:44 | every status code from 200 to 299 prints with a leading `2`, the test the source uses for success |
| Text.Lower | src/canvas_data.py:65 | `str.lower` on ASCII text: it keeps the length, turns each capital `A`–`Z` into its small letter, keeps every other character, and leaves no ASCII capital |
| Text.LowerIdempotent | src/canvas_data.py:65 | lowering a lowered string changes nothing |
| Text.Title | src/reports/ungraded_reports.py:85 | `str.title` upper-cases a letter that starts a word (nothing or a non-letter before it), lower-cases the other letters, and keeps every other character |
| Text.RStrip | src/reports/stats_helpers.py:5 | `rstrip(c)` returns the longest prefix not ending in `c`, and everything it removed was `c` |
| Text.StrLeReflexive | src/reports/ungraded_reports.py:126-130 | the string order used as the sort's tie-break is reflexive |
| Text.StrLeTotal | src/reports/ungraded_reports.py:126-130 | any two status texts are comparable |
| Text.StrLeTransitive | src/reports/ungraded_reports.py:126-130 | the string order is transitive |
| Text.StrLeAntisymmetric | src/reports/ungraded_reports.py:126-130 | two strings each at most the other are equal |
| Sorting.Insert | src/reports/stats_helpers.py:11 | inserting one element adds exactly that element to the multiset |
| Sorting.InsertSorted | src/reports/stats_helpers.py:11 | inserting into a sorted sequence keeps it sorted under any total preorder |
| Sorting.Sort | src/reports/stats_helpers.py:11 | `sorted` returns a sorted permutation of its input |
| Sorting.SortedUnique | src/reports/stats_helpers.py:11 | under an antisymmetric order, two sorted permutations of the same multiset are equal, so the sorted list is determined by the input's contents |
| Collections.Select | src/reports/reporters/score_reports.py:146-150 | a filtering comprehension keeps exactly the elements that pass the test, and no others |
| Collections.RepeatedAtMostOnce | src/reports/course_helpers.py:114-119 | appending an element once per matching staff member, with at most one match each, is the same as filtering |
| Collections.PutExisting | src/reports/course_helpers.py:80-82 | appending under a key that already exists grows that key's list by one and leaves the key order unchanged |
| Collections.PutNew | src/reports/course_helpers.py:80-82 | appending under a new key adds it last with a one-element list |
| Collections.GroupByPartitions | src/email_service.py:17-23 | grouping by key gives distinct keys, exactly the keys that occur, each list the input's elements with that key in input order, and the list sizes add up to the input size |
| Collections.GroupByShape | src/email_service.py:17-23 | grouping gives distinct keys, exactly the occurring keys, and as many items as the input has |
| Collections.GroupByDistinct | src/email_service.py:23 | no key is grouped twice and no element is lost or duplicated |
| Collections.GroupByKeys | src/email_service.py:23 | a key has a group exactly when some element carries it |
| Collections.GroupByItems | src/email_service.py:23 | each group's list is the input filtered by that group's key, in order |
| Collections.GroupByCovers | src/email_service.py:17-23 | no group is empty, every member of a group carries the group's key, and an element is in some group exactly when it is in the input |
| Collections.Count | src/reports/reporters/grading_reports.py:119-124 | `sum(1 for x in xs if p(x))`, counted one passing element at a time, equals the length of the filtered list `[x for x in xs if p(x)]` and is at most the list's size |
| Collections.CountPositive | src/reports/reporters/grading_reports.py:119-124 | the count is positive exactly when some element passes |
| Collections.DisjointCounts | src/reports/course_helpers.py:170-173 | counts of two tests that never both hold add up to at most the list size |
| Collections.ByKey | src/canvas.py:26-27 | a dict comprehension keyed by `key(x)` has exactly the occurring keys, each mapped to an input element carrying that key |
| Collections.ByKeyLastWins | src/canvas.py:26-27 | with duplicate keys, the last element carrying a key is the one kept |
| Collections.FirstAt | src/canvas.py:40 | the position of the first element with a key: in range exactly when the key occurs, where it carries the key, with no earlier element carrying it |
| Collections.ByKeyOrdered | src/canvas.py:40 | `{key(x): x for x in xs}.values()` in the dict's order holds exactly one element per key that occurs in `xs`, and no other keys |
| Collections.ByKeyOrderedLastWins | src/canvas.py:40 | each element of the ordered values is the one the plain dict keeps for its key, the last listing |
| Collections.ByKeyOrderedFirstAppearance | src/canvas.py:40 | the ordered values follow the order in which their keys first appear in the input, because reassigning a present key keeps its place |
| Collections.MapResult | src/reports/reporters/grading_reports.py:98-143 | mapping a raising function over a list fails exactly when some element fails, with the error of the first that does; otherwise it gives one result per element, in order |
| CanvasData.CleanUser | src/canvas_data.py:62-66 | a user without an email is dropped; otherwise the same user with the email lower-cased |
| CanvasData.CleanUserIdempotent | src/canvas_data.py:62-66 | cleaning a cleaned user changes nothing |
| CanvasData.ParseStatus | src/canvas_data.py:175-190 | a recognised string is the tag of the status it reads as |
| CanvasData.StatusesDistinct | src/canvas_data.py:175-190 | the eleven status tags are distinct, each reads back to its status, and the status list names each exactly once |
| CanvasData.CriticalStatuses | src/canvas_data.py:192-199 | the critical statuses are exactly the six "not yet graded" and "resubmitted" ones; "not yet due" is in the non-critical set but is no status's tag |
| CanvasRequest.DaysBetween | src/canvas_request.py:21-27 | the result is the absolute value of the floored whole-day difference, with a missing second date read as now |
| CanvasRequest.DaysBetweenSelf | src/canvas_request.py:27 | a date is zero days from itself |
| CanvasRequest.DaysBetweenNotSymmetric | src/canvas_request.py:27 | flooring before `abs` makes the result depend on argument order: one second forward is 0 days, one second back is 1 |
| CanvasRequest.DaysBetweenDefaultsToNow | src/canvas_request.py:23-24 | omitting the second date is the same as passing now |
| CanvasRequest.CheckResponseErrors | src/canvas_request.py:37-48 | a response passes exactly when its status code's text starts with `2`; 503 raises the unavailable message; any other failure with an undecodable body raises the decode message |
| CanvasRequest.StatusOutcomes | src/canvas_request.py:37-48 | 503 fails the same way whatever the body; every 2xx passes; 404 always fails |
| Filesystem.CleanFilename | src/filesystem.py:4-5 | every forbidden character becomes `-`, every other character is kept, the length is unchanged, and no forbidden character remains |
| Filesystem.CleanFilenameIdempotent | src/filesystem.py:4-5 | cleaning a clean name changes nothing |
| Canvas.CleanUsers | src/canvas.py:25 | the users with an email, each cleaned, in their fetched order and nothing else; every kept email lower-case |
| Canvas.CleanUsersIdempotent | src/canvas.py:25 | cleaning the cleaned list changes nothing |
| Canvas.UsersById | src/canvas.py:27 | `user_by_id` has exactly the ids of the cleaned users, each bound to a user with that id, and to the only or last one listed with it |
| Canvas.UsersByEmail | src/canvas.py:26 | `user_by_email` has exactly the emails of the cleaned users, each bound to a user with that email, and to the only or last one listed with it |
| Canvas.Students | src/canvas.py:29-30 | the student map holds exactly the ids of users with a student enrolment, each mapped to such a user with that id |
| Canvas.LookupAll | src/canvas.py:43 | a list of lookups fails with `KeyError` for a missing key exactly when some key is missing; otherwise it returns the looked-up values in order |
| Canvas.ResolveEmails | src/canvas.py:43 | resolving emails fails exactly when some lower-cased email is unknown; otherwise each email resolves, in order, to the user under its lower-cased form |
| Canvas.ResolveIgnoresCase | src/canvas.py:26-43 | an email written in any case resolves to the user whose cleaned email is its lower-case form |
| Canvas.ResolveCohorts | src/canvas.py:34-39 | a course without cohorts has none; otherwise resolution fails exactly when some cohort email is unknown, and each cohort keeps its name and resolves its staff in order |
| Canvas.ResolveCohortList | src/canvas.py:36-37 | the cohort list fails exactly when some cohort fails, and otherwise resolves each cohort in order |
| Canvas.AllStaff | src/canvas.py:40 | a user is listed exactly when some cohort contains them |
| Canvas.Staff | src/canvas.py:40 | `course["staff"].values()` lists each cohort member id exactly once, no id that no cohort lists, in the order each id is first listed across the cohorts, each bound to the last listing of that id |
| Canvas.StaffKeys | src/canvas.py:40 | an id occurs among the flattened cohorts exactly when some cohort lists a member with that id |
| Canvas.Instructors | src/canvas.py:42-45 | no instructor list means none; otherwise instructors are resolved by lower-cased email like cohort staff |
| Canvas.BuildMemberships | src/canvas.py:47-52 | membership building fails exactly when a group lists an unknown user; names and group ids are keyed exactly by the groups; the id map is filled only when asked |
| Canvas.IdSetsLastWins | src/canvas.py:49-52 | a group id's member set is that of the last group with the id |
| Canvas.MembershipsAsWritten | src/canvas.py:47-52 | as written, `group_membership_ids` stays empty because the id sets are stored under `group_memberships` |
| Canvas.GroupMemberships | src/canvas.py:47-52 | corrected: `group_membership_ids` holds each group's member id set |
| Canvas.GroupOverridesNeverMatch | src/canvas.py:48 | with the membership map as written, no group override can ever apply to any user |
| Canvas.GroupOverridesMatchMembers | src/canvas.py:52 | with the corrected map, a group override applies to every member of its group |
| Canvas.GroupOverrideCounterexample | src/canvas.py:47-52 | a concrete course where a member's group override decides the window with the corrected map but is ignored as written |
| Canvas.HydrateAssignments | src/canvas.py:55-61 | joining assignments to groups fails exactly when some assignment names an unknown group; otherwise every assignment is keyed by its own id, and each key holds the last fetched assignment with that id |
| Canvas.GraderFor | src/canvas.py:87-92 | no grader id gives no grader; an id at most 0 is kept as a machine sentinel; a positive id is looked up among the users and raises `KeyError` if missing |
| Canvas.HydrateSubmission | src/canvas.py:82-93 | a submission of an unknown user is dropped; otherwise it fails exactly when its assignment or grader is unknown, and it keeps its id and is joined to its own assignment, user and grader |
| Canvas.HydrateAllFromRecords | src/canvas.py:68-71 | every hydrated submission is the hydration of some fetched record with its id |
| Canvas.KeyedHydrated | src/canvas.py:68-71 | keyed by id, the submission stored under each key is the hydration of a record fetched with that key |
| Canvas.SubmissionMap | src/canvas.py:68-71 | the submission map exists exactly when every kept record hydrates; each key holds a hydration of a record fetched with it, under its own id and by a known user, and the keys are exactly the ids fetched for known users |
| Canvas.HydrateRoundTrip | src/canvas.py:82-93 | stripping a hydrated submission back to ids gives the raw submission it came from |
| Canvas.DehydrateRoundTrip | src/canvas.py:82-93 | hydrating the ids of a submission whose user, assignment and grader are in the course gives back that submission |
| Canvas.HydrateAll | src/canvas.py:68-71 | hydration of all submissions fails exactly when some record fails to hydrate; otherwise it keeps one submission per raw submission of a known user, each by a known user |
| Canvas.HydrateAllKeepsKnown | src/canvas.py:70-71 | the kept submissions are exactly the raw submissions of known users, in order |
| Canvas.Rehydrate | src/canvas.py:25-71 | the steps after the fetches, with the membership loop as written or corrected, succeed exactly when each raising step does (every cohort and instructor email known, every group member known, every assignment group known, every kept submission's assignment and grader known); the course is then built from those steps' results: users by id, students, cohorts, staff, instructors, memberships, assignments, and a submission under exactly each id fetched for a known user, each the hydration of a record fetched with that id |
| Canvas.AssembleCourse | src/canvas.py:25-52 | the steps up to the membership loop succeed exactly when cohorts, instructors and memberships resolve, and then store the users by id, the students, the resolved cohorts and instructors, the staff built from those cohorts and the memberships |
| Canvas.KeyedSubmissions | src/canvas.py:68-71 | keyed by id, the hydrated submissions have exactly the ids of the records fetched for known users |
| Canvas.HydrateCourse | src/canvas.py:54-71 | hydration fails exactly when the assignments fail or some submission record fails against them; otherwise it stores the hydrated assignments, changes nothing else in the course, and keys under each id fetched for a known user a hydration of a record fetched with that id, and nothing else |
| Canvas.HydrateCourseKeepsMemberships | src/canvas.py:54-71 | hydrating assignments and submissions neither reads nor changes the group memberships |
| Canvas.RehydrateCourse | src/canvas.py:15-76 | as written: the course is built exactly when every raising step succeeds, from those steps' results, with users keyed by id, students among the users, each submission under its id by a known user and the hydration of a record fetched with that id, and `group_membership_ids` empty, so no group override matches anyone |
| Canvas.RehydrateCourseCorrected | src/canvas.py:47-52 | corrected: it succeeds in the same cases, builds the same parts, and `group_membership_ids` holds each group's member id set |
| Canvas.BuildMembershipsFillOnly | src/canvas.py:47-52 | filling `group_membership_ids` changes nothing else the loop builds, and the loop fails in the same cases |
| Canvas.CorrectionOnlyFillsIds | src/canvas.py:47-52 | the corrected course fails exactly when the course as written does, and otherwise differs from it only in `group_membership_ids` |
| CourseHelpers.CheckAvailability | src/reports/course_helpers.py:211-218 | locked, past due, open and future are decided in that order by which window times have passed; unset or missing times never count |
| CourseHelpers.UnsetEntriesNeverTrigger | src/reports/course_helpers.py:211-218 | a window with no times is future, and a missing key behaves like `None` |
| CourseHelpers.FirstMatch | src/reports/course_helpers.py:192-206 | the scan returns the first override from a position that applies, and none if none does |
| CourseHelpers.ChooseOverride | src/reports/course_helpers.py:183-206 | no override is chosen exactly when none applies; otherwise the chosen one applies and no earlier pass or earlier position in the same pass applies |
| CourseHelpers.ClassifyAvailability | src/reports/course_helpers.py:183-208 | with no applicable override the assignment's own window decides; otherwise the window of some applicable override decides, and a per-student override that applies is never passed over for a group or section one |
| CourseHelpers.Matches | src/reports/course_helpers.py:191-204 | the applicability test of each pass; its meaning is stated through `CourseHelpers.ChooseOverride` and `CourseHelpers.FirstMatch`, which find exactly the overrides it accepts |
| CourseHelpers.ResolveWindow | src/reports/course_helpers.py:183-208 | the window is the chosen override's, or the assignment's own when none applies |
| CourseHelpers.StudentOverrideWins | src/reports/course_helpers.py:191-195 | when a per-student override applies, a per-student override at or before it is chosen, whatever group or section overrides exist |
| CourseHelpers.ClassifySubmission | src/reports/course_helpers.py:124-161 | graded exactly when the workflow says so; late statuses exactly for late ones; unsubmitted statuses from the availability; on-time statuses split by availability being locked; resubmission exactly when attempted |
| CourseHelpers.AppendTa | src/reports/course_helpers.py:16-21 | adding a TA to a cohort's students gives every listed student one more copy of the TA per listing and touches no one else |
| CourseHelpers.AddCohort | src/reports/course_helpers.py:15-21 | a cohort with staff adds its students as keys and appends its staff to each; a cohort without staff changes nothing |
| CourseHelpers.GetStaffForStudent | src/reports/course_helpers.py:10-22 | the map fails exactly when a cohort with staff has no membership list; a student is a key exactly when rostered, and their staff are the staff of their cohorts in order |
| CourseHelpers.EveryStatusListed | src/reports/course_helpers.py:32-34 | the status list names every status |
| CourseHelpers.EmptyPiles | src/reports/course_helpers.py:52 | a fresh TA pile map has an empty pile for every status |
| CourseHelpers.EmptyBigPile | src/reports/course_helpers.py:97-99 | the big pile starts with an empty id set for every status |
| CourseHelpers.AddOne | src/reports/course_helpers.py:116-118 | filing a submission for one TA and status creates that TA's piles if needed and appends it to that one pile only |
| CourseHelpers.AddToStaff | src/reports/course_helpers.py:114-119 | filing for a list of staff keeps every pile map complete and creates piles for exactly those staff |
| CourseHelpers.AddToStaffPile | src/reports/course_helpers.py:114-119 | each TA's pile gains the submission once per time they are listed |
| CourseHelpers.BuildPiles | src/reports/course_helpers.py:100-121 | pile building fails exactly when an unclassifiable submission is counted; the big pile holds the ids per status; a TA has piles exactly when assigned a counted submission; each pile is that TA's submissions of that status, repeated per listing |
| CourseHelpers.PileIsFilter | src/reports/course_helpers.py:114-119 | for a TA listed at most once per student, their pile is the submissions filtered by "assigned to them and of that status" |
| CourseHelpers.MakeGradingPiles | src/reports/course_helpers.py:88-121 | the grading piles are complete, the big pile holds exactly the counted submissions' ids per status, and each TA's pile is their assigned submissions of that status |
| CourseHelpers.GraderKey | src/reports/course_helpers.py:54 | `grader["id"] if grader else None` raises exactly for a truthy machine sentinel; it is `None` for no grader or sentinel 0, and the user's id otherwise |
| CourseHelpers.GradedPile | src/reports/course_helpers.py:54-57 | the graded pile fails exactly when a counted submission has a truthy sentinel; its keys are exactly the ids of graders seen and each list repeats a submission once per assigned TA |
| CourseHelpers.MakeGradedPiles | src/reports/course_helpers.py:25-60 | fails exactly when an assigned, not-yet-graded submission carries a truthy sentinel; otherwise its status piles equal `make_grading_piles`' and its graded pile groups submissions by grader |
| CourseHelpers.MakeUngradedPiles | src/reports/course_helpers.py:63-85 | raises exactly when a graded submission carries the sentinel 0; otherwise it keeps exactly the human-graded submissions in order, grouped by grader id |
| CourseHelpers.DaysOld | src/reports/course_helpers.py:177-180 | an unsubmitted submission is 0 days old; otherwise its age is the days between submission and grading, or now |
| CourseHelpers.CheckRecency | src/reports/course_helpers.py:164-174 | the recent and ancient counts are the numbers of submitted submissions younger than 3 days and older than 7 days, and together never exceed the pile |
| UngradedReports.StrictPassed | src/reports/ungraded_reports.py:303-310 | `w[key] and past_date(w[key])` raises `KeyError` exactly when the key is absent and otherwise agrees with the lenient test |
| UngradedReports.StrictCheckAvailability | src/reports/ungraded_reports.py:303-310 | the strict check agrees with the lenient one when it answers, and raises exactly when a key it reaches is absent |
| UngradedReports.StrictAgreesWhenComplete | src/reports/ungraded_reports.py:303-310 | with all three keys present the strict and lenient checks agree |
| UngradedReports.LegacyClassify | src/reports/ungraded_reports.py:221-256 | the older classifier gives the same status as `classify_submission` whenever it answers, and raises exactly when it must read a window with a missing key |
| UngradedReports.BuildPilesAgree | src/reports/ungraded_reports.py:31-49 | two classifiers that agree wherever the first answers build identical piles |
| UngradedReports.UngradedPiles | src/reports/ungraded_reports.py:31-49 | the inline pile loop raises exactly when a counted submission cannot be classified, and otherwise builds `make_grading_piles`' piles |
| UngradedReports.SummaryRow | src/reports/ungraded_reports.py:82-86 | a summary row has five cells: the title-cased status, then four decimal numbers |
| UngradedReports.SummaryRowCounts | src/reports/ungraded_reports.py:82-86 | read back as numbers, the Total cell is the pile size, the first and last cells are the `check_recency` counts, and the three band cells add up to the total |
| UngradedReports.NonEmpty | src/reports/ungraded_reports.py:80-81 | the statuses given rows are exactly those with non-empty piles, in key order |
| UngradedReports.SummaryTable | src/reports/ungraded_reports.py:79-86 | the table is the header followed by one row per non-empty pile in key order |
| UngradedReports.ItemsOf | src/reports/ungraded_reports.py:126-129 | each submission of a pile becomes one `(age, status, submission)` item |
| UngradedReports.Gather | src/reports/ungraded_reports.py:126-129 | every gathered item is a critical status's submission with its age, every submission of a critical pile is gathered, and there are as many items as the critical piles hold together |
| UngradedReports.ItemsOfCount | src/reports/ungraded_reports.py:126-129 | a pile's items hold each submission, with its age and the pile's status, as often as the pile does, and nothing else |
| UngradedReports.GatherCounts | src/reports/ungraded_reports.py:126-129 | an item is gathered once per listing of its status and per filing of its submission in that pile, and only if the status is critical and the age is the submission's; nothing is merged |
| UngradedReports.FlatPileCounts | src/reports/ungraded_reports.py:125-130 | `flat_pile` holds each filing of a critical submission exactly once, a submission filed twice appearing twice |
| UngradedReports.ItemLeTotalPreorder | src/reports/ungraded_reports.py:130 | the key `(-age, status)` orders items totally |
| UngradedReports.FlatPile | src/reports/ungraded_reports.py:125-130 | the flat pile is a permutation of the gathered items sorted oldest first, then by status text |
| UngradedReports.FloorLog2 | src/reports/ungraded_reports.py:135 | `k` is the exponent with `2^k <= n < 2^(k+1)` |
| UngradedReports.FloorLog2Monotone | src/reports/ungraded_reports.py:135 | the floored logarithm never decreases |
| UngradedReports.LogBucket | src/reports/ungraded_reports.py:135 | `round(log2(age))` is the `k` with `2^(2k) <= 2·age² < 2^(2k+2)`, and age 0 is bucket 0 |
| UngradedReports.LogBucketMonotone | src/reports/ungraded_reports.py:135 | older submissions never have a smaller bucket |
| UngradedReports.LinksOf | src/reports/ungraded_reports.py:141-146 | one link per item, naming the item's assignment and student |
| UngradedReports.RenderFrom | src/reports/ungraded_reports.py:134-146 | the rendering loop emits only headers and links, one line per item plus one per header, and opens with the first item's header when no header came before; `RenderFromExpected` states its whole output |
| UngradedReports.RenderLinks | src/reports/ungraded_reports.py:134-146 | for any bucket function, the loop emits every item's link exactly once, in order |
| UngradedReports.RenderHeadersDecrease | src/reports/ungraded_reports.py:135-140 | for any bucket function, the header buckets strictly decrease, each below the bucket the loop started from |
| UngradedReports.RenderCovers | src/reports/ungraded_reports.py:134-140 | for any bucket function under which the list descends, every item's bucket is announced by a header or was the starting bucket |
| UngradedReports.SortedDescends | src/reports/ungraded_reports.py:126-135 | oldest-first order puts the buckets in descending order |
| UngradedReports.ListActualLinks | src/reports/ungraded_reports.py:125-148 | the section is the caught-up message exactly when there is no critical item; otherwise it reads, for each sorted item in turn, a header when the item is first or its bucket is below the previous item's, then the item's link |
| UngradedReports.LinesOf | src/reports/ungraded_reports.py:131-148 | the caught-up line alone for no items; otherwise the links in order, and for a list whose buckets descend, the item-by-item lines |
| UngradedReports.RenderFromExpected | src/reports/ungraded_reports.py:134-146 | on a list whose buckets descend, the loop that compares each bucket with the last header's writes exactly the item-by-item lines that compare it with the previous item's |
| UngradedReports.RenderSuffix | src/reports/ungraded_reports.py:134-146 | from any item on, with the previous item's bucket as the last header's, the loop writes the remaining items' lines |
| UngradedReports.RenderOne | src/reports/ungraded_reports.py:135-146 | for an item not above the last header's bucket, one pass of the loop writes a header exactly when the bucket drops below it, then the link, and the next pass compares with this item's bucket |
| UngradedReports.LinkHeaders | src/reports/ungraded_reports.py:125-140 | the section's headers have strictly decreasing buckets, and every critical item's bucket has a header |
| UngradedReports.LinesHeaders | src/reports/ungraded_reports.py:131-140 | for any oldest-first list, the section it should read has strictly decreasing header buckets and a header for every item's bucket |
| UngradedReports.RenderedHeaders | src/reports/ungraded_reports.py:131-140 | the same for any bucket function under which the list's buckets descend |
| StatsHelpers.F | src/reports/stats_helpers.py:4-5 | `f` returns a prefix of its input |
| StatsHelpers.FFixedTwo | src/reports/stats_helpers.py:4-5 | on a two-decimal rendering, `f` drops trailing zeros, then a dangling point |
| StatsHelpers.FExamples | src/reports/stats_helpers.py:4-5 | `3.50` prints as `3.5`, `3.00` as `3`, `10.00` as `10`, `2.25` unchanged |
| StatsHelpers.FWholeNumber | src/reports/stats_helpers.py:4-5 | a whole number rendered with `.00` prints as the plain integer |
| StatsHelpers.RealLeTotalOrder | src/reports/stats_helpers.py:11 | `<=` on scores is a total order |
| StatsHelpers.SortScores | src/reports/stats_helpers.py:11 | `sorted(scores)` is an ascending permutation of the scores |
| StatsHelpers.SortedExtremes | src/reports/stats_helpers.py:11 | the first and last sorted scores bound every score, and every sorted score is one of the scores |
| StatsHelpers.CeilQuarterIsCeiling | src/reports/stats_helpers.py:13-15 | for the three quartiles k = 1, 2, 3, `ceil(n*k/4)` is the least integer at least `n*k/4` |
| StatsHelpers.QuartileIndex | src/reports/stats_helpers.py:13-15 | the clamped quartile index is in range and is the ceiling unless clamped to the last index |
| StatsHelpers.QuartileIndexMonotone | src/reports/stats_helpers.py:13-15 | quartile indices never decrease from q1 to median to q3 |
| StatsHelpers.Iqr | src/reports/stats_helpers.py:8-23 | no scores give five blanks, and only no scores do; otherwise five numbers: the sorted scores' minimum, the entries at the clamped quartile indices `min(n-1, ceil(n*k/4))` for k = 1, 2, 3, and the maximum |
| StatsHelpers.IqrSummary | src/reports/stats_helpers.py:8-23 | a non-empty summary's five numbers are ascending and each is one of the scores, and the first and last bound every score |
| StatsHelpers.SortedPicks | src/reports/stats_helpers.py:11-23 | picks from a sorted permutation of the scores at non-decreasing indices are ascending scores lying between the first and last sorted score |
| StatsHelpers.Picks | src/reports/stats_helpers.py:17-23 | the five picks are the minimum, the three indexed scores and the maximum, ascending |
| StatsHelpers.IqrPermutationInvariant | src/reports/stats_helpers.py:8-23 | the summary depends only on the multiset of scores, not their order |
| StatsHelpers.SumSquaredDeviations | src/reports/stats_helpers.py:30 | a sum of squared deviations is never negative |
| StatsHelpers.GetNormalStats | src/reports/stats_helpers.py:26-32 | no scores give blanks; otherwise mean times count is the sum, and variance times count is the sum of squared deviations, hence non-negative |
| StatsHelpers.DeviationsFromConstant | src/reports/stats_helpers.py:30 | values all equal to `c` deviate from `c` by zero in total |
| StatsHelpers.VarianceOfConstant | src/reports/stats_helpers.py:26-32 | equal scores have that score as mean and zero variance |
| ScoreReporter.GradedByAssignment | src/reports/reporters/score_reports.py:82-84 | the first entry, under `None`, holds every graded submission |
| ScoreReporter.GradedByAssignmentPartitions | src/reports/reporters/score_reports.py:82-89 | after the `None` entry, each assignment id has one entry with exactly its submissions in order, the ids are exactly those graded, and the entries together hold each submission once |
| ScoreReporter.CountExtents | src/reports/reporters/score_reports.py:109-114 | the zeroes and perfects are the numbers of graded submissions scoring 0 and scoring the points possible; each is at most the graded count and positive exactly when such a submission exists |
| ScoreReporter.ZeroesAndPerfectsDisjoint | src/reports/reporters/score_reports.py:109-114 | when no assignment is worth 0 points, zeroes and perfects together are at most the graded count |
| ScoreReporter.ZeroPointAssignmentCountsTwice | src/reports/reporters/score_reports.py:109-114 | a zero on a 0-point assignment counts as both a zero and a perfect |
| ScoreReporter.NormScore | src/reports/reporters/score_reports.py:138-145 | a scorable submission's score is its percentage of the points; otherwise the raw score, or 0 when falsy |
| ScoreReporter.AllScores | src/reports/reporters/score_reports.py:138-145 | one normalised score per graded submission, in order |
| ScoreReporter.NonzeroScores | src/reports/reporters/score_reports.py:146-150 | the non-zero list never holds a zero and is no longer than the graded list |
| ScoreReporter.NonzeroScoresAreSelected | src/reports/reporters/score_reports.py:138-150 | the non-zero list is the normalised scores of exactly the scorable submissions |
| ScoreReporter.ColumnShape | src/reports/reporters/score_reports.py:196-202 | each output table is the first table's header, then row `j` of each named table with only its first cell replaced by the name |
| ScoreReporter.Assign | src/reports/reporters/score_reports.py:203 | assigning a table under a name keeps names distinct, adds the name if new, replaces only that name's table and keeps the order |
| ScoreReporter.CombineUpTo | src/reports/reporters/score_reports.py:196-203 | after the rows so far, each row name maps to the output for its last row |
| ScoreReporter.CombineTables | src/reports/reporters/score_reports.py:191-204 | the result has one entry per distinct row name of the first table, and a repeated name keeps the table of its last row |
| LegacyScoreReports.LegacyGraderPiles | src/reports/score_reports.py:34-48 | the legacy loop raises exactly when a graded submission has no grader or the sentinel 0; otherwise it keeps exactly the human-graded submissions, grouped by grader id |
| LegacyScoreReports.LegacyPilesPartition | src/reports/score_reports.py:45-48 | every legacy grader pile holds exactly that grader's graded submissions, in order |
| LegacyScoreReports.UngradedByNobodyRaises | src/reports/score_reports.py:42-45 | a graded submission with no grader makes the legacy loop raise although `make_ungraded_piles` skips it |
| LegacyScoreReports.UnclampedIqr | src/reports/score_reports.py:64-77 | the unclamped summary either raises `IndexError` or returns five values |
| LegacyScoreReports.UnclampedIqrFailsBelowFour | src/reports/score_reports.py:64-69 | the unclamped summary raises exactly for fewer than four scores, and agrees with the clamped one from four on |
| LegacyScoreReports.UnclampedFromFour | src/reports/score_reports.py:64-69 | with all ceiling indices in range, the unclamped summary equals the clamped one |
| LegacyScoreReports.OneScoreCounterexample | src/reports/score_reports.py:64-69 | one score makes the unclamped summary raise, while the clamped one reports that score five times |
| LegacyScoreReports.LegacyNormalStats | src/reports/score_reports.py:80-84 | the unguarded statistics raise `ZeroDivisionError` exactly for an empty list |
| LegacyScoreReports.LegacyNormalStatsAgree | src/reports/score_reports.py:80-82 | on a non-empty list the unguarded statistics equal the guarded ones; on an empty list the guarded ones are blank |
| LegacyScoreReports.LegacyStaffStats | src/reports/score_reports.py:145-175 | one staff report's statistics fail exactly when the graded list or its non-zero list has fewer than four scores, and then always with `IndexError` from `iqr`, never with `ZeroDivisionError` |
| LegacyScoreReports.LegacyStaffStatsAgree | src/reports/score_reports.py:161-175 | when the legacy statistics succeed they equal the clamped summaries and the guarded mean and variance of the same lists |
| LegacyScoreReports.AllZeroGraderRaises | src/reports/score_reports.py:153-173 | a grader whose every score is 0 has no non-zero scores; `get_normal_stats` of that empty list would raise `ZeroDivisionError`, but the report raises `IndexError` in `iqr` first, while the guarded version reports blanks |
| LegacyScoreReports.ZeroScoresNotScorable | src/reports/score_reports.py:153-157 | all-zero scores leave both non-zero lists empty |
| LegacyScoreReports.LegacyNonzeroScores | src/reports/score_reports.py:153-157 | the legacy non-zero list is no longer than the graded list |
| LegacyScoreReports.LegacyNonzeroAreFractions | src/reports/score_reports.py:153-157 | the legacy non-zero scores are the reporter's percentages divided by 100: fractions, not percentages |
| LegacyScoreReports.RenameHeader | src/reports/score_reports.py:237-238 | renaming a table writes the name into the top-left cell only |
| LegacyScoreReports.RenameHeaderLastWins | src/reports/score_reports.py:229-239 | renaming the same table again keeps only the last name, and renaming twice to the same name is renaming once |
| GradingReports.AssignedCount | src/reports/reporters/grading_reports.py:104-111 | a TA without piles is assigned 0; the total is 0 exactly when every pile is empty, and at least each pile's size (with `AssignedCountAddOne`, it counts the filings) |
| GradingReports.PileSizesCovers | src/reports/reporters/grading_reports.py:109-111 | a listed pile's size is at most the summed sizes |
| GradingReports.EmptyPileSizes | src/reports/reporters/grading_reports.py:104-111 | no piles, or only empty ones, sum to 0 |
| GradingReports.AssignedCountAddOne | src/reports/reporters/grading_reports.py:109-111 | filing one more submission in a TA's pile adds one to their assigned total |
| GradingReports.Percent | src/reports/reporters/grading_reports.py:117-128 | `100*k // n if n else 0` is the floor of the percentage, at most 100, and 0 for no graded submissions |
| GradingReports.PercentCellIsF | src/reports/reporters/grading_reports.py:129 | `f"{f(p)}%"` of a whole percentage is its plain decimal followed by `%` |
| GradingReports.StaffRowFor | src/reports/reporters/grading_reports.py:98-115 | a row fails exactly when a graded submission has no grading time; otherwise it has the TA's name, the graded and assigned counts, and assigned minus graded as the difference |
| GradingReports.StaffRowPercents | src/reports/reporters/grading_reports.py:117-143 | the week and two-week columns are the floored shares of graded submissions in each age band, 0 when nothing is graded, and add up to at most 100 |
| GradingReports.PercentsShareHundred | src/reports/reporters/grading_reports.py:117-143 | floored percentages of two disjoint parts of the same whole add up to at most 100 |
| GradingReports.DifferenceMayBeNegative | src/reports/reporters/grading_reports.py:114-115 | a TA who graded submissions but has no assigned piles gets a negative difference |
| GradingReports.StaffRows | src/reports/reporters/grading_reports.py:98-143 | the rows fail exactly when some staff member's row fails, and otherwise give one row per staff member in order (an instance of `Collections.MapResult`) |
| GradingReports.StaffRowsNames | src/reports/reporters/grading_reports.py:98-99 | row `i` of the sheet's rows carries the name of staff member `i` |
| GradingReports.RowCells | src/reports/reporters/grading_reports.py:99-143 | a row has one cell per header, the name first and the two percentages with `%` last |
| GradingReports.GradingSheet | src/reports/reporters/grading_reports.py:95-143 | the sheet of a course fails exactly when some staff member's row fails; otherwise the headers are row 0 and the course's staff member `i`, in `course["staff"]` order, fills row `i + 1` with their six cells starting with their name |
| GradingReports.SheetRowPerStaffId | src/reports/reporters/grading_reports.py:98-99 | for a course whose staff is built from its cohorts, the sheet has one row per distinct cohort staff id and no other, in the order each id is first listed, each named after that id's last listing |
| EmailService.FieldValue | src/email_service.py:35-37 | only `course_name` and `user_name` are known template fields; any other raises |
| EmailService.Format | src/email_service.py:35-37 | a template without braces formats to itself |
| EmailService.FormatEscape | src/email_service.py:35-37 | formatting a text whose braces are doubled gives the text back |
| EmailService.EscapePlain | src/email_service.py:35-37 | a text without braces is its own escaped form |
| EmailService.FormatConcat | src/email_service.py:35-37 | formatting a concatenation is the concatenation of the formatted parts, and the second part's error when it fails |
| EmailService.FormatField | src/email_service.py:35-37 | `{name}` formats to the field's value, or raises for an unknown name |
| EmailService.FormatCourseLine | src/email_service.py:35-37 | a subject `{course_name}…{user_name}` with brace-free middle text formats to course name, middle text, user name |
| EmailService.FormatThree | src/email_service.py:35-37 | three formattable parts format together to their formatted concatenation |
| EmailService.ToHeaderAsWritten | src/email_service.py:39 | as written, the `To` header is the name, ` <`, then the email, with no closing `>` |
| EmailService.ToHeader | src/email_service.py:39 | corrected: the header ends with `>` and is three characters longer than name and email |
| EmailService.LastIndex | src/email_service.py:39 | the last position of a character before a bound, or none |
| EmailService.ParseAddress | src/email_service.py:39 | a parsed header is exactly the corrected header of the parsed name and email |
| EmailService.ToHeaderRoundTrip | src/email_service.py:39 | the corrected header parses back to its name and email, for any email without angle brackets |
| EmailService.ToHeaderAsWrittenUnreadable | src/email_service.py:39 | for an email not ending in `>`, the header as written is not of the form `name <email>` that `ParseAddress` reads; Python's own header parser is more lenient, keeping the address and recording a missing-`>` defect |
| EmailService.ToHeaderCounterexample | src/email_service.py:39 | `"Ada"`, `"ada@udel.edu"` gives `Ada <ada@udel.edu`, which does not parse, while the corrected header round-trips |
| EmailService.Filenames | src/email_service.py:53-60 | one attachment per report, in order, named by the report's filename |
| EmailService.SendEmail | src/email_service.py:28-74 | no reports raises `IndexError`; a lone report's subject is its formatted template and several share a fixed subject; the sender is fixed; the string assigned to `msg["To"]` is the first report's name and email as written, without the closing `>`; the attachments are all reports in order; the function always returns False |
| EmailService.SentHeaderUnclosed | src/email_service.py:39 | the string `send_email` assigns to `msg["To"]` is not the mailbox form `name <email>`, and for an email not ending in `>` it does not read back as one |
| EmailService.BodyDependsOnCount | src/email_service.py:42-51 | the body text is decided by whether there are several reports, and differs between one and several |
| EmailService.AllReports | src/email_service.py:18-19 | a report is listed exactly when some report set holds it |
| EmailService.Recipients | src/email_service.py:17-23 | `grouped_targets` has no email twice and has exactly the target emails of the reports the allow-list keeps |
| EmailService.RecipientsPartition | src/email_service.py:17-23 | each kept report lands in exactly one batch, the batch of its target email, in order; no batch is empty and no email has two |
| EmailService.KeptIffAllowed | src/email_service.py:21-22 | a report is kept exactly when the allow-list is empty or names its target |
| EmailService.SendAll | src/email_service.py:24-25 | message `i` is `send_email` of batch `i`, for every batch in order; the run fails exactly when some batch fails, with the first failing batch's error |
| EmailService.SendEmails | src/email_service.py:14-25 | a run sends, per recipient in first-met order, the message `send_email` builds from that recipient's reports, and stops exactly when some recipient's lone report has a subject that does not format |
| EmailService.SendEmailsFailsOnlyOnSubject | src/email_service.py:24-25 | batches are never empty, so a run can only stop on a lone report whose subject template does not format |

## Left out

- Fetching from Canvas (`CanvasRequest.get`, paging, caching, the course record itself) is left out; the fetched lists are inputs of `Canvas.RehydrateCourse`.
- The `speed_grader_url` string is left out; a link carries the assignment and user ids it would be filled with.
- PDF and XLSX rendering (fonts, `make_table`, file output) is left out; tables are sequences of cell strings.
- SMTP, attachment file reading, logging and `Settings` are left out; `send_email` is modelled up to the message it builds.
- Floating point is left out: scores are exact reals.
  - The `"%.2f"` renderings in `iqr`, `get_normal_stats` and the percent strings of the extents tables are not modelled; `f` is modelled on the text of a two-decimal rendering.
  - `sqrt` (standard deviation) is not modelled.
  - `round(math.log2(age))` is computed exactly on integers. A tie would need `log2(age)` to be half an odd integer, which no integer age gives.
- The variance identity `E[x²] - E[x]²` is not modelled; `StatsHelpers.GetNormalStats` states the definition of mean and variance directly.
- `str.format` is modelled for named fields and doubled braces only. Conversions, format specs, attribute access and positional fields are left out; such templates read as errors.
- `KeyError` carries the key's text rather than its `repr`.
- The `Report` classes are reduced to the fields `send_email` reads.
- The cohort dict of `rehydrate_course` is a sequence of named cohorts. Distinct names are assumed, as the source's comment says.
- Canvas.RehydrateCourse: submission ids are taken to be unique. With a repeated id the source keys the hydrated records by id before dropping the `None` of an unknown submitter, so a later unknown submitter can also remove an earlier known one. The model drops first, then keys.
- `assignment_groups` is the set of fetched group ids; `hydrate_assignment` stores the group record, which the model does not need.
- The staff map built inline in `make_ungraded_reports` (`src/reports/ungraded_reports.py:21-29`) is the same loop as `get_staff_for_student` and is modelled by `CourseHelpers.GetStaffForStudent`.
- The copies of `check_recency` and `days_old` in `src/reports/ungraded_reports.py` are the same as those in `src/reports/course_helpers.py`. They are modelled once, as `CourseHelpers.CheckRecency` and `CourseHelpers.DaysOld`.
- `classify_availability` in `src/reports/ungraded_reports.py` repeats the override resolution and is modelled by `CourseHelpers.ResolveWindow` and `CourseHelpers.ClassifyAvailability`.
- The extents and statistics of the legacy `src/reports/score_reports.py` are modelled by the reporter's versions, except where the two differ: the non-zero fractions, unclamped `iqr` and unguarded `get_normal_stats`.
- EmailService.SendEmail: `to` is the string assigned to `msg["To"]`. Python's email library parses it on assignment, supplies the missing `>` and records an `InvalidHeaderDefect`, so the header sent reads `name <email>`; that re-rendering is not modelled.
- UngradedReports.FlatPile: the sort's ordering and permutation are stated; stability, which orders items with equal age and status, is not.
- ScoreReporter.CombineTables: the key order of the returned dict is not stated; the entries and their contents are.
- Text.Lower: only the ASCII capitals `A`–`Z` are lowered. Python's `str.lower` also lowers other capitals (`'Ä'` becomes `'ä'`) and can lengthen a string (`'İ'` becomes two characters), so an email with such a capital is cleaned and resolved differently in the model. Unicode case tables are out of scope.
- CourseHelpers.DaysOld: its contract states the definition; `CanvasRequest.DaysBetween` states the day arithmetic.
- The `"unknown"` status of `classify_submission` is unreachable: the branch before it covers every submission without a submission time. It is not modelled.

Two details of the code worth stating:

- **Link-list buckets.** Links are bucketed by `round(log2(age))` (`src/reports/ungraded_reports.py:135`), not by its floor; `UngradedReports.LogBucket` models the rounding.
- **Submission count.** Submissions are keyed by id (`src/canvas.py:68-71`), so duplicate ids collapse (`Collections.ByKey`).

## Findings

| source | as written | input that shows it | evidently intended | confidence | as-written member | corrected member |
|---|---|---|---|---|---|---|
| src/reports/score_reports.py:64-69 | `iqr` indexes `scores[ceil(n*0.75)]` without clamping | the one score `[50.0]`: index 1 is out of range, `IndexError` | clamp with `min(n - 1, …)` as `src/reports/stats_helpers.py:13-15` does | not executed | LegacyScoreReports.OneScoreCounterexample | StatsHelpers.Iqr |
| src/email_service.py:39 | the string assigned to `msg["To"]` is `f"{name} <{email}"`, with no closing `>`, as `EmailService.SendEmail` builds it; the email library supplies the `>` when it parses the string | name `"Ada"`, email `"ada@udel.edu"` gives `Ada <ada@udel.edu` | `f"{name} <{email}>"` | not executed | EmailService.ToHeaderCounterexample | EmailService.ToHeaderRoundTrip |
| src/canvas.py:47-52 | member id sets are stored into `group_memberships[group['id']]`, so `group_membership_ids` stays empty | a group 7 with member 1 and an assignment with a group-7 override: the override never applies to user 1 | store them in `group_membership_ids[group['id']]` | not executed | Canvas.GroupOverrideCounterexample | Canvas.GroupOverridesMatchMembers |
| src/reports/score_reports.py:80-82 | `get_normal_stats` divides by `len(scores)` without a guard; a latent defect, since its one caller runs `iqr` on the same list first and `iqr` already raises `IndexError` on every list shorter than four | `get_normal_stats([])`, which a grader whose every score is 0 would reach if `iqr` were clamped: `ZeroDivisionError` | return blanks for no scores, as `src/reports/stats_helpers.py:27-28` does | not executed | LegacyScoreReports.AllZeroGraderRaises | LegacyScoreReports.LegacyNormalStatsAgree |

=== FILE: canvas.dfy ===
/** The pure transforms of `src/canvas.py` that turn the fetched lists into a
    course: cleaned users indexed by id and email, students, cohorts, staff
    and instructors resolved by email, group memberships, assignments joined
    to their groups, and submissions joined to their users, assignments and
    graders. The fetching itself is not modelled; the fetched lists are
    inputs. */
module Canvas {

  import opened Wrappers
  import opened CanvasData
  import opened Collections
  import Text
  import CourseHelpers

  // ---------------------------------------------------------------------------
  // Users

  predicate HasEmail(u: User) {
    u.email.Some?
  }

  /** `[u for u in [clean_user(u) for u in users] if u]`. */
  function CleanUsers(us: seq<User>): (r: seq<User>)
    ensures |r| == Count(us, HasEmail)
    ensures forall i :: 0 <= i < |r| ==> r[i].email.Some? && Text.Lower(r[i].email.value) == r[i].email.value
    ensures forall j :: 0 <= j < |us| && us[j].email.Some? ==> CleanUser(us[j]).value in r
    ensures |r| == |Select(us, HasEmail)| && forall i :: 0 <= i < |r| ==> r[i] == CleanUser(Select(us, HasEmail)[i]).value
    decreases |us|
  {
    if |us| == 0 then []
    else
      var pre := CleanUsers(us[..|us| - 1]);
      var u := us[|us| - 1];
      match CleanUser(u)
      case None => pre
      case Some(c) =>
        Text.LowerIdempotent(u.email.value);
        assert forall j :: 0 <= j < |us| - 1 ==> us[j] == us[..|us| - 1][j];
        assert Select(us, HasEmail) == Select(us[..|us| - 1], HasEmail) + [u];
        pre + [c]
  }

  /** Cleaning the cleaned list changes nothing. */
  lemma {:induction false} CleanUsersIdempotent(us: seq<User>)
    ensures CleanUsers(CleanUsers(us)) == CleanUsers(us)
    decreases |us|
  {
    if |us| > 0 {
      var pre := us[..|us| - 1];
      var u := us[|us| - 1];
      CleanUsersIdempotent(pre);
      if u.email.Some? {
        var r := CleanUsers(us);
        assert r == CleanUsers(pre) + [CleanUser(u).value];
        assert r[..|r| - 1] == CleanUsers(pre);
        CleanUserIdempotent(u);
      }
    }
  }

  function UserId(u: User): int {
    u.id
  }

  /** The email of a cleaned user; every user of the cleaned list has one. */
  function UserEmail(u: User): string {
    u.email.GetOr("")
  }

  /** `user_by_id`: every id of the list, each bound to the user listed last
      with that id. */
  function UsersById(us: seq<User>): (m: map<int, User>)
    ensures forall k :: k in m <==> exists i :: 0 <= i < |us| && us[i].id == k
    ensures forall k :: k in m ==> m[k].id == k && m[k] in us
    ensures forall i :: 0 <= i < |us| && (forall j :: i < j < |us| ==> us[j].id != us[i].id) ==> m[us[i].id] == us[i]
  {
    forall i | 0 <= i < |us| && (forall j :: i < j < |us| ==> us[j].id != us[i].id)
      ensures ByKey(us, UserId)[us[i].id] == us[i]
    {
      ByKeyLastWins(us, UserId, i);
    }
    ByKey(us, UserId)
  }

  /** `user_by_email`: every email of the (cleaned) list, each bound to the
      user listed last with that email. */
  function UsersByEmail(us: seq<User>): (m: map<string, User>)
    ensures forall k :: k in m <==> exists i :: 0 <= i < |us| && UserEmail(us[i]) == k
    ensures forall k :: k in m ==> UserEmail(m[k]) == k && m[k] in us
    ensures forall i :: 0 <= i < |us| && (forall j :: i < j < |us| ==> UserEmail(us[j]) != UserEmail(us[i])) ==>
      m[UserEmail(us[i])] == us[i]
  {
    forall i | 0 <= i < |us| && (forall j :: i < j < |us| ==> UserEmail(us[j]) != UserEmail(us[i]))
      ensures ByKey(us, UserEmail)[UserEmail(us[i])] == us[i]
    {
      ByKeyLastWins(us, UserEmail, i);
    }
    ByKey(us, UserEmail)
  }

  predicate IsStudent(u: User) {
    exists i :: 0 <= i < |u.enrollments| && u.enrollments[i].kind == StudentEnrollment
  }

  /** `cloned['students']`: the users with at least one student enrollment,
      by id. */
  function Students(us: seq<User>): (r: map<int, User>)
    ensures forall k :: k in r <==> exists i :: 0 <= i < |us| && us[i].id == k && IsStudent(us[i])
    ensures forall k :: k in r ==> r[k].id == k && IsStudent(r[k]) && r[k] in us
    decreases |us|
  {
    if |us| == 0 then map[]
    else
      var pre := us[..|us| - 1];
      var u := us[|us| - 1];
      assert forall i :: 0 <= i < |pre| ==> pre[i] == us[i];
      assert forall x :: x in pre ==> x in us;
      var m := Students(pre);
      if IsStudent(u) then m[u.id := u] else m
  }

  // ---------------------------------------------------------------------------
  // Lookups that raise

  /** `[m[k] for k in ks]`: the first absent key raises `KeyError`. */
  function LookupAll<K(==), V>(ks: seq<K>, m: map<K, V>, show: K -> string): (r: Result<seq<V>>)
    ensures r.Err? <==> exists i :: 0 <= i < |ks| && ks[i] !in m
    ensures r.Err? ==> exists i :: 0 <= i < |ks| && ks[i] !in m && r.error == KeyError(show(ks[i]))
                                 && forall j :: 0 <= j < i ==> ks[j] in m
    ensures r.Ok? ==> |r.value| == |ks| && forall i :: 0 <= i < |ks| ==> r.value[i] == m[ks[i]]
    decreases |ks|
  {
    if |ks| == 0 then Ok([])
    else
      var pre := ks[..|ks| - 1];
      var k := ks[|ks| - 1];
      match LookupAll(pre, m, show)
      case Err(e) =>
        assert forall i :: 0 <= i < |pre| ==> pre[i] == ks[i];
        Err(e)
      case Ok(vs) =>
        if k in m then Ok(vs + [m[k]])
        else
          assert forall j :: 0 <= j < |pre| ==> ks[j] == pre[j];
          Err(KeyError(show(k)))
  }

  function LowerAll(emails: seq<string>): (r: seq<string>)
    ensures |r| == |emails| && forall i :: 0 <= i < |emails| ==> r[i] == Text.Lower(emails[i])
  {
    seq(|emails|, i requires 0 <= i < |emails| => Text.Lower(emails[i]))
  }

  function ShowEmail(e: string): string {
    e
  }

  /** `[user_by_email[email.lower()] for email in emails]`. */
  function ResolveEmails(emails: seq<string>, byEmail: map<string, User>): (r: Result<seq<User>>)
    ensures r.Err? <==> exists i :: 0 <= i < |emails| && Text.Lower(emails[i]) !in byEmail
    ensures r.Ok? ==> |r.value| == |emails|
    ensures r.Ok? ==> forall i :: 0 <= i < |emails| ==> r.value[i] == byEmail[Text.Lower(emails[i])]
  {
    var ls := LowerAll(emails);
    var r := LookupAll(ls, byEmail, ShowEmail);
    assert r.Err? ==> exists i :: 0 <= i < |emails| && Text.Lower(emails[i]) !in byEmail by {
      if r.Err? {
        var i :| 0 <= i < |ls| && ls[i] !in byEmail;
      }
    }
    r
  }

  /** Email addresses are matched case-insensitively: an address written in
      any case finds the cleaned user whose address it lower-cases to. */
  lemma ResolveIgnoresCase(us: seq<User>, e: string)
    requires exists i :: 0 <= i < |us| && us[i].email == Some(Text.Lower(e))
    ensures ResolveEmails([e], UsersByEmail(us)).Ok?
    ensures UserEmail(ResolveEmails([e], UsersByEmail(us)).value[0]) == Text.Lower(e)
  {
    var i :| 0 <= i < |us| && us[i].email == Some(Text.Lower(e));
    assert UserEmail(us[i]) == Text.Lower(e);
  }

  // ---------------------------------------------------------------------------
  // Cohorts, staff and instructors

  /** A cohort as stored in the course settings: a name and member emails. */
  datatype RawCohort = RawCohort(name: string, emails: seq<string>)

  /** `cloned['cohorts']`: no cohorts when the settings have none, otherwise
      every cohort with its emails resolved; an unknown email raises. */
  function ResolveCohorts(raw: Option<seq<RawCohort>>, byEmail: map<string, User>): (r: Result<seq<CourseHelpers.Cohort>>)
    ensures raw.None? ==> r == Ok([])
    ensures raw.Some? ==> (r.Err? <==> exists i, j :: 0 <= i < |raw.value| && 0 <= j < |raw.value[i].emails|
                                                     && Text.Lower(raw.value[i].emails[j]) !in byEmail)
    ensures raw.Some? && r.Ok? ==> |r.value| == |raw.value|
    ensures raw.Some? && r.Ok? ==> forall i :: 0 <= i < |raw.value| ==>
      && r.value[i].name == raw.value[i].name
      && |r.value[i].staff| == |raw.value[i].emails|
      && forall j :: 0 <= j < |raw.value[i].emails| ==> r.value[i].staff[j] == byEmail[Text.Lower(raw.value[i].emails[j])]
  {
    match raw
    case None => Ok([])
    case Some(cs) => ResolveCohortList(cs, byEmail)
  }

  function ResolveCohortList(cs: seq<RawCohort>, byEmail: map<string, User>): (r: Result<seq<CourseHelpers.Cohort>>)
    ensures r.Err? <==> exists i :: 0 <= i < |cs| && ResolveEmails(cs[i].emails, byEmail).Err?
    ensures r.Ok? ==> |r.value| == |cs|
    ensures r.Ok? ==> forall i :: 0 <= i < |cs| ==>
      r.value[i] == CourseHelpers.Cohort(cs[i].name, ResolveEmails(cs[i].emails, byEmail).value)
    decreases |cs|
  {
    if |cs| == 0 then Ok([])
    else
      var pre := cs[..|cs| - 1];
      var c := cs[|cs| - 1];
      assert forall i :: 0 <= i < |pre| ==> pre[i] == cs[i];
      match ResolveCohortList(pre, byEmail)
      case Err(e) => Err(e)
      case Ok(done) =>
        match ResolveEmails(c.emails, byEmail)
        case Err(e) => Err(e)
        case Ok(staff) => Ok(done + [CourseHelpers.Cohort(c.name, staff)])
  }

  /** Every cohort member, cohort after cohort. */
  function AllStaff(cohorts: seq<CourseHelpers.Cohort>): (r: seq<User>)
    ensures forall u :: u in r <==> exists i :: 0 <= i < |cohorts| && u in cohorts[i].staff
    decreases |cohorts|
  {
    if |cohorts| == 0 then []
    else
      var pre := cohorts[..|cohorts| - 1];
      assert forall i :: 0 <= i < |pre| ==> pre[i] == cohorts[i];
      AllStaff(pre) + cohorts[|cohorts| - 1].staff
  }

  /** `cloned['staff']`: the members of all cohorts keyed by id, in the dict's
      insertion order. A member listed in several cohorts has one entry, at
      the place of their first listing, holding their last listing. */
  function Staff(cohorts: seq<CourseHelpers.Cohort>): (r: seq<User>)
    ensures forall i, j :: 0 <= i < j < |r| ==> r[i].id != r[j].id
    ensures forall k :: Occurs(r, UserId, k) <==>
      exists i, j :: 0 <= i < |cohorts| && 0 <= j < |cohorts[i].staff| && cohorts[i].staff[j].id == k
    ensures forall n :: 0 <= n < |r| ==>
      && r[n].id in ByKey(AllStaff(cohorts), UserId)
      && r[n] == ByKey(AllStaff(cohorts), UserId)[r[n].id]
      && exists i :: 0 <= i < |cohorts| && r[n] in cohorts[i].staff
    ensures forall m, n :: 0 <= m < n < |r| ==>
      FirstAt(AllStaff(cohorts), UserId, r[m].id) < FirstAt(AllStaff(cohorts), UserId, r[n].id)
  {
    var all := AllStaff(cohorts);
    var r := ByKeyOrdered(all, UserId);
    StaffKeys(cohorts);
    ByKeyOrderedLastWins(all, UserId);
    ByKeyOrderedFirstAppearance(all, UserId);
    assert forall n :: 0 <= n < |r| ==> r[n] in all by {
      forall n | 0 <= n < |r| ensures r[n] in all {
        assert r[n] == ByKey(all, UserId)[UserId(r[n])];
      }
    }
    r
  }

  /** A user id occurs among the flattened cohorts exactly when some cohort
      lists a member with that id. */
  lemma StaffKeys(cohorts: seq<CourseHelpers.Cohort>)
    ensures forall k :: Occurs(AllStaff(cohorts), UserId, k) <==>
      exists i, j :: 0 <= i < |cohorts| && 0 <= j < |cohorts[i].staff| && cohorts[i].staff[j].id == k
  {
    var all := AllStaff(cohorts);
    forall k | Occurs(all, UserId, k)
      ensures exists i, j :: 0 <= i < |cohorts| && 0 <= j < |cohorts[i].staff| && cohorts[i].staff[j].id == k
    {
      var n :| 0 <= n < |all| && UserId(all[n]) == k;
      assert all[n] in all;
      var i :| 0 <= i < |cohorts| && all[n] in cohorts[i].staff;
      var j :| 0 <= j < |cohorts[i].staff| && cohorts[i].staff[j] == all[n];
    }
    forall i, j | 0 <= i < |cohorts| && 0 <= j < |cohorts[i].staff| ensures Occurs(all, UserId, cohorts[i].staff[j].id) {
      var u := cohorts[i].staff[j];
      assert u in all;
      var n :| 0 <= n < |all| && all[n] == u;
      assert UserId(all[n]) == u.id;
    }
  }

  /** `cloned['instructors']`: none when the settings list none, otherwise
      every email resolved, in order. */
  function Instructors(raw: Option<seq<string>>, byEmail: map<string, User>): (r: Result<seq<User>>)
    ensures raw.None? ==> r == Ok([])
    ensures raw.Some? ==> (r.Err? <==> exists i :: 0 <= i < |raw.value| && Text.Lower(raw.value[i]) !in byEmail)
    ensures raw.Some? && r.Ok? ==>
              && |r.value| == |raw.value|
              && forall i :: 0 <= i < |raw.value| ==> r.value[i] == byEmail[Text.Lower(raw.value[i])]
  {
    match raw
    case None => Ok([])
    case Some(es) => ResolveEmails(es, byEmail)
  }

  // ---------------------------------------------------------------------------
  // Group memberships

  /** A group with the ids of its members, as fetched. */
  datatype RawGroup = RawGroup(group: Group, memberIds: seq<int>)

  /** The three membership tables. Python keeps the first two in the one dict
      `group_memberships`, under the group's name and under its id; the model
      splits them by key type. */
  datatype Memberships = Memberships(
    byName: map<string, seq<User>>,
    idSets: map<int, set<int>>,
    membershipIds: map<int, set<int>>)

  function MemberSet(ids: seq<int>): set<int> {
    set i | 0 <= i < |ids| :: ids[i]
  }

  /** Some group lists a member id that is not a known user. */
  ghost predicate UnknownMember(groups: seq<RawGroup>, byId: map<int, User>) {
    exists i :: 0 <= i < |groups| && UnknownId(groups[i].memberIds, byId)
  }

  /** Some id of `ids` is not a key of `byId`. */
  ghost predicate UnknownId(ids: seq<int>, byId: map<int, User>) {
    exists j :: 0 <= j < |ids| && ids[j] !in byId
  }

  lemma UnknownMemberSnoc(groups: seq<RawGroup>, byId: map<int, User>)
    requires |groups| > 0
    ensures UnknownMember(groups, byId) <==>
      || UnknownMember(groups[..|groups| - 1], byId)
      || UnknownId(groups[|groups| - 1].memberIds, byId)
  {
    var pre := groups[..|groups| - 1];
    assert forall i :: 0 <= i < |pre| ==> pre[i] == groups[i];
  }

  /** The membership loop. With `fillIds` false it is the loop as written:
      the id sets go into `group_memberships` and `group_membership_ids`
      keeps its initial `{}`. With `fillIds` true the same sets also go into
      `group_membership_ids`, which is what the override matching reads. */
  function BuildMemberships(groups: seq<RawGroup>, byId: map<int, User>, fillIds: bool): (r: Result<Memberships>)
    ensures r.Err? <==> UnknownMember(groups, byId)
    ensures r.Ok? ==> forall k :: k in r.value.byName <==> exists i :: 0 <= i < |groups| && groups[i].group.name == k
    ensures r.Ok? ==> forall k :: k in r.value.idSets <==> exists i :: 0 <= i < |groups| && groups[i].group.id == k
    ensures r.Ok? ==> r.value.membershipIds == if fillIds then r.value.idSets else map[]
    decreases |groups|
  {
    if |groups| == 0 then Ok(Memberships(map[], map[], map[]))
    else
      var pre := groups[..|groups| - 1];
      var g := groups[|groups| - 1];
      assert forall i :: 0 <= i < |pre| ==> pre[i] == groups[i];
      UnknownMemberSnoc(groups, byId);
      match BuildMemberships(pre, byId, fillIds)
      case Err(e) => Err(e)
      case Ok(m) =>
        match LookupAll(g.memberIds, byId, Text.IntText)
        case Err(e) => Err(e)
        case Ok(members) =>
          var ids := MemberSet(g.memberIds);
          Ok(Memberships(
            m.byName[g.group.name := members],
            m.idSets[g.group.id := ids],
            if fillIds then m.membershipIds[g.group.id := ids] else m.membershipIds))
  }

  /** The id set of a group is the set of its fetched member ids, taken from
      the last group with that id. */
  lemma {:induction false} IdSetsLastWins(groups: seq<RawGroup>, byId: map<int, User>, fillIds: bool, i: nat)
    requires BuildMemberships(groups, byId, fillIds).Ok?
    requires i < |groups|
    requires forall j :: i < j < |groups| ==> groups[j].group.id != groups[i].group.id
    ensures groups[i].group.id in BuildMemberships(groups, byId, fillIds).value.idSets
    ensures BuildMemberships(groups, byId, fillIds).value.idSets[groups[i].group.id] == MemberSet(groups[i].memberIds)
    decreases |groups|
  {
    var pre := groups[..|groups| - 1];
    if i < |groups| - 1 {
      assert forall j :: 0 <= j < |pre| ==> pre[j] == groups[j];
      IdSetsLastWins(pre, byId, fillIds, i);
    }
  }

  /** Filling the ids changes only `group_membership_ids`. */
  lemma {:induction false} BuildMembershipsFillOnly(groups: seq<RawGroup>, byId: map<int, User>)
    ensures BuildMemberships(groups, byId, false).Ok? <==> BuildMemberships(groups, byId, true).Ok?
    ensures BuildMemberships(groups, byId, false).Ok? ==>
      var m := BuildMemberships(groups, byId, false).value;
      BuildMemberships(groups, byId, true).value == m.(membershipIds := m.idSets)
    decreases |groups|
  {
    if |groups| > 0 {
      BuildMembershipsFillOnly(groups[..|groups| - 1], byId);
    }
  }

  /** `group_memberships` and `group_membership_ids` as the loop leaves them. */
  function MembershipsAsWritten(groups: seq<RawGroup>, byId: map<int, User>): (r: Result<Memberships>)
    ensures r.Ok? ==> r.value.membershipIds == map[]
  {
    BuildMemberships(groups, byId, false)
  }

  /** The loop with `group_membership_ids` filled as its readers expect. */
  function GroupMemberships(groups: seq<RawGroup>, byId: map<int, User>): (r: Result<Memberships>)
    ensures r.Ok? ==> r.value.membershipIds == r.value.idSets
  {
    BuildMemberships(groups, byId, true)
  }

  /** As written, no group override can ever match: the map the matching
      reads is empty. */
  lemma GroupOverridesNeverMatch(groups: seq<RawGroup>, byId: map<int, User>, o: Override, u: User)
    requires MembershipsAsWritten(groups, byId).Ok?
    ensures !CourseHelpers.Matches(o, CourseHelpers.GroupPass, u, MembershipsAsWritten(groups, byId).value.membershipIds)
  {
  }

  /** With the ids filled in, a group override matches exactly the members
      of its group. */
  lemma GroupOverridesMatchMembers(groups: seq<RawGroup>, byId: map<int, User>, i: nat, o: Override, u: User)
    requires GroupMemberships(groups, byId).Ok?
    requires i < |groups|
    requires forall j :: i < j < |groups| ==> groups[j].group.id != groups[i].group.id
    requires o.groupId == Some(groups[i].group.id)
    ensures CourseHelpers.Matches(o, CourseHelpers.GroupPass, u, GroupMemberships(groups, byId).value.membershipIds)
            <==> u.id in groups[i].memberIds
  {
    IdSetsLastWins(groups, byId, true, i);
    var ids := groups[i].memberIds;
    if u.id in ids {
      var k :| 0 <= k < |ids| && ids[k] == u.id;
      assert u.id in MemberSet(ids);
    }
  }

  /** One group holding user 1 and an assignment with one override for that
      group: as written the user keeps the assignment's own dates, with the
      ids filled in they get the override's. */
  lemma GroupOverrideCounterexample()
    ensures var u := User(1, "Ada", Some("ada@example.edu"), []);
      var groups := [RawGroup(Group(7, "Team"), [1])];
      var byId := map[1 := u];
      var w := Window(At(100), Null, Null);
      var a := Assignment(3, "Lab", Window(At(50), Null, Null), Some(10.0), [Override(None, Some(7), None, w)]);
      && MembershipsAsWritten(groups, byId).Ok?
      && GroupMemberships(groups, byId).Ok?
      && CourseHelpers.ResolveWindow(a, u, MembershipsAsWritten(groups, byId).value.membershipIds) == a.window
      && CourseHelpers.ResolveWindow(a, u, GroupMemberships(groups, byId).value.membershipIds) == w
  {
    var u := User(1, "Ada", Some("ada@example.edu"), []);
    var groups := [RawGroup(Group(7, "Team"), [1])];
    var byId := map[1 := u];
    var w := Window(At(100), Null, Null);
    var a := Assignment(3, "Lab", Window(At(50), Null, Null), Some(10.0), [Override(None, Some(7), None, w)]);
    GroupOverridesMatchMembers(groups, byId, 0, a.overrides[0], u);
    assert CourseHelpers.Matches(a.overrides[0], CourseHelpers.GroupPass, u, GroupMemberships(groups, byId).value.membershipIds);
    GroupOverridesNeverMatch(groups, byId, a.overrides[0], u);
    assert !CourseHelpers.Matches(a.overrides[0], CourseHelpers.StudentPass, u, map[]);
    assert !CourseHelpers.Matches(a.overrides[0], CourseHelpers.SectionPass, u, map[]);
  }

  // ---------------------------------------------------------------------------
  // Assignments

  /** An assignment as fetched, with the id of its assignment group. */
  datatype RawAssignment = RawAssignment(assignment: Assignment, groupId: int)

  /** `cloned['assignments']`: each assignment by id, once its group is
      found; an unknown group id raises. */
  function HydrateAssignments(raws: seq<RawAssignment>, groupIds: set<int>): (r: Result<map<int, Assignment>>)
    ensures r.Err? <==> exists i :: 0 <= i < |raws| && raws[i].groupId !in groupIds
    ensures r.Ok? ==> forall k :: k in r.value <==> exists i :: 0 <= i < |raws| && raws[i].assignment.id == k
    ensures r.Ok? ==> forall k :: k in r.value ==> r.value[k].id == k
    ensures r.Ok? ==> forall k :: k in r.value ==> LastListed(raws, k, r.value[k])
    decreases |raws|
  {
    if |raws| == 0 then Ok(map[])
    else
      var pre := raws[..|raws| - 1];
      var a := raws[|raws| - 1];
      assert forall i :: 0 <= i < |pre| ==> pre[i] == raws[i];
      match HydrateAssignments(pre, groupIds)
      case Err(e) => Err(e)
      case Ok(m) =>
        if a.groupId !in groupIds then Err(KeyError(Text.IntText(a.groupId)))
        else
          var m' := m[a.assignment.id := a.assignment];
          assert LastListed(raws, a.assignment.id, a.assignment) by {
            assert raws[|raws| - 1].assignment == a.assignment;
          }
          forall k | k in m && k != a.assignment.id ensures LastListed(raws, k, m[k]) {
            LastListedSnoc(raws, k, m[k]);
          }
          Ok(m')
  }

  /** `a` is the assignment of the last fetched record with id `k`, the one a
      dict comprehension keeps. */
  ghost predicate LastListed(raws: seq<RawAssignment>, k: int, a: Assignment) {
    exists i :: 0 <= i < |raws| && raws[i].assignment == a && forall j :: i < j < |raws| ==> raws[j].assignment.id != k
  }

  lemma LastListedSnoc(raws: seq<RawAssignment>, k: int, a: Assignment)
    requires |raws| > 0 && raws[|raws| - 1].assignment.id != k
    requires LastListed(raws[..|raws| - 1], k, a)
    ensures LastListed(raws, k, a)
  {
    var pre := raws[..|raws| - 1];
    var i :| 0 <= i < |pre| && pre[i].assignment == a && forall j :: i < j < |pre| ==> pre[j].assignment.id != k;
    assert raws[i] == pre[i];
    forall j | i < j < |raws| ensures raws[j].assignment.id != k {
      if j < |pre| {
        assert raws[j] == pre[j];
      }
    }
  }

  // ---------------------------------------------------------------------------
  // Submissions

  /** A submission as fetched: its user, assignment and grader are ids. */
  datatype RawSubmission = RawSubmission(
    id: int,
    userId: int,
    assignmentId: int,
    graderId: Option<int>,
    attempt: Option<int>,
    grade: Option<string>,
    score: Option<real>,
    submittedAt: Option<int>,
    gradedAt: Option<int>,
    late: bool,
    missing: bool,
    workflowState: string)

  /** A submission's grader tag: none for no id, the sentinel itself for an id at most
      0, otherwise the user, which must be known. */
  function GraderFor(graderId: Option<int>, users: map<int, User>): (r: Result<Grader>)
    ensures graderId.None? ==> r == Ok(NoGrader)
    ensures graderId.Some? && graderId.value <= 0 ==> r == Ok(AutoGrader(graderId.value))
    ensures graderId.Some? && graderId.value > 0 ==>
      if graderId.value in users then r == Ok(HumanGrader(users[graderId.value]))
      else r == Err(KeyError(Text.IntText(graderId.value)))
  {
    match graderId
    case None => Ok(NoGrader)
    case Some(g) =>
      if g <= 0 then Ok(AutoGrader(g))
      else if g in users then Ok(HumanGrader(users[g]))
      else Err(KeyError(Text.IntText(g)))
  }

  /** `hydrate_submission`: nothing for a submitter who is not a known user;
      otherwise the assignment is looked up first, then its grader, and an
      unknown one of either raises. */
  function HydrateSubmission(raw: RawSubmission, users: map<int, User>, assignments: map<int, Assignment>): (r: Result<Option<Submission>>)
    ensures r == Ok(None) <==> raw.userId !in users
    ensures r.Err? <==> raw.userId in users && (raw.assignmentId !in assignments || GraderFor(raw.graderId, users).Err?)
    ensures raw.userId in users && raw.assignmentId !in assignments ==> r == Err(KeyError(Text.IntText(raw.assignmentId)))
    ensures r.Ok? && r.value.Some? ==>
      && r.value.value.id == raw.id
      && r.value.value.user == users[raw.userId]
      && r.value.value.assignment == assignments[raw.assignmentId]
      && r.value.value.grader == GraderFor(raw.graderId, users).value
  {
    if raw.userId !in users then Ok(None)
    else if raw.assignmentId !in assignments then Err(KeyError(Text.IntText(raw.assignmentId)))
    else
      match GraderFor(raw.graderId, users)
      case Err(e) => Err(e)
      case Ok(grader) =>
        Ok(Some(Submission(raw.id, users[raw.userId], assignments[raw.assignmentId],
                           raw.attempt, raw.grade, raw.score, raw.submittedAt, raw.gradedAt,
                           grader, raw.late, raw.missing, raw.workflowState)))
  }

  /** Which grader id a tag came from. */
  function GraderIdOf(g: Grader): Option<int> {
    match g
    case NoGrader => None
    case AutoGrader(n) => Some(n)
    case HumanGrader(u) => Some(u.id)
  }

  /** The fetched record a submission came from: the joined records replaced
      by their ids. */
  function RawOf(s: Submission): RawSubmission {
    RawSubmission(s.id, s.user.id, s.assignment.id, GraderIdOf(s.grader), s.attempt, s.grade,
                  s.score, s.submittedAt, s.gradedAt, s.late, s.missing, s.workflowState)
  }

  /** Each record is stored under its own id. */
  predicate KeyedUsers(users: map<int, User>) {
    forall k :: k in users ==> users[k].id == k
  }

  predicate KeyedAssignments(assignments: map<int, Assignment>) {
    forall k :: k in assignments ==> assignments[k].id == k
  }

  /** Hydrating loses nothing: the ids of the joined records give back the
      fetched record. */
  lemma HydrateRoundTrip(raw: RawSubmission, users: map<int, User>, assignments: map<int, Assignment>)
    requires KeyedUsers(users) && KeyedAssignments(assignments)
    requires HydrateSubmission(raw, users, assignments).Ok?
    requires HydrateSubmission(raw, users, assignments).value.Some?
    ensures RawOf(HydrateSubmission(raw, users, assignments).value.value) == raw
  {
  }

  /** A submission whose user, assignment and person grader are the records
      stored under their ids, and whose person grader has a positive id, is
      what hydrating its own fetched record gives. */
  lemma DehydrateRoundTrip(s: Submission, users: map<int, User>, assignments: map<int, Assignment>)
    requires s.user.id in users && users[s.user.id] == s.user
    requires s.assignment.id in assignments && assignments[s.assignment.id] == s.assignment
    requires s.grader.HumanGrader? ==>
      s.grader.user.id > 0 && s.grader.user.id in users && users[s.grader.user.id] == s.grader.user
    ensures HydrateSubmission(RawOf(s), users, assignments) == Ok(Some(s))
  {
  }

  function KnownUser(users: map<int, User>): RawSubmission -> bool {
    (raw: RawSubmission) => raw.userId in users
  }

  /** `cloned['submissions']` before it is keyed by id: every fetched record
      hydrated in order, those of unknown submitters dropped; the first that
      raises stops the course. */
  function HydrateAll(raws: seq<RawSubmission>, users: map<int, User>, assignments: map<int, Assignment>): (r: Result<seq<Submission>>)
    ensures r.Err? <==> SomeFails(raws, users, assignments)
    ensures r.Ok? ==> |r.value| == Count(raws, KnownUser(users))
    ensures r.Ok? && KeyedUsers(users) ==> forall x :: x in r.value ==> x.user.id in users
    decreases |raws|
  {
    if |raws| == 0 then Ok([])
    else
      var pre := raws[..|raws| - 1];
      var raw := raws[|raws| - 1];
      CountSnoc(raws, KnownUser(users));
      FailsSnoc(raws, users, assignments);
      match HydrateAll(pre, users, assignments)
      case Err(e) => Err(e)
      case Ok(done) =>
        match HydrateSubmission(raw, users, assignments)
        case Err(e) => Err(e)
        case Ok(None) => Ok(done)
        case Ok(Some(s)) =>
          assert s.user == users[raw.userId];
          Ok(done + [s])
  }

  /** Some record of `raws` fails to hydrate. */
  ghost predicate SomeFails(raws: seq<RawSubmission>, users: map<int, User>, assignments: map<int, Assignment>) {
    exists i :: 0 <= i < |raws| && HydrateSubmission(raws[i], users, assignments).Err?
  }

  lemma FailsSnoc(raws: seq<RawSubmission>, users: map<int, User>, assignments: map<int, Assignment>)
    requires |raws| > 0
    ensures SomeFails(raws, users, assignments) <==>
      SomeFails(raws[..|raws| - 1], users, assignments) || HydrateSubmission(raws[|raws| - 1], users, assignments).Err?
  {
    var pre := raws[..|raws| - 1];
    assert forall i :: 0 <= i < |pre| ==> pre[i] == raws[i];
  }

  function RawsOf(ss: seq<Submission>): (r: seq<RawSubmission>)
    ensures |r| == |ss| && forall i :: 0 <= i < |ss| ==> r[i] == RawOf(ss[i])
  {
    seq(|ss|, i requires 0 <= i < |ss| => RawOf(ss[i]))
  }

  /** The kept submissions are exactly the fetched records of known
      submitters, in order: nothing else is dropped and nothing is changed. */
  lemma {:induction false} HydrateAllKeepsKnown(raws: seq<RawSubmission>, users: map<int, User>, assignments: map<int, Assignment>)
    requires KeyedUsers(users) && KeyedAssignments(assignments)
    requires HydrateAll(raws, users, assignments).Ok?
    ensures RawsOf(HydrateAll(raws, users, assignments).value) == Select(raws, KnownUser(users))
    decreases |raws|
  {
    if |raws| > 0 {
      var pre := raws[..|raws| - 1];
      var raw := raws[|raws| - 1];
      HydrateAllKeepsKnown(pre, users, assignments);
      var done := HydrateAll(pre, users, assignments).value;
      var h := HydrateSubmission(raw, users, assignments);
      if h.value.Some? {
        HydrateRoundTrip(raw, users, assignments);
        assert HydrateAll(raws, users, assignments).value == done + [h.value.value];
        assert RawsOf(done + [h.value.value]) == RawsOf(done) + [raw];
      } else {
        assert HydrateAll(raws, users, assignments).value == done;
      }
    }
  }

  function SubmissionId(s: Submission): int {
    s.id
  }

  /** Keyed by id, the hydrated submissions are exactly the fetched records
      of known submitters. */
  lemma KeyedSubmissions(raws: seq<RawSubmission>, users: map<int, User>, assignments: map<int, Assignment>)
    requires KeyedUsers(users) && KeyedAssignments(assignments)
    requires HydrateAll(raws, users, assignments).Ok?
    ensures forall k :: k in ByKey(HydrateAll(raws, users, assignments).value, SubmissionId) <==>
      exists i :: 0 <= i < |raws| && raws[i].id == k && raws[i].userId in users
  {
    HydrateAllKeepsKnown(raws, users, assignments);
    KnownIds(HydrateAll(raws, users, assignments).value, raws, users);
  }

  /** `s` is what hydrating a record fetched under id `k` gives: that
      record's submitter, assignment, grader and fields. */
  ghost predicate HydratedUnder(raws: seq<RawSubmission>, users: map<int, User>, assignments: map<int, Assignment>, k: int, s: Submission) {
    exists i :: 0 <= i < |raws| && raws[i].id == k && HydrateSubmission(raws[i], users, assignments) == Ok(Some(s))
  }

  /** Every hydrated submission is the hydration of a fetched record with
      its id. */
  lemma {:induction false} HydrateAllFromRecords(raws: seq<RawSubmission>, users: map<int, User>, assignments: map<int, Assignment>)
    requires HydrateAll(raws, users, assignments).Ok?
    ensures forall s :: s in HydrateAll(raws, users, assignments).value ==> HydratedUnder(raws, users, assignments, s.id, s)
    decreases |raws|
  {
    if |raws| > 0 {
      var pre := raws[..|raws| - 1];
      var raw := raws[|raws| - 1];
      HydrateAllFromRecords(pre, users, assignments);
      var done := HydrateAll(pre, users, assignments).value;
      forall s | s in done ensures HydratedUnder(raws, users, assignments, s.id, s) {
        var i :| 0 <= i < |pre| && pre[i].id == s.id && HydrateSubmission(pre[i], users, assignments) == Ok(Some(s));
        assert raws[i] == pre[i];
      }
      var h := HydrateSubmission(raw, users, assignments);
      if h.value.Some? {
        assert HydrateAll(raws, users, assignments).value == done + [h.value.value];
        assert HydratedUnder(raws, users, assignments, h.value.value.id, h.value.value) by {
          assert raws[|raws| - 1] == raw;
        }
      } else {
        assert HydrateAll(raws, users, assignments).value == done;
      }
    }
  }

  /** Keyed by id, each hydrated submission is the hydration of a record
      fetched under its key. */
  lemma KeyedHydrated(raws: seq<RawSubmission>, users: map<int, User>, assignments: map<int, Assignment>)
    requires HydrateAll(raws, users, assignments).Ok?
    ensures forall k :: k in ByKey(HydrateAll(raws, users, assignments).value, SubmissionId) ==>
      HydratedUnder(raws, users, assignments, k, ByKey(HydrateAll(raws, users, assignments).value, SubmissionId)[k])
  {
    HydrateAllFromRecords(raws, users, assignments);
  }

  /** Submissions that read back as the known users' records carry exactly
      those records' ids. */
  lemma KnownIds(subs: seq<Submission>, raws: seq<RawSubmission>, users: map<int, User>)
    requires RawsOf(subs) == Select(raws, KnownUser(users))
    ensures forall k :: k in ByKey(subs, SubmissionId) <==>
      exists i :: 0 <= i < |raws| && raws[i].id == k && raws[i].userId in users
  {
    forall k | k in ByKey(subs, SubmissionId)
      ensures exists i :: 0 <= i < |raws| && raws[i].id == k && raws[i].userId in users
    {
      var n :| 0 <= n < |subs| && SubmissionId(subs[n]) == k;
      KeptIsKnown(subs, raws, users, n);
    }
    forall i | 0 <= i < |raws| && raws[i].userId in users
      ensures raws[i].id in ByKey(subs, SubmissionId)
    {
      KnownIsKept(subs, raws, users, i);
    }
  }

  lemma KeptIsKnown(subs: seq<Submission>, raws: seq<RawSubmission>, users: map<int, User>, n: nat)
    requires RawsOf(subs) == Select(raws, KnownUser(users))
    requires n < |subs|
    ensures exists i :: 0 <= i < |raws| && raws[i].id == subs[n].id && raws[i].userId in users
  {
    var known := Select(raws, KnownUser(users));
    assert RawsOf(subs)[n] == RawOf(subs[n]);
    assert known[n] in raws && KnownUser(users)(known[n]);
    var i :| 0 <= i < |raws| && raws[i] == known[n];
  }

  lemma KnownIsKept(subs: seq<Submission>, raws: seq<RawSubmission>, users: map<int, User>, i: nat)
    requires RawsOf(subs) == Select(raws, KnownUser(users))
    requires i < |raws| && raws[i].userId in users
    ensures exists n :: 0 <= n < |subs| && subs[n].id == raws[i].id
  {
    var known := Select(raws, KnownUser(users));
    assert KnownUser(users)(raws[i]);
    assert raws[i] in known;
    var n :| 0 <= n < |known| && known[n] == raws[i];
    assert RawsOf(subs)[n] == RawOf(subs[n]);
  }



  // ---------------------------------------------------------------------------
  // The course

  /** What the fetches return, cleaned of everything the model leaves out. */
  datatype RawCourse = RawCourse(
    users: seq<User>,
    cohorts: Option<seq<RawCohort>>,
    instructors: Option<seq<string>>,
    groups: seq<RawGroup>,
    assignmentGroupIds: set<int>,
    assignments: seq<RawAssignment>,
    submissions: seq<RawSubmission>)

  datatype Course = Course(
    users: map<int, User>,
    students: map<int, User>,
    cohorts: seq<CourseHelpers.Cohort>,
    staff: seq<User>,
    instructors: seq<User>,
    memberships: Memberships,
    assignments: map<int, Assignment>,
    submissions: map<int, Submission>)

  /** The steps of `rehydrate_course` after its fetches, in the source's
      order; each step that raises stops it. `fillIds` chooses the membership
      loop as written (false) or corrected (true). */
  function Rehydrate(raw: RawCourse, fillIds: bool): (r: Result<Course>)
    ensures r.Ok? <==> StepsSucceed(raw)
    ensures r.Ok? ==> BuiltFrom(raw, fillIds, r.value)
    ensures r.Ok? ==> KeyedUsers(r.value.users)
    ensures r.Ok? ==> forall k :: k in r.value.students ==> k in r.value.users
    ensures r.Ok? ==> r.value.memberships.membershipIds == if fillIds then r.value.memberships.idSets else map[]
    ensures r.Ok? ==> forall k :: k in r.value.submissions ==>
      r.value.submissions[k].id == k && r.value.submissions[k].user.id in r.value.users
  {
    var c :- AssembleCourse(raw, fillIds);
    HydrateCourse(raw, c)
  }

  /** The steps before hydration: users cleaned and indexed, cohorts resolved
      with their staff, instructors resolved, group memberships built; the
      assignments and submissions are still empty. */
  function AssembleCourse(raw: RawCourse, fillIds: bool): (r: Result<Course>)
    ensures r.Ok? <==>
      && ResolveCohorts(raw.cohorts, UsersByEmail(CleanUsers(raw.users))).Ok?
      && Instructors(raw.instructors, UsersByEmail(CleanUsers(raw.users))).Ok?
      && !UnknownMember(raw.groups, UsersById(CleanUsers(raw.users)))
    ensures r.Ok? ==>
      && r.value.users == UsersById(CleanUsers(raw.users))
      && r.value.students == Students(CleanUsers(raw.users))
      && ResolveCohorts(raw.cohorts, UsersByEmail(CleanUsers(raw.users))) == Ok(r.value.cohorts)
      && r.value.staff == Staff(r.value.cohorts)
      && Instructors(raw.instructors, UsersByEmail(CleanUsers(raw.users))) == Ok(r.value.instructors)
      && BuildMemberships(raw.groups, UsersById(CleanUsers(raw.users)), fillIds) == Ok(r.value.memberships)
  {
    var users := CleanUsers(raw.users);
    var byEmail := UsersByEmail(users);
    var byId := UsersById(users);
    var cohorts :- ResolveCohorts(raw.cohorts, byEmail);
    var instructors :- Instructors(raw.instructors, byEmail);
    var memberships :- BuildMemberships(raw.groups, byId, fillIds);
    Ok(Course(byId, Students(users), cohorts, Staff(cohorts), instructors, memberships, map[], map[]))
  }

  /** The last two steps: the assignments, then the submissions, hydrated
      against the course's users and keyed by id; the rest of the course is
      kept. */
  function HydrateCourse(raw: RawCourse, c: Course): (r: Result<Course>)
    ensures r.Ok? <==>
      && HydrateAssignments(raw.assignments, raw.assignmentGroupIds).Ok?
      && HydrateAll(raw.submissions, c.users, HydrateAssignments(raw.assignments, raw.assignmentGroupIds).value).Ok?
    ensures r.Ok? ==> r.value.(assignments := c.assignments, submissions := c.submissions) == c
    ensures r.Ok? ==> HydrateAssignments(raw.assignments, raw.assignmentGroupIds) == Ok(r.value.assignments)
    ensures r.Ok? && KeyedUsers(c.users) ==> forall k :: k in r.value.submissions ==>
      r.value.submissions[k].id == k && r.value.submissions[k].user.id in c.users
    ensures r.Ok? && KeyedUsers(c.users) ==> forall k :: k in r.value.submissions <==>
      exists i :: 0 <= i < |raw.submissions| && raw.submissions[i].id == k && raw.submissions[i].userId in c.users
    ensures r.Ok? ==> forall k :: k in r.value.submissions ==>
      HydratedUnder(raw.submissions, c.users, r.value.assignments, k, r.value.submissions[k])
  {
    var assignments :- HydrateAssignments(raw.assignments, raw.assignmentGroupIds);
    var subs :- SubmissionMap(raw.submissions, c.users, assignments);
    Ok(c.(assignments := assignments, submissions := subs))
  }

  /** `cloned['submissions']`: the fetched records hydrated and keyed by id.
      Under each key is the hydration of a record fetched with that id, and,
      with users and assignments stored under their own ids, the keys are
      exactly the ids fetched for known users. */
  function SubmissionMap(raws: seq<RawSubmission>, users: map<int, User>, assignments: map<int, Assignment>): (r: Result<map<int, Submission>>)
    ensures r.Ok? <==> HydrateAll(raws, users, assignments).Ok?
    ensures r.Ok? ==> forall k :: k in r.value ==> HydratedUnder(raws, users, assignments, k, r.value[k])
    ensures r.Ok? && KeyedUsers(users) ==> forall k :: k in r.value ==> r.value[k].id == k && r.value[k].user.id in users
    ensures r.Ok? && KeyedUsers(users) && KeyedAssignments(assignments) ==> forall k :: k in r.value <==>
      exists i :: 0 <= i < |raws| && raws[i].id == k && raws[i].userId in users
  {
    var subs :- HydrateAll(raws, users, assignments);
    KeyedHydrated(raws, users, assignments);
    assert subs == HydrateAll(raws, users, assignments).value;
    if KeyedUsers(users) && KeyedAssignments(assignments) then
      KeyedSubmissions(raws, users, assignments);
      Ok(ByKey(subs, SubmissionId))
    else
      assert KeyedUsers(users) ==> forall x :: x in subs ==> x.user.id in users;
      Ok(ByKey(subs, SubmissionId))
  }

  /** Every step of `rehydrate_course` that can raise succeeds: each cohort
      and instructor email names a user, each group member is a user, each
      assignment's group exists, and each known user's submission names a
      known assignment and a known grader. */
  ghost predicate StepsSucceed(raw: RawCourse) {
    var users := CleanUsers(raw.users);
    var assignments := HydrateAssignments(raw.assignments, raw.assignmentGroupIds);
    && ResolveCohorts(raw.cohorts, UsersByEmail(users)).Ok?
    && Instructors(raw.instructors, UsersByEmail(users)).Ok?
    && !UnknownMember(raw.groups, UsersById(users))
    && assignments.Ok?
    && HydrateAll(raw.submissions, UsersById(users), assignments.value).Ok?
  }

  /** The parts of a course assembled from the fetched data: users by id
      after cleaning, the students among them, the resolved cohorts and their
      staff in insertion order, the resolved instructors, the memberships,
      the assignments, and submissions keyed by exactly the ids fetched for
      known users, each the hydration of a record fetched with its key. */
  ghost predicate BuiltFrom(raw: RawCourse, fillIds: bool, c: Course) {
    var users := CleanUsers(raw.users);
    && c.users == UsersById(users)
    && c.students == Students(users)
    && ResolveCohorts(raw.cohorts, UsersByEmail(users)) == Ok(c.cohorts)
    && c.staff == Staff(c.cohorts)
    && Instructors(raw.instructors, UsersByEmail(users)) == Ok(c.instructors)
    && BuildMemberships(raw.groups, UsersById(users), fillIds) == Ok(c.memberships)
    && HydrateAssignments(raw.assignments, raw.assignmentGroupIds) == Ok(c.assignments)
    && (forall k :: k in c.submissions <==>
          exists i :: 0 <= i < |raw.submissions| && raw.submissions[i].id == k && raw.submissions[i].userId in c.users)
    && (forall k :: k in c.submissions ==> HydratedUnder(raw.submissions, c.users, c.assignments, k, c.submissions[k]))
  }

  /** `rehydrate_course` as written: `group_membership_ids` stays empty, so no
      group override of the course ever applies. */
  function RehydrateCourse(raw: RawCourse): (r: Result<Course>)
    ensures r.Ok? <==> StepsSucceed(raw)
    ensures r.Ok? ==> BuiltFrom(raw, false, r.value)
    ensures r.Ok? ==> KeyedUsers(r.value.users)
    ensures r.Ok? ==> forall k :: k in r.value.students ==> k in r.value.users
    ensures r.Ok? ==> r.value.memberships.membershipIds == map[]
    ensures r.Ok? ==> forall o, u :: !CourseHelpers.Matches(o, CourseHelpers.GroupPass, u, r.value.memberships.membershipIds)
    ensures r.Ok? ==> forall k :: k in r.value.submissions ==>
      r.value.submissions[k].id == k && r.value.submissions[k].user.id in r.value.users
  {
    var r := Rehydrate(raw, false);
    if r.Ok? then
      var ids := r.value.memberships.membershipIds;
      assert ids == map[];
      assert forall o, u :: !CourseHelpers.Matches(o, CourseHelpers.GroupPass, u, ids);
      r
    else r
  }

  /** The course with `group_membership_ids` filled as the override matching
      expects. */
  function RehydrateCourseCorrected(raw: RawCourse): (r: Result<Course>)
    ensures r.Ok? <==> StepsSucceed(raw)
    ensures r.Ok? ==> BuiltFrom(raw, true, r.value)
    ensures r.Ok? ==> r.value.memberships.membershipIds == r.value.memberships.idSets
  {
    Rehydrate(raw, true)
  }

  /** The correction changes nothing but `group_membership_ids`: both fail
      together, and otherwise agree on every other part of the course. */
  lemma CorrectionOnlyFillsIds(raw: RawCourse)
    ensures RehydrateCourse(raw).Ok? <==> RehydrateCourseCorrected(raw).Ok?
    ensures RehydrateCourse(raw).Ok? ==>
      var c, d := RehydrateCourse(raw).value, RehydrateCourseCorrected(raw).value;
      && d == c.(memberships := c.memberships.(membershipIds := c.memberships.idSets))
  {
    BuildMembershipsFillOnly(raw.groups, UsersById(CleanUsers(raw.users)));
    var a, b := AssembleCourse(raw, false), AssembleCourse(raw, true);
    if a.Ok? {
      var m := a.value.memberships;
      assert b.value == a.value.(memberships := m.(membershipIds := m.idSets));
      HydrateCourseKeepsMemberships(raw, a.value, m.(membershipIds := m.idSets));
    }
  }

  /** Hydrating does not look at the memberships. */
  lemma HydrateCourseKeepsMemberships(raw: RawCourse, c: Course, m: Memberships)
    ensures HydrateCourse(raw, c).Ok? <==> HydrateCourse(raw, c.(memberships := m)).Ok?
    ensures HydrateCourse(raw, c).Ok? ==>
      HydrateCourse(raw, c.(memberships := m)).value == HydrateCourse(raw, c).value.(memberships := m)
  {
  }
}

=== FILE: canvas_data.dfy ===
/** The records the reports work on (`src/canvas_data.py`): users, overrides,
    assignments, submissions, the tagged grader and the closed set of grading
    statuses. Timestamps are whole seconds; the Canvas date strings they come
    from are parsed outside the model. */
module CanvasData {

  import opened Wrappers
  import Text

  datatype EnrollmentType =
    | StudentEnrollment
    | TeacherEnrollment
    | TaEnrollment
    | DesignerEnrollment
    | ObserverEnrollment

  datatype Enrollment = Enrollment(id: int, userId: int, sectionId: int, kind: EnrollmentType)

  /** A user; `email` is `None` when the API record had no `email` key. */
  datatype User = User(id: int, name: string, email: Option<string>, enrollments: seq<Enrollment>)

  /** `clean_user`: drops a user without an email, lower-cases the email of any
      other and leaves every other field alone. */
  function CleanUser(u: User): (r: Option<User>)
    ensures r.None? <==> u.email.None?
    ensures r.Some? ==> r.value == u.(email := Some(Text.Lower(u.email.value)))
  {
    match u.email
    case None => None
    case Some(e) => Some(u.(email := Some(Text.Lower(e))))
  }

  /** Cleaning a cleaned user changes nothing. */
  lemma CleanUserIdempotent(u: User)
    requires CleanUser(u).Some?
    ensures CleanUser(CleanUser(u).value) == CleanUser(u)
  {
    Text.LowerIdempotent(u.email.value);
  }

  datatype Group = Group(id: int, name: string)

  /** One of an assignment's or override's `due_at`/`lock_at`/`unlock_at`
      entries: the key may be absent, present but `None`, or a timestamp. */
  datatype Field = Missing | Null | At(t: int)

  datatype Window = Window(dueAt: Field, lockAt: Field, unlockAt: Field)

  /** An assignment override. The API sets exactly one of the three targets;
      the model keeps all three optional because the code tests each key on
      its own. */
  datatype Override = Override(
    studentIds: Option<seq<int>>,
    groupId: Option<int>,
    sectionId: Option<int>,
    window: Window)

  datatype Assignment = Assignment(
    id: int,
    name: string,
    window: Window,
    pointsPossible: Option<real>,
    overrides: seq<Override>)

  type NonPositive = n: int | n <= 0

  /** Who graded a submission: nobody, the system (a non-positive sentinel id;
      0 is falsy in Python, any other sentinel truthy) or a person. */
  datatype Grader = NoGrader | AutoGrader(sentinel: NonPositive) | HumanGrader(user: User)

  datatype Submission = Submission(
    id: int,
    user: User,
    assignment: Assignment,
    attempt: Option<int>,
    grade: Option<string>,
    score: Option<real>,
    submittedAt: Option<int>,
    gradedAt: Option<int>,
    grader: Grader,
    late: bool,
    missing: bool,
    workflowState: string)

  /** The grading-status tags, in the order `get_args(GradingStatus)` lists them. */
  datatype GradingStatus =
    | Graded
    | NotYetGradedLate
    | ResubmittedLate
    | NotYetGradedReady
    | ResubmittedReady
    | NotYetGradedEarly
    | ResubmittedEarly
    | InProgress
    | MissedDueDate
    | MissedLockDate
    | FutureAssignments

  const AllStatuses: seq<GradingStatus> := [
    Graded, NotYetGradedLate, ResubmittedLate, NotYetGradedReady, ResubmittedReady,
    NotYetGradedEarly, ResubmittedEarly, InProgress, MissedDueDate, MissedLockDate,
    FutureAssignments
  ]

  /** The string a status is written as. */
  function Tag(g: GradingStatus): string {
    match g
    case Graded => "graded"
    case NotYetGradedLate => "not yet graded (late)"
    case ResubmittedLate => "resubmitted (late)"
    case NotYetGradedReady => "not yet graded (ready)"
    case ResubmittedReady => "resubmitted (ready)"
    case NotYetGradedEarly => "not yet graded (early)"
    case ResubmittedEarly => "resubmitted (early)"
    case InProgress => "in progress"
    case MissedDueDate => "missed due date"
    case MissedLockDate => "missed lock date"
    case FutureAssignments => "future assignments"
  }

  /** Reads a tag back; `None` for any string that is not one of the eleven. */
  function ParseStatus(s: string): (r: Option<GradingStatus>)
    ensures r.Some? ==> Tag(r.value) == s
  {
    if s == "graded" then Some(Graded)
    else if s == "not yet graded (late)" then Some(NotYetGradedLate)
    else if s == "resubmitted (late)" then Some(ResubmittedLate)
    else if s == "not yet graded (ready)" then Some(NotYetGradedReady)
    else if s == "resubmitted (ready)" then Some(ResubmittedReady)
    else if s == "not yet graded (early)" then Some(NotYetGradedEarly)
    else if s == "resubmitted (early)" then Some(ResubmittedEarly)
    else if s == "in progress" then Some(InProgress)
    else if s == "missed due date" then Some(MissedDueDate)
    else if s == "missed lock date" then Some(MissedLockDate)
    else if s == "future assignments" then Some(FutureAssignments)
    else None
  }

  /** The eleven tags are distinct strings: reading a tag back gives the status
      it came from, and AllStatuses lists every status exactly once. */
  lemma StatusesDistinct(g: GradingStatus)
    ensures ParseStatus(Tag(g)) == Some(g)
    ensures g in AllStatuses
    ensures |AllStatuses| == 11
    ensures forall i, j :: 0 <= i < j < |AllStatuses| ==> AllStatuses[i] != AllStatuses[j]
  {
    TagRoundTrip(g);
    assert g in AllStatuses by {
      assert AllStatuses[StatusIndex(g)] == g;
    }
    forall i, j | 0 <= i < j < |AllStatuses| ensures AllStatuses[i] != AllStatuses[j] {
      IndexAt(i);
      IndexAt(j);
    }
  }

  lemma IndexAt(i: nat)
    requires i < |AllStatuses|
    ensures StatusIndex(AllStatuses[i]) == i
  {
    if i == 0 {} else if i == 1 {} else if i == 2 {} else if i == 3 {} else if i == 4 {}
    else if i == 5 {} else if i == 6 {} else if i == 7 {} else if i == 8 {} else if i == 9 {}
  }

  /** The position of a status in AllStatuses. */
  function StatusIndex(g: GradingStatus): (n: nat)
    ensures n < |AllStatuses| && AllStatuses[n] == g
  {
    match g
    case Graded => 0
    case NotYetGradedLate => 1
    case ResubmittedLate => 2
    case NotYetGradedReady => 3
    case ResubmittedReady => 4
    case NotYetGradedEarly => 5
    case ResubmittedEarly => 6
    case InProgress => 7
    case MissedDueDate => 8
    case MissedLockDate => 9
    case FutureAssignments => 10
  }

  lemma TagRoundTrip(g: GradingStatus)
    ensures ParseStatus(Tag(g)) == Some(g)
  {
    match g
    case Graded =>
    case NotYetGradedLate =>
    case ResubmittedLate =>
    case NotYetGradedReady =>
    case ResubmittedReady =>
    case NotYetGradedEarly =>
    case ResubmittedEarly =>
    case InProgress =>
    case MissedDueDate =>
    case MissedLockDate =>
    case FutureAssignments =>
  }

  /** The statuses that need no action from a grader. "not yet due" is listed
      although no status carries that tag. */
  const NotCritical: set<string> := {
    "future assignments",
    "not yet due",
    "graded",
    "missed due date",
    "missed lock date",
    "in progress"
  }

  predicate IsCritical(g: GradingStatus) {
    Tag(g) !in NotCritical
  }

  /** The critical statuses are exactly the six "not yet graded" and
      "resubmitted" ones, and the stray "not yet due" is no status's tag. */
  lemma CriticalStatuses(g: GradingStatus)
    ensures IsCritical(g) <==> g in {NotYetGradedLate, ResubmittedLate, NotYetGradedReady,
                                     ResubmittedReady, NotYetGradedEarly, ResubmittedEarly}
    ensures "not yet due" in NotCritical && ParseStatus("not yet due") == None
  {
  }
}

=== FILE: canvas_request.dfy ===
/** The pure helpers of `src/canvas_request.py`: whole days between two
    timestamps and the classification of an HTTP status. Timestamps are
    seconds; the caller's clock is the explicit `now`. */
module CanvasRequest {

  import opened Wrappers
  import Text

  const SecondsPerDay: int := 86400

  /** `past_date(t)`: the moment lies before now. */
  predicate PastDate(t: int, now: int) {
    t < now
  }

  /** `days_between(d1, d2)`: the whole-day part of `d2 - d1`, as Python's
      `timedelta.days` floors it, made non-negative. An omitted `d2` is now. */
  function DaysBetween(d1: int, d2: Option<int>, now: int): (r: nat)
    ensures var delta := d2.GetOr(now) - d1;
      && (delta >= 0 ==> r * SecondsPerDay <= delta < (r + 1) * SecondsPerDay)
      && (delta < 0 ==> (r - 1) * SecondsPerDay < -delta <= r * SecondsPerDay)
  {
    var delta := d2.GetOr(now) - d1;
    var days := delta / SecondsPerDay;
    if days < 0 then -days else days
  }

  /** The same moment is zero days from itself. */
  lemma DaysBetweenSelf(d: int, now: int)
    ensures DaysBetween(d, Some(d), now) == 0
  {
  }

  /** Less than a day forward is 0 days, but less than a day backward is 1:
      the floor comes before the absolute value. */
  lemma DaysBetweenNotSymmetric(now: int)
    ensures DaysBetween(0, Some(1), now) == 0
    ensures DaysBetween(1, Some(0), now) == 1
  {
  }

  /** `days_between(d1)` is `days_between(d1, now)`. */
  lemma DaysBetweenDefaultsToNow(d1: int, now: int)
    ensures DaysBetween(d1, None, now) == DaysBetween(d1, Some(now), now)
  {
  }

  const UnavailableMessage: string := "503 error, service not available yet! Try again later!"

  /** What `decode_response_or_error` raises for a body that is not JSON:
      the `requests` rendering of the response, then the URL. */
  function UndecodableMessage(status: int, url: string): string {
    "<Response [" + Text.IntText(status) + "]>\n" + url
  }

  /** `check_response_errors`. `body` is the decoded JSON of the response,
      already rendered with `str`, or `None` when it does not decode. */
  function CheckResponseErrors(status: int, body: Option<string>, url: string): (r: Outcome)
    ensures r.Pass? <==> Text.IntText(status)[0] == '2'
    ensures status == 503 ==> r == Fail(RequestFailed(UnavailableMessage + "503"))
    ensures r.Fail? && status != 503 && body.None? ==> r == Fail(RequestFailed(UndecodableMessage(status, url)))
  {
    if status == 503 then
      assert Text.IntText(503) == "503";
      Fail(RequestFailed(UnavailableMessage + Text.IntText(status)))
    else if status == 404 then
      match body
      case None => Fail(RequestFailed(UndecodableMessage(status, url)))
      case Some(json) =>
        Fail(RequestFailed("404 error, resource does not exist for\n" + url + "\nFull error was:\n" + json))
    else if Text.IntText(status)[0] != '2' then
      match body
      case None => Fail(RequestFailed(UndecodableMessage(status, url)))
      case Some(json) =>
        Fail(RequestFailed("Possible error code (" + Text.IntText(status) + ") for:\n" + url
                           + "\nFull error was:\n" + json))
    else
      Pass
  }

  /** A 503 is reported without looking at the body, and every 2xx passes. */
  lemma StatusOutcomes(status: int, b1: Option<string>, b2: Option<string>, url: string)
    ensures status == 503 ==> CheckResponseErrors(status, b1, url) == CheckResponseErrors(status, b2, url)
    ensures 200 <= status < 300 ==> CheckResponseErrors(status, b1, url) == Pass
    ensures status == 404 ==> CheckResponseErrors(status, b1, url).Fail?
  {
    if 200 <= status < 300 {
      Text.TwoHundredsStartWithTwo(status);
    }
  }
}

=== FILE: collections.dfy ===
/** Order-preserving filtering and grouping, as Python list comprehensions and
    insertion-ordered dicts do them. */
module Collections {

  import opened Wrappers

  /** `[x for x in xs if p(x)]`. */
  function Select<T(==)>(xs: seq<T>, p: T -> bool): (r: seq<T>)
    ensures |r| <= |xs|
    ensures forall i :: 0 <= i < |r| ==> r[i] in xs && p(r[i])
    ensures forall i :: 0 <= i < |xs| && p(xs[i]) ==> xs[i] in r
    decreases |xs|
  {
    if |xs| == 0 then []
    else Select(xs[..|xs| - 1], p) + (if p(xs[|xs| - 1]) then [xs[|xs| - 1]] else [])
  }

  lemma SelectAppend<T>(xs: seq<T>, ys: seq<T>, p: T -> bool)
    ensures Select(xs + ys, p) == Select(xs, p) + Select(ys, p)
    decreases |ys|
  {
    if |ys| > 0 {
      assert (xs + ys)[..|xs + ys| - 1] == xs + ys[..|ys| - 1];
      SelectAppend(xs, ys[..|ys| - 1], p);
    } else {
      assert xs + ys == xs;
    }
  }

  /** `x` repeated `n` times. */
  function Rep<T>(x: T, n: nat): (r: seq<T>)
    ensures |r| == n
    ensures forall i :: 0 <= i < n ==> r[i] == x
  {
    seq(n, _ => x)
  }

  lemma RepSnoc<T>(x: T, n: nat)
    ensures Rep(x, n + 1) == Rep(x, n) + [x]
  {
  }

  /** Each element of `xs`, in order, repeated `w(x)` times: what appending `x`
      once per matching item of an inner loop builds up. */
  function Repeated<T>(xs: seq<T>, w: T -> nat): (r: seq<T>)
    decreases |xs|
  {
    if |xs| == 0 then [] else Repeated(xs[..|xs| - 1], w) + Rep(xs[|xs| - 1], w(xs[|xs| - 1]))
  }

  /** With every weight at most one, repeating is filtering by "weight one". */
  lemma {:induction false} RepeatedAtMostOnce<T>(xs: seq<T>, w: T -> nat, p: T -> bool)
    requires forall i :: 0 <= i < |xs| ==> w(xs[i]) <= 1 && (w(xs[i]) == 1 <==> p(xs[i]))
    ensures Repeated(xs, w) == Select(xs, p)
    decreases |xs|
  {
    if |xs| > 0 {
      RepeatedAtMostOnce(xs[..|xs| - 1], w, p);
      var x := xs[|xs| - 1];
      assert Rep(x, w(x)) == (if p(x) then [x] else []);
    }
  }

  /** One entry of an insertion-ordered dict from keys to lists. */
  datatype Entry<K, V> = Entry(key: K, items: seq<V>)

  ghost predicate HasKey<K, V>(g: seq<Entry<K, V>>, k: K) {
    exists i :: 0 <= i < |g| && g[i].key == k
  }

  ghost predicate DistinctKeys<K, V>(g: seq<Entry<K, V>>) {
    forall i, j :: 0 <= i < j < |g| ==> g[i].key != g[j].key
  }

  /** The summed length of all lists of a grouping. */
  function TotalLen<K, V>(g: seq<Entry<K, V>>): nat
    decreases |g|
  {
    if |g| == 0 then 0 else TotalLen(g[..|g| - 1]) + |g[|g| - 1].items|
  }

  /** The position of the first entry with key `k`. */
  function FindKey<K(==), V>(g: seq<Entry<K, V>>, k: K): (r: Option<nat>)
    ensures r.Some? ==> r.value < |g| && g[r.value].key == k
    ensures r.Some? ==> forall i :: 0 <= i < r.value ==> g[i].key != k
    ensures r.None? <==> !HasKey(g, k)
    decreases |g|
  {
    if |g| == 0 then None
    else if g[0].key == k then Some(0)
    else match FindKey(g[1..], k)
      case Some(i) => Some(i + 1)
      case None => None
  }

  /** `d.setdefault(k, []).append(x)` on an insertion-ordered dict: the list
      under `k` grows by `x`, or a new entry `[x]` is added at the end. */
  function Put<K(==), V>(g: seq<Entry<K, V>>, k: K, x: V): seq<Entry<K, V>> {
    match FindKey(g, k)
    case Some(i) => g[i := Entry(k, g[i].items + [x])]
    case None => g + [Entry(k, [x])]
  }

  lemma {:induction false} TotalLenUpdate<K, V>(g: seq<Entry<K, V>>, i: nat, e: Entry<K, V>)
    requires i < |g|
    ensures TotalLen(g[i := e]) == TotalLen(g) - |g[i].items| + |e.items|
    decreases |g|
  {
    if i < |g| - 1 {
      assert g[i := e][..|g| - 1] == g[..|g| - 1][i := e];
      TotalLenUpdate(g[..|g| - 1], i, e);
    } else {
      assert g[i := e][..|g| - 1] == g[..|g| - 1];
    }
  }

  lemma PutShape<K, V>(g: seq<Entry<K, V>>, k: K, x: V)
    requires DistinctKeys(g)
    ensures var r := Put(g, k, x);
      && DistinctKeys(r)
      && (forall k' :: HasKey(r, k') <==> HasKey(g, k') || k' == k)
      && (forall i :: 0 <= i < |r| ==>
            r[i].items == (if i < |g| then g[i].items else []) + (if r[i].key == k then [x] else []))
      && |g| <= |r|
      && (forall i :: 0 <= i < |g| ==> r[i].key == g[i].key)
      && TotalLen(r) == TotalLen(g) + 1
  {
    match FindKey(g, k)
    case Some(i) => PutExisting(g, k, x, i);
    case None => PutNew(g, k, x);
  }

  lemma PutExisting<K, V>(g: seq<Entry<K, V>>, k: K, x: V, i: nat)
    requires DistinctKeys(g) && FindKey(g, k) == Some(i)
    ensures var r := Put(g, k, x);
      && DistinctKeys(r)
      && (forall k' :: HasKey(r, k') <==> HasKey(g, k') || k' == k)
      && (forall i :: 0 <= i < |r| ==>
            r[i].items == (if i < |g| then g[i].items else []) + (if r[i].key == k then [x] else []))
      && |g| <= |r|
      && (forall i :: 0 <= i < |g| ==> r[i].key == g[i].key)
      && TotalLen(r) == TotalLen(g) + 1
  {
    var r := Put(g, k, x);
    TotalLenUpdate(g, i, Entry(k, g[i].items + [x]));
    forall k' | HasKey(r, k') ensures HasKey(g, k') {
      var j :| 0 <= j < |r| && r[j].key == k';
      assert g[j].key == k';
    }
    forall k' | HasKey(g, k') ensures HasKey(r, k') {
      var j :| 0 <= j < |g| && g[j].key == k';
      assert r[j].key == k';
    }
  }

  lemma PutNew<K, V>(g: seq<Entry<K, V>>, k: K, x: V)
    requires DistinctKeys(g) && FindKey(g, k).None?
    ensures var r := Put(g, k, x);
      && DistinctKeys(r)
      && (forall k' :: HasKey(r, k') <==> HasKey(g, k') || k' == k)
      && (forall i :: 0 <= i < |r| ==>
            r[i].items == (if i < |g| then g[i].items else []) + (if r[i].key == k then [x] else []))
      && |g| <= |r|
      && (forall i :: 0 <= i < |g| ==> r[i].key == g[i].key)
      && TotalLen(r) == TotalLen(g) + 1
  {
    var r := Put(g, k, x);
    assert r[..|g|] == g;
    assert TotalLen(r) == TotalLen(g) + 1;
    assert HasKey(r, k) by { assert r[|g|].key == k; }
    forall k' | HasKey(r, k') ensures HasKey(g, k') || k' == k {
      var j :| 0 <= j < |r| && r[j].key == k';
      if j < |g| {
        assert g[j].key == k';
      }
    }
    forall k' | HasKey(g, k') ensures HasKey(r, k') {
      var j :| 0 <= j < |g| && g[j].key == k';
      assert r[j].key == k';
    }
  }

  /** The test "has key `k`". */
  function KeyIs<K(==), V>(key: V -> K, k: K): V -> bool {
    x => key(x) == k
  }

  /** Groups `xs` by `key`, keys in order of first appearance and each list in
      the order of `xs`: the `for x in xs: d.setdefault(key(x), []).append(x)`
      idiom. */
  function GroupBy<K(==), V>(xs: seq<V>, key: V -> K): seq<Entry<K, V>>
    decreases |xs|
  {
    if |xs| == 0 then [] else Put(GroupBy(xs[..|xs| - 1], key), key(xs[|xs| - 1]), xs[|xs| - 1])
  }

  /** GroupBy partitions its input: one entry per distinct key, each holding
      exactly the elements with that key in their original order, and the
      list lengths summing to `|xs|`. */
  lemma GroupByPartitions<K, V>(xs: seq<V>, key: V -> K)
    ensures var g := GroupBy(xs, key);
      && DistinctKeys(g)
      && (forall k :: HasKey(g, k) <==> exists i :: 0 <= i < |xs| && key(xs[i]) == k)
      && (forall i :: 0 <= i < |g| ==> g[i].items == Select(xs, KeyIs(key, g[i].key)))
      && TotalLen(g) == |xs|
  {
    GroupByShape(xs, key);
    GroupByItems(xs, key);
  }

  lemma GroupByShape<K, V>(xs: seq<V>, key: V -> K)
    ensures var g := GroupBy(xs, key);
      && DistinctKeys(g)
      && (forall k :: HasKey(g, k) <==> exists i :: 0 <= i < |xs| && key(xs[i]) == k)
      && TotalLen(g) == |xs|
  {
    GroupByDistinct(xs, key);
    GroupByKeys(xs, key);
  }

  lemma {:induction false} GroupByDistinct<K, V>(xs: seq<V>, key: V -> K)
    ensures DistinctKeys(GroupBy(xs, key)) && TotalLen(GroupBy(xs, key)) == |xs|
    decreases |xs|
  {
    if |xs| > 0 {
      var pre := xs[..|xs| - 1];
      GroupByDistinct(pre, key);
      PutShape(GroupBy(pre, key), key(xs[|xs| - 1]), xs[|xs| - 1]);
    }
  }

  lemma {:induction false} GroupByKeys<K, V>(xs: seq<V>, key: V -> K)
    ensures forall k :: HasKey(GroupBy(xs, key), k) <==> exists i :: 0 <= i < |xs| && key(xs[i]) == k
    decreases |xs|
  {
    if |xs| > 0 {
      var pre := xs[..|xs| - 1];
      GroupByKeys(pre, key);
      PutHasKey(GroupBy(pre, key), key(xs[|xs| - 1]), xs[|xs| - 1]);
      forall k ensures HasKey(GroupBy(xs, key), k) <==> exists i :: 0 <= i < |xs| && key(xs[i]) == k {
        KeySnoc(xs, key, k);
      }
    }
  }

  lemma KeySnoc<K, V>(xs: seq<V>, key: V -> K, k: K)
    requires |xs| > 0
    ensures var pre := xs[..|xs| - 1];
      (exists i :: 0 <= i < |xs| && key(xs[i]) == k) <==>
      (exists i :: 0 <= i < |pre| && key(pre[i]) == k) || key(xs[|xs| - 1]) == k
  {
    var pre := xs[..|xs| - 1];
    if exists i :: 0 <= i < |xs| && key(xs[i]) == k {
      var i :| 0 <= i < |xs| && key(xs[i]) == k;
      if i < |pre| {
        assert key(pre[i]) == k;
      }
    }
    if exists i :: 0 <= i < |pre| && key(pre[i]) == k {
      var i :| 0 <= i < |pre| && key(pre[i]) == k;
      assert key(xs[i]) == k;
    }
  }

  /** `Put` adds exactly the key it is given. */
  lemma PutHasKey<K, V>(g: seq<Entry<K, V>>, k: K, x: V)
    ensures forall k' :: HasKey(Put(g, k, x), k') <==> HasKey(g, k') || k' == k
  {
    var r := Put(g, k, x);
    assert |g| <= |r| && forall i :: 0 <= i < |g| ==> r[i].key == g[i].key;
    assert HasKey(r, k) by {
      match FindKey(g, k)
      case Some(i) => assert r[i].key == k;
      case None => assert r[|g|].key == k;
    }
    forall k' | HasKey(r, k') ensures HasKey(g, k') || k' == k {
      var j :| 0 <= j < |r| && r[j].key == k';
      if j < |g| {
        assert g[j].key == k';
      }
    }
    forall k' | HasKey(g, k') ensures HasKey(r, k') {
      var j :| 0 <= j < |g| && g[j].key == k';
      assert r[j].key == k';
    }
  }

  lemma {:induction false} GroupByItems<K, V>(xs: seq<V>, key: V -> K)
    ensures var g := GroupBy(xs, key);
      forall i :: 0 <= i < |g| ==> g[i].items == Select(xs, KeyIs(key, g[i].key))
    decreases |xs|
  {
    if |xs| > 0 {
      var pre := xs[..|xs| - 1];
      var x := xs[|xs| - 1];
      var g0 := GroupBy(pre, key);
      var g := GroupBy(xs, key);
      assert g == Put(g0, key(x), x);
      GroupByItems(pre, key);
      GroupByShape(pre, key);
      GroupByShape(xs, key);
      PutShape(g0, key(x), x);
      forall i | 0 <= i < |g| ensures g[i].items == Select(xs, KeyIs(key, g[i].key)) {
        var p := KeyIs(key, g[i].key);
        assert Select(xs, p) == Select(pre, p) + (if p(x) then [x] else []);
        if i >= |g0| {
          NewKeyAbsent(g0, g, i);
          forall j | 0 <= j < |pre| ensures !p(pre[j]) {
            assert HasKey(g0, key(pre[j]));
          }
          SelectNone(pre, p);
        }
      }
    }
  }

  /** No group is empty, each member carries its group's key, and an
      element is in the input exactly when it is in some group. */
  lemma GroupByCovers<K, V>(xs: seq<V>, key: V -> K)
    ensures var g := GroupBy(xs, key);
      && (forall i :: 0 <= i < |g| ==> |g[i].items| > 0)
      && (forall i, j :: 0 <= i < |g| && 0 <= j < |g[i].items| ==> key(g[i].items[j]) == g[i].key)
      && (forall x :: x in xs <==> exists i :: 0 <= i < |g| && x in g[i].items)
  {
    var g := GroupBy(xs, key);
    GroupByPartitions(xs, key);
    forall i | 0 <= i < |g| ensures |g[i].items| > 0 {
      assert HasKey(g, g[i].key);
      var n :| 0 <= n < |xs| && key(xs[n]) == g[i].key;
      assert KeyIs(key, g[i].key)(xs[n]);
    }
    forall i, j | 0 <= i < |g| && 0 <= j < |g[i].items| ensures key(g[i].items[j]) == g[i].key {
      assert KeyIs(key, g[i].key)(g[i].items[j]);
    }
    forall x | x in xs ensures exists i :: 0 <= i < |g| && x in g[i].items {
      var n :| 0 <= n < |xs| && xs[n] == x;
      assert HasKey(g, key(x));
      var i :| 0 <= i < |g| && g[i].key == key(x);
      assert KeyIs(key, g[i].key)(x);
    }
    forall x | exists i :: 0 <= i < |g| && x in g[i].items ensures x in xs {
      var i :| 0 <= i < |g| && x in g[i].items;
    }
  }

  /** An entry that Put appended carries a key the old grouping lacked. */
  lemma NewKeyAbsent<K, V>(g0: seq<Entry<K, V>>, g: seq<Entry<K, V>>, i: nat)
    requires DistinctKeys(g) && |g0| <= i < |g|
    requires forall j :: 0 <= j < |g0| ==> g[j].key == g0[j].key
    ensures !HasKey(g0, g[i].key)
  {
    forall j | 0 <= j < |g0| ensures g0[j].key != g[i].key {
      assert g[j].key == g0[j].key;
    }
  }

  /** Filtering by two tests that agree on every element gives the same list. */
  lemma {:induction false} SelectCongruent<T>(xs: seq<T>, p: T -> bool, q: T -> bool)
    requires forall i :: 0 <= i < |xs| ==> p(xs[i]) == q(xs[i])
    ensures Select(xs, p) == Select(xs, q)
    decreases |xs|
  {
    if |xs| > 0 {
      SelectCongruent(xs[..|xs| - 1], p, q);
    }
  }

  /** Some element passes the test exactly when the count is positive. */
  lemma CountPositive<T>(xs: seq<T>, p: T -> bool)
    ensures Count(xs, p) > 0 <==> exists i :: 0 <= i < |xs| && p(xs[i])
  {
    if Count(xs, p) > 0 {
      assert Select(xs, p)[0] in xs;
    }
  }

  lemma SelectNone<T>(xs: seq<T>, p: T -> bool)
    requires forall i :: 0 <= i < |xs| ==> !p(xs[i])
    ensures Select(xs, p) == []
  {
  }

  /** `[f(x) for x in xs]` for an `f` that may raise: every result in order,
      or the error of the first element that fails. */
  function MapResult<A, B>(xs: seq<A>, f: A -> Result<B>): (r: Result<seq<B>>)
    ensures r.Err? <==> exists i :: 0 <= i < |xs| && f(xs[i]).Err?
    ensures r.Err? ==> exists i :: 0 <= i < |xs| && f(xs[i]) == Err(r.error) && forall j :: 0 <= j < i ==> f(xs[j]).Ok?
    ensures r.Ok? ==> |r.value| == |xs| && forall i :: 0 <= i < |xs| ==> f(xs[i]) == Ok(r.value[i])
    decreases |xs|
  {
    if |xs| == 0 then Ok([])
    else
      var pre := xs[..|xs| - 1];
      assert forall i :: 0 <= i < |pre| ==> pre[i] == xs[i];
      match MapResult(pre, f)
      case Err(e) => Err(e)
      case Ok(done) =>
        match f(xs[|xs| - 1])
        case Err(e) => Err(e)
        case Ok(y) => Ok(done + [y])
  }

  /** `sum(1 for x in xs if p(x))`: one for each element satisfying `p`,
      which is the length of the filtered list. */
  function Count<T(==)>(xs: seq<T>, p: T -> bool): (n: nat)
    ensures n == |Select(xs, p)|
    ensures n <= |xs|
    decreases |xs|
  {
    if |xs| == 0 then 0
    else Count(xs[..|xs| - 1], p) + (if p(xs[|xs| - 1]) then 1 else 0)
  }

  lemma CountSnoc<T>(xs: seq<T>, p: T -> bool)
    requires |xs| > 0
    ensures Count(xs, p) == Count(xs[..|xs| - 1], p) + (if p(xs[|xs| - 1]) then 1 else 0)
  {
  }

  /** Elements satisfying two disjoint tests together number at most `|xs|`. */
  lemma {:induction false} DisjointCounts<T>(xs: seq<T>, p: T -> bool, q: T -> bool)
    requires forall i :: 0 <= i < |xs| ==> !(p(xs[i]) && q(xs[i]))
    ensures Count(xs, p) + Count(xs, q) <= |xs|
    decreases |xs|
  {
    if |xs| > 0 {
      DisjointCounts(xs[..|xs| - 1], p, q);
    }
  }

  /** `{key(x): x for x in xs}`: every key that occurs, each bound to the
      element seen last. */
  function ByKey<K(==,!new), T(==)>(xs: seq<T>, key: T -> K): (m: map<K, T>)
    ensures forall k :: k in m <==> exists i :: 0 <= i < |xs| && key(xs[i]) == k
    ensures forall k :: k in m ==> key(m[k]) == k && m[k] in xs
    decreases |xs|
  {
    if |xs| == 0 then map[]
    else
      var x := xs[|xs| - 1];
      var m := ByKey(xs[..|xs| - 1], key);
      assert forall k :: k in m ==> m[k] in xs by {
        forall k | k in m ensures m[k] in xs {
          assert m[k] in xs[..|xs| - 1];
        }
      }
      m[key(x) := x]
  }

  /** An element whose key no later element repeats is the one the key maps to. */
  lemma {:induction false} ByKeyLastWins<K(!new), T>(xs: seq<T>, key: T -> K, i: nat)
    requires i < |xs|
    requires forall j :: i < j < |xs| ==> key(xs[j]) != key(xs[i])
    ensures key(xs[i]) in ByKey(xs, key) && ByKey(xs, key)[key(xs[i])] == xs[i]
    decreases |xs|
  {
    if i < |xs| - 1 {
      var pre := xs[..|xs| - 1];
      assert forall j :: i < j < |pre| ==> pre[j] == xs[j];
      ByKeyLastWins(pre, key, i);
      assert key(xs[|xs| - 1]) != key(xs[i]);
    }
  }

  /** Some element of `xs` has key `k`. */
  predicate Occurs<K(==), T>(xs: seq<T>, key: T -> K, k: K) {
    exists i :: 0 <= i < |xs| && key(xs[i]) == k
  }

  /** The position of the first element of `xs` with key `k`, or `|xs|`
      when there is none. */
  function FirstAt<K(==), T>(xs: seq<T>, key: T -> K, k: K): (i: nat)
    ensures i <= |xs|
    ensures i < |xs| <==> Occurs(xs, key, k)
    ensures i < |xs| ==> key(xs[i]) == k
    ensures forall j :: 0 <= j < i && j < |xs| ==> key(xs[j]) != k
    decreases |xs|
  {
    if |xs| == 0 then 0
    else
      var pre := xs[..|xs| - 1];
      var f := FirstAt(pre, key, k);
      OccursSnoc(xs, key);
      if f < |pre| || key(xs[|xs| - 1]) == k then f else |xs|
  }

  /** Where in `d` the element with key `k` sits, if any. */
  function Position<K(==), T>(d: seq<T>, key: T -> K, k: K): (r: Option<nat>)
    ensures r.None? <==> !Occurs(d, key, k)
    ensures r.Some? ==> r.value < |d| && key(d[r.value]) == k
    decreases |d|
  {
    if |d| == 0 then None
    else if key(d[|d| - 1]) == k then Some(|d| - 1)
    else Position(d[..|d| - 1], key, k)
  }

  lemma OccursSnoc<K, T>(xs: seq<T>, key: T -> K)
    requires |xs| > 0
    ensures forall k :: Occurs(xs, key, k) <==> Occurs(xs[..|xs| - 1], key, k) || key(xs[|xs| - 1]) == k
  {
    var pre := xs[..|xs| - 1];
    forall k | Occurs(xs, key, k) && key(xs[|xs| - 1]) != k ensures Occurs(pre, key, k) {
      var i :| 0 <= i < |xs| && key(xs[i]) == k;
      assert key(pre[i]) == k;
    }
    forall k | Occurs(pre, key, k) ensures Occurs(xs, key, k) {
      var i :| 0 <= i < |pre| && key(pre[i]) == k;
      assert key(xs[i]) == k;
    }
  }

  /** `{key(x): x for x in xs}.values()`: a dict assignment replaces the entry
      of a key already present in place and adds a new key at the end, so
      there is one element per key that occurs. */
  function ByKeyOrdered<K(==,!new), T>(xs: seq<T>, key: T -> K): (r: seq<T>)
    ensures forall i, j :: 0 <= i < j < |r| ==> key(r[i]) != key(r[j])
    ensures forall k :: Occurs(r, key, k) <==> Occurs(xs, key, k)
    decreases |xs|
  {
    if |xs| == 0 then []
    else
      var pre := xs[..|xs| - 1];
      var x := xs[|xs| - 1];
      var d := ByKeyOrdered(pre, key);
      OccursSnoc(xs, key);
      match Position(d, key, key(x))
      case Some(p) =>
        var r := d[p := x];
        assert forall i :: 0 <= i < |r| ==> key(r[i]) == key(d[i]);
        assert forall k :: Occurs(r, key, k) <==> Occurs(d, key, k) by {
          forall k ensures Occurs(r, key, k) <==> Occurs(d, key, k) {
            if Occurs(r, key, k) {
              var i :| 0 <= i < |r| && key(r[i]) == k;
              assert key(d[i]) == k;
            }
            if Occurs(d, key, k) {
              var i :| 0 <= i < |d| && key(d[i]) == k;
              assert key(r[i]) == k;
            }
          }
        }
        r
      case None =>
        var r := d + [x];
        assert forall k :: Occurs(r, key, k) <==> Occurs(d, key, k) || key(x) == k by {
          forall k ensures Occurs(r, key, k) <==> Occurs(d, key, k) || key(x) == k {
            if Occurs(r, key, k) && key(x) != k {
              var i :| 0 <= i < |r| && key(r[i]) == k;
              assert key(d[i]) == k;
            }
            if Occurs(d, key, k) {
              var i :| 0 <= i < |d| && key(d[i]) == k;
              assert key(r[i]) == k;
            }
            if key(x) == k {
              assert key(r[|d|]) == k;
            }
          }
        }
        r
  }

  /** Each entry of the ordered dict is the last element carrying its key,
      the value `ByKey` keeps. */
  lemma {:induction false} ByKeyOrderedLastWins<K(!new), T>(xs: seq<T>, key: T -> K)
    ensures forall i :: 0 <= i < |ByKeyOrdered(xs, key)| ==>
      && key(ByKeyOrdered(xs, key)[i]) in ByKey(xs, key)
      && ByKeyOrdered(xs, key)[i] == ByKey(xs, key)[key(ByKeyOrdered(xs, key)[i])]
    decreases |xs|
  {
    if |xs| > 0 {
      var pre := xs[..|xs| - 1];
      var x := xs[|xs| - 1];
      var d := ByKeyOrdered(pre, key);
      ByKeyOrderedLastWins(pre, key);
      var m := ByKey(xs, key);
      assert m == ByKey(pre, key)[key(x) := x];
      match Position(d, key, key(x))
      case Some(p) =>
        var r := d[p := x];
        assert ByKeyOrdered(xs, key) == r;
        forall i | 0 <= i < |r| ensures key(r[i]) in m && r[i] == m[key(r[i])] {
          if i == p {
            assert r[i] == x;
          } else {
            assert r[i] == d[i] && key(d[i]) != key(d[p]);
            assert key(d[i]) in ByKey(pre, key) && d[i] == ByKey(pre, key)[key(d[i])];
          }
        }
      case None =>
        var r := d + [x];
        assert ByKeyOrdered(xs, key) == r;
        forall i | 0 <= i < |r| ensures key(r[i]) in m && r[i] == m[key(r[i])] {
          if i < |d| {
            assert r[i] == d[i] && key(d[i]) != key(x) by {
              assert Occurs(d, key, key(d[i]));
            }
            assert key(d[i]) in ByKey(pre, key) && d[i] == ByKey(pre, key)[key(d[i])];
          } else {
            assert r[i] == x;
          }
        }
    }
  }

  /** The entries of the ordered dict follow the order in which their keys
      first appear in `xs`. */
  lemma ByKeyOrderedFirstAppearance<K(!new), T>(xs: seq<T>, key: T -> K)
    ensures forall i, j :: 0 <= i < j < |ByKeyOrdered(xs, key)| ==>
      FirstAt(xs, key, key(ByKeyOrdered(xs, key)[i])) < FirstAt(xs, key, key(ByKeyOrdered(xs, key)[j]))
  {
    var r := ByKeyOrdered(xs, key);
    forall i, j | 0 <= i < j < |r| ensures FirstAt(xs, key, key(r[i])) < FirstAt(xs, key, key(r[j])) {
      FirstAppearancePair(xs, key, i, j);
    }
  }

  lemma {:induction false} FirstAppearancePair<K(!new), T>(xs: seq<T>, key: T -> K, i: nat, j: nat)
    requires i < j < |ByKeyOrdered(xs, key)|
    ensures var r := ByKeyOrdered(xs, key);
      FirstAt(xs, key, key(r[i])) < FirstAt(xs, key, key(r[j]))
    decreases |xs|
  {
    var pre := xs[..|xs| - 1];
    var x := xs[|xs| - 1];
    var d := ByKeyOrdered(pre, key);
    var r := ByKeyOrdered(xs, key);
    OccursSnoc(xs, key);
    assert Occurs(d, key, key(d[i]));
    FirstAtSnoc(xs, key, key(d[i]));
    match Position(d, key, key(x))
    case Some(p) =>
      assert r == d[p := x];
      assert key(r[i]) == key(d[i]) && key(r[j]) == key(d[j]);
      assert Occurs(d, key, key(d[j]));
      FirstAtSnoc(xs, key, key(d[j]));
      FirstAppearancePair(pre, key, i, j);
    case None =>
      assert r == d + [x];
      assert r[i] == d[i];
      if j < |d| {
        assert r[j] == d[j] && Occurs(d, key, key(d[j]));
        FirstAtSnoc(xs, key, key(d[j]));
        FirstAppearancePair(pre, key, i, j);
      } else {
        assert r[j] == x;
        FirstAtLast(xs, key);
      }
  }

  /** A key already present before the last element first appears where it
      did. */
  lemma FirstAtSnoc<K, T>(xs: seq<T>, key: T -> K, k: K)
    requires |xs| > 0 && Occurs(xs[..|xs| - 1], key, k)
    ensures FirstAt(xs, key, k) == FirstAt(xs[..|xs| - 1], key, k) < |xs| - 1
  {
    OccursSnoc(xs, key);
  }

  /** A key new with the last element first appears there. */
  lemma FirstAtLast<K, T>(xs: seq<T>, key: T -> K)
    requires |xs| > 0 && !Occurs(xs[..|xs| - 1], key, key(xs[|xs| - 1]))
    ensures FirstAt(xs, key, key(xs[|xs| - 1])) == |xs| - 1
  {
    OccursSnoc(xs, key);
  }
}

=== FILE: course_helpers.dfy ===
/** `src/reports/course_helpers.py`: the override resolver, the submission
    classifier, the roster reconciler and the pile aggregators. */
module CourseHelpers {

  import opened Wrappers
  import opened CanvasData
  import opened Collections
  import CanvasRequest

  const RecentlyThreshold: int := 3
  const AncientThreshold: int := 7

  // ---------------------------------------------------------------------------
  // Availability and override resolution

  datatype Availability = Locked | PastDue | Open | Future

  /** A window entry counts only when it holds a moment already past; an absent
      key and an explicit `None` both read as falsy through `.get`. */
  predicate Passed(f: Field, now: int) {
    f.At? && CanvasRequest.PastDate(f.t, now)
  }

  /** `check_availability`: locked before past due before open before future. */
  function CheckAvailability(w: Window, now: int): (a: Availability)
    ensures a == Locked <==> Passed(w.lockAt, now)
    ensures a == PastDue <==> !Passed(w.lockAt, now) && Passed(w.dueAt, now)
    ensures a == Open <==> !Passed(w.lockAt, now) && !Passed(w.dueAt, now) && Passed(w.unlockAt, now)
    ensures a == Future <==> !Passed(w.lockAt, now) && !Passed(w.dueAt, now) && !Passed(w.unlockAt, now)
  {
    if Passed(w.lockAt, now) then Locked
    else if Passed(w.dueAt, now) then PastDue
    else if Passed(w.unlockAt, now) then Open
    else Future
  }

  /** An entry that is absent or `None` never decides the outcome: the window
      behaves as if that entry were a moment still to come. */
  lemma UnsetEntriesNeverTrigger(w: Window, now: int)
    requires !w.lockAt.At? && !w.dueAt.At? && !w.unlockAt.At?
    ensures CheckAvailability(w, now) == Future
    ensures CheckAvailability(w.(lockAt := Missing), now) == CheckAvailability(w.(lockAt := Null), now)
  {
  }

  /** The three override passes, in the order they are tried. */
  datatype Pass = StudentPass | GroupPass | SectionPass

  function PassRank(p: Pass): nat {
    match p
    case StudentPass => 0
    case GroupPass => 1
    case SectionPass => 2
  }

  /** The course sections a user is enrolled in. */
  function Sections(u: User): set<int> {
    set i | 0 <= i < |u.enrollments| :: u.enrollments[i].sectionId
  }

  /** Whether override `o` applies to user `u` in pass `p`. A group override
      needs its group to be known and to contain the user. */
  predicate Matches(o: Override, p: Pass, u: User, groups: map<int, set<int>>) {
    match p
    case StudentPass => o.studentIds.Some? && u.id in o.studentIds.value
    case GroupPass => o.groupId.Some? && o.groupId.value in groups && u.id in groups[o.groupId.value]
    case SectionPass => o.sectionId.Some? && o.sectionId.value in Sections(u)
  }

  /** The first override at or after `from` that matches in pass `p`. */
  function FirstMatch(os: seq<Override>, from: nat, p: Pass, u: User, groups: map<int, set<int>>): (r: Option<nat>)
    requires from <= |os|
    ensures r.Some? ==> from <= r.value < |os| && Matches(os[r.value], p, u, groups)
    ensures r.Some? ==> forall j :: from <= j < r.value ==> !Matches(os[j], p, u, groups)
    ensures r.None? ==> forall j :: from <= j < |os| ==> !Matches(os[j], p, u, groups)
    decreases |os| - from
  {
    if from == |os| then None
    else if Matches(os[from], p, u, groups) then Some(from)
    else FirstMatch(os, from + 1, p, u, groups)
  }

  /** Override `i` in pass `p` comes before override `j` in pass `q`. */
  predicate Precedes(p: Pass, i: nat, q: Pass, j: nat) {
    PassRank(p) < PassRank(q) || (p == q && i < j)
  }

  /** The override `classify_availability` settles on, if any: every per-student
      match beats every group match, which beats every section match, and
      within a pass the first match wins. */
  function ChooseOverride(a: Assignment, u: User, groups: map<int, set<int>>): (r: Option<nat>)
    ensures r.None? <==> forall p: Pass, i :: 0 <= i < |a.overrides| ==> !Matches(a.overrides[i], p, u, groups)
    ensures r.Some? ==> r.value < |a.overrides|
    ensures r.Some? ==> exists p: Pass ::
      && Matches(a.overrides[r.value], p, u, groups)
      && forall q: Pass, j :: 0 <= j < |a.overrides| && Precedes(q, j, p, r.value) ==> !Matches(a.overrides[j], q, u, groups)
  {
    var os := a.overrides;
    if |os| == 0 then None
    else
      match FirstMatch(os, 0, StudentPass, u, groups)
      case Some(i) => Some(i)
      case None =>
        match FirstMatch(os, 0, GroupPass, u, groups)
        case Some(i) => Some(i)
        case None => FirstMatch(os, 0, SectionPass, u, groups)
  }

  /** The due/lock/unlock window that applies to user `u`: the chosen
      override's, or the assignment's own. */
  function ResolveWindow(a: Assignment, u: User, groups: map<int, set<int>>): (w: Window)
    ensures ChooseOverride(a, u, groups).None? ==> w == a.window
    ensures ChooseOverride(a, u, groups).Some? ==> w == a.overrides[ChooseOverride(a, u, groups).value].window
  {
    match ChooseOverride(a, u, groups)
    case Some(i) => a.overrides[i].window
    case None => a.window
  }

  /** A per-student override wins over any group or section override,
      wherever it sits in the list. */
  lemma StudentOverrideWins(a: Assignment, u: User, groups: map<int, set<int>>, i: nat)
    requires i < |a.overrides| && Matches(a.overrides[i], StudentPass, u, groups)
    ensures var r := ChooseOverride(a, u, groups);
      r.Some? && Matches(a.overrides[r.value], StudentPass, u, groups) && r.value <= i
  {
    var r := ChooseOverride(a, u, groups);
    var p: Pass :| Matches(a.overrides[r.value], p, u, groups)
      && forall q: Pass, j :: 0 <= j < |a.overrides| && Precedes(q, j, p, r.value) ==> !Matches(a.overrides[j], q, u, groups);
    assert !Precedes(StudentPass, i, p, r.value);
  }

  /** No override of the submission's assignment applies to its submitter. */
  predicate NoOverrideApplies(s: Submission, groups: map<int, set<int>>) {
    forall p: Pass, i :: 0 <= i < |s.assignment.overrides| ==> !Matches(s.assignment.overrides[i], p, s.user, groups)
  }

  /** `classify_availability`: the availability of the assignment's own
      window when no override applies to the submitter; otherwise of an
      override that applies, and of a per-student one at or before any
      per-student override that applies. */
  function ClassifyAvailability(s: Submission, groups: map<int, set<int>>, now: int): (r: Availability)
    ensures NoOverrideApplies(s, groups) ==> r == CheckAvailability(s.assignment.window, now)
    ensures !NoOverrideApplies(s, groups) ==>
      exists i :: (0 <= i < |s.assignment.overrides| && r == CheckAvailability(s.assignment.overrides[i].window, now) &&
                   exists p: Pass :: Matches(s.assignment.overrides[i], p, s.user, groups))
    ensures forall i :: 0 <= i < |s.assignment.overrides| && Matches(s.assignment.overrides[i], StudentPass, s.user, groups) ==>
      exists j :: (0 <= j <= i && Matches(s.assignment.overrides[j], StudentPass, s.user, groups) &&
                   r == CheckAvailability(s.assignment.overrides[j].window, now))
  {
    var a := s.assignment;
    var c := ChooseOverride(a, s.user, groups);
    forall i | 0 <= i < |a.overrides| && Matches(a.overrides[i], StudentPass, s.user, groups)
      ensures exists j :: (0 <= j <= i && Matches(a.overrides[j], StudentPass, s.user, groups) &&
                           CheckAvailability(ResolveWindow(a, s.user, groups), now) == CheckAvailability(a.overrides[j].window, now))
    {
      StudentOverrideWins(a, s.user, groups, i);
      assert Matches(a.overrides[c.value], StudentPass, s.user, groups);
    }
    CheckAvailability(ResolveWindow(a, s.user, groups), now)
  }

  // ---------------------------------------------------------------------------
  // Classification

  /** A second attempt, or a non-empty grade: `attempt and attempt > 1 or grade`. */
  predicate Attempted(s: Submission) {
    (s.attempt.Some? && s.attempt.value > 1) || (s.grade.Some? && s.grade.value != "")
  }

  predicate IsLateStatus(g: GradingStatus) {
    g == NotYetGradedLate || g == ResubmittedLate
  }

  predicate IsUnsubmittedStatus(g: GradingStatus) {
    g == MissedLockDate || g == MissedDueDate || g == InProgress || g == FutureAssignments
  }

  predicate IsOnTimeStatus(g: GradingStatus) {
    g == NotYetGradedReady || g == ResubmittedReady || g == NotYetGradedEarly || g == ResubmittedEarly
  }

  predicate IsResubmission(g: GradingStatus) {
    g == ResubmittedLate || g == ResubmittedReady || g == ResubmittedEarly
  }

  /** What an unsubmitted (or missing) submission is called, by availability. */
  function UnsubmittedStatus(a: Availability): GradingStatus {
    match a
    case Locked => MissedLockDate
    case PastDue => MissedDueDate
    case Open => InProgress
    case Future => FutureAssignments
  }

  /** `classify_submission`. The source ends in `return "unknown"`, which no
      input reaches: the last `elif submitted_at` holds whenever the branch
      before it did not, so the classification is total over the eleven tags.
      "graded" short-circuits everything; lateness is tested before
      missingness. */
  function ClassifySubmission(s: Submission, groups: map<int, set<int>>, now: int): (g: GradingStatus)
    ensures g == Graded <==> s.workflowState == "graded"
    ensures IsLateStatus(g) <==> s.workflowState != "graded" && s.late
    ensures IsUnsubmittedStatus(g) <==>
      s.workflowState != "graded" && !s.late && (s.missing || s.submittedAt.None?)
    ensures IsOnTimeStatus(g) <==>
      s.workflowState != "graded" && !s.late && !s.missing && s.submittedAt.Some?
    ensures IsLateStatus(g) || IsOnTimeStatus(g) ==> (IsResubmission(g) <==> Attempted(s))
    ensures IsUnsubmittedStatus(g) ==> g == UnsubmittedStatus(ClassifyAvailability(s, groups, now))
    ensures IsOnTimeStatus(g) ==>
      (g in {NotYetGradedReady, ResubmittedReady} <==> ClassifyAvailability(s, groups, now) == Locked)
  {
    if s.workflowState == "graded" then Graded
    else
      var attempted := Attempted(s);
      if s.late then
        if attempted then ResubmittedLate else NotYetGradedLate
      else
        var availability := ClassifyAvailability(s, groups, now);
        if s.missing || s.submittedAt.None? then
          match availability
          case Locked => MissedLockDate
          case PastDue => MissedDueDate
          case Open => InProgress
          case Future => FutureAssignments
        else if availability == Locked then
          if attempted then ResubmittedReady else NotYetGradedReady
        else
          if attempted then ResubmittedEarly else NotYetGradedEarly
  }

  // ---------------------------------------------------------------------------
  // Roster reconciliation

  /** A roster cohort: the staff responsible for the group of the same name. */
  datatype Cohort = Cohort(name: string, staff: seq<User>)

  type StaffMap = map<int, seq<User>>

  function CountId(users: seq<User>, id: int): nat {
    Count(users, (u: User) => u.id == id)
  }

  function Ids(users: seq<User>): set<int> {
    set i | 0 <= i < |users| :: users[i].id
  }

  /** Appends `ta` to the staff list of every student, once per occurrence. */
  function AppendTa(m: StaffMap, ta: User, students: seq<User>): (r: StaffMap)
    ensures r.Keys == m.Keys + Ids(students)
    ensures forall sid :: Get(r, sid, []) == Get(m, sid, []) + Rep(ta, CountId(students, sid))
    decreases |students|
  {
    if |students| == 0 then m
    else
      var prefix := students[..|students| - 1];
      var last := students[|students| - 1];
      var m' := AppendTa(m, ta, prefix);
      var r := m'[last.id := Get(m', last.id, []) + [ta]];
      IdsSnoc(students);
      forall sid ensures Get(r, sid, []) == Get(m, sid, []) + Rep(ta, CountId(students, sid)) {
        AppendTaAt(m, m', ta, students, sid);
      }
      r
  }

  /** One student more adds `ta` to that student's list and to nobody else's. */
  lemma AppendTaAt(m: StaffMap, m': StaffMap, ta: User, students: seq<User>, sid: int)
    requires |students| > 0
    requires Get(m', sid, []) == Get(m, sid, []) + Rep(ta, CountId(students[..|students| - 1], sid))
    ensures var last := students[|students| - 1].id;
      Get(m'[last := Get(m', last, []) + [ta]], sid, []) == Get(m, sid, []) + Rep(ta, CountId(students, sid))
  {
    CountSnoc(students, (u: User) => u.id == sid);
    RepSnoc(ta, CountId(students[..|students| - 1], sid));
  }

  lemma IdsSnoc(users: seq<User>)
    requires |users| > 0
    ensures Ids(users) == Ids(users[..|users| - 1]) + {users[|users| - 1].id}
  {
    var prefix := users[..|users| - 1];
    forall id | id in Ids(users) ensures id in Ids(prefix) + {users[|users| - 1].id} {
      var i :| 0 <= i < |users| && users[i].id == id;
      if i < |prefix| {
        assert prefix[i] == users[i];
      }
    }
    forall id | id in Ids(prefix) ensures id in Ids(users) {
      var i :| 0 <= i < |prefix| && prefix[i].id == id;
      assert users[i] == prefix[i];
    }
  }

  /** The staff list one cohort gives student `sid`: each TA in cohort order,
      repeated as often as the student occurs in the group. */
  function CohortStaffFor(staff: seq<User>, students: seq<User>, sid: int): seq<User>
    decreases |staff|
  {
    if |staff| == 0 then []
    else CohortStaffFor(staff[..|staff| - 1], students, sid) + Rep(staff[|staff| - 1], CountId(students, sid))
  }

  lemma SeqAssoc<T>(a: seq<T>, b: seq<T>, c: seq<T>)
    ensures (a + b) + c == a + (b + c)
  {
  }

  /** One cohort's contribution: `for ta in staff: for student in students: ...`. */
  function AddCohort(m: StaffMap, staff: seq<User>, students: seq<User>): (r: StaffMap)
    ensures r.Keys == m.Keys + (if |staff| > 0 then Ids(students) else {})
    ensures forall sid :: Get(r, sid, []) == Get(m, sid, []) + CohortStaffFor(staff, students, sid)
    decreases |staff|
  {
    if |staff| == 0 then m
    else
      var pre := AddCohort(m, staff[..|staff| - 1], students);
      var ta := staff[|staff| - 1];
      var r := AppendTa(pre, ta, students);
      forall sid ensures Get(r, sid, []) == Get(m, sid, []) + CohortStaffFor(staff, students, sid) {
        var before, added := CohortStaffFor(staff[..|staff| - 1], students, sid), Rep(ta, CountId(students, sid));
        assert CohortStaffFor(staff, students, sid) == before + added;
        assert Get(r, sid, []) == (Get(m, sid, []) + before) + added;
        SeqAssoc(Get(m, sid, []), before, added);
      }
      r
  }

  /** A cohort that contributes: it has staff (so its group is looked up). */
  predicate Contributes(c: Cohort) {
    |c.staff| > 0
  }

  /** The staff of student `sid` across all cohorts, in cohort order, with
      duplicates kept. */
  function StaffOf(cohorts: seq<Cohort>, memberships: map<string, seq<User>>, sid: int): seq<User>
    decreases |cohorts|
  {
    if |cohorts| == 0 then []
    else
      var c := cohorts[|cohorts| - 1];
      StaffOf(cohorts[..|cohorts| - 1], memberships, sid)
        + (if Contributes(c) && c.name in memberships then CohortStaffFor(c.staff, memberships[c.name], sid) else [])
  }

  /** `sid` belongs to the group of some contributing cohort. */
  ghost predicate Rostered(cohorts: seq<Cohort>, memberships: map<string, seq<User>>, sid: int) {
    exists i :: 0 <= i < |cohorts| && Contributes(cohorts[i]) && cohorts[i].name in memberships
                && sid in Ids(memberships[cohorts[i].name])
  }

  /** Rostering over one more cohort adds that cohort's group, if it counts. */
  lemma RosteredSnoc(cohorts: seq<Cohort>, memberships: map<string, seq<User>>)
    requires |cohorts| > 0
    ensures var prefix := cohorts[..|cohorts| - 1];
      var c := cohorts[|cohorts| - 1];
      forall sid :: Rostered(cohorts, memberships, sid) <==>
        Rostered(prefix, memberships, sid)
        || (Contributes(c) && c.name in memberships && sid in Ids(memberships[c.name]))
  {
    var prefix := cohorts[..|cohorts| - 1];
    forall sid | Rostered(prefix, memberships, sid) ensures Rostered(cohorts, memberships, sid) {
      var i :| 0 <= i < |prefix| && Contributes(prefix[i]) && prefix[i].name in memberships
               && sid in Ids(memberships[prefix[i].name]);
      assert cohorts[i] == prefix[i];
    }
    forall sid | Rostered(cohorts, memberships, sid)
      ensures Rostered(prefix, memberships, sid) || cohorts[|cohorts| - 1].name in memberships
    {
      var i :| 0 <= i < |cohorts| && Contributes(cohorts[i]) && cohorts[i].name in memberships
               && sid in Ids(memberships[cohorts[i].name]);
      if i < |prefix| {
        assert prefix[i] == cohorts[i];
      }
    }
  }

  /** `get_staff_for_student`. A cohort with staff whose name is not a group
      name raises `KeyError`; a cohort without staff is never looked up. */
  function GetStaffForStudent(cohorts: seq<Cohort>, memberships: map<string, seq<User>>): (r: Result<StaffMap>)
    ensures r.Err? <==> exists i :: 0 <= i < |cohorts| && Contributes(cohorts[i]) && cohorts[i].name !in memberships
    ensures r.Ok? ==> forall sid :: sid in r.value <==> Rostered(cohorts, memberships, sid)
    ensures r.Ok? ==> forall sid :: Get(r.value, sid, []) == StaffOf(cohorts, memberships, sid)
    decreases |cohorts|
  {
    if |cohorts| == 0 then Ok(map[])
    else
      var prefix := cohorts[..|cohorts| - 1];
      var c := cohorts[|cohorts| - 1];
      RosteredSnoc(cohorts, memberships);
      assert forall i :: 0 <= i < |prefix| ==> prefix[i] == cohorts[i];
      var m :- GetStaffForStudent(prefix, memberships);
      if !Contributes(c) then Ok(m)
      else if c.name !in memberships then Err(KeyError(c.name))
      else Ok(AddCohort(m, c.staff, memberships[c.name]))
  }

  // ---------------------------------------------------------------------------
  // Piles

  type StatusPiles = map<GradingStatus, seq<Submission>>

  /** Every status has a pile. */
  ghost predicate Complete<V>(p: map<GradingStatus, V>) {
    forall g: GradingStatus :: g in p
  }

  lemma EveryStatusListed()
    ensures forall g: GradingStatus :: g in AllStatuses
  {
    forall g: GradingStatus ensures g in AllStatuses {
      StatusesDistinct(g);
    }
  }

  /** `{g: [] for g in get_args(GradingStatus)}`. */
  function EmptyPiles(): (p: StatusPiles)
    ensures Complete(p)
    ensures forall g :: g in p ==> p[g] == []
  {
    EveryStatusListed();
    map g: GradingStatus | g in AllStatuses :: []
  }

  /** `{g: set() for g in get_args(GradingStatus)}`. */
  function EmptyBigPile(): (p: map<GradingStatus, set<int>>)
    ensures Complete(p)
    ensures forall g :: g in p ==> p[g] == {}
  {
    EveryStatusListed();
    map g: GradingStatus | g in AllStatuses :: {}
  }

  /** The big pile (submission ids by status) and each TA's piles. */
  datatype Piles = Piles(big: map<GradingStatus, set<int>>, ta: map<int, StatusPiles>)

  /** Graded by the system: a truthy integer grader on a graded submission. */
  predicate MachineGraded(s: Submission) {
    s.grader.AutoGrader? && s.grader.sentinel != 0 && s.workflowState == "graded"
  }

  /** The staff responsible for the submitter, `[]` for a student in no cohort. */
  function StaffFor(staffFor: StaffMap, s: Submission): seq<User> {
    Get(staffFor, s.user.id, [])
  }

  /** A submission the aggregators look at: not machine graded, and somebody's
      student (a submission without staff never reaches the classifier). */
  predicate Counted(staffFor: StaffMap, s: Submission) {
    !MachineGraded(s) && |StaffFor(staffFor, s)| > 0
  }

  /** TA `t`'s pile for status `g`, empty when `t` has no piles. */
  function PileOf(ta: map<int, StatusPiles>, t: int, g: GradingStatus): seq<Submission> {
    if t in ta && g in ta[t] then ta[t][g] else []
  }

  /** `ta_piles[t][status].append(s)`, creating `t`'s piles on first use. */
  function AddOne(ta: map<int, StatusPiles>, t: int, s: Submission, g: GradingStatus): (r: map<int, StatusPiles>)
    requires forall t' :: t' in ta ==> Complete(ta[t'])
    ensures forall t' :: t' in r ==> Complete(r[t'])
    ensures r.Keys == ta.Keys + {t}
    ensures forall t', g' :: PileOf(r, t', g') == PileOf(ta, t', g') + (if t' == t && g' == g then [s] else [])
  {
    var p := if t in ta then ta[t] else EmptyPiles();
    assert Complete(p);
    assert g in p;
    ta[t := p[g := p[g] + [s]]]
  }

  /** `for ta in staff: ta_piles[ta["id"]][status].append(s)`. */
  function AddToStaff(ta: map<int, StatusPiles>, staff: seq<User>, s: Submission, g: GradingStatus)
    : (r: map<int, StatusPiles>)
    requires forall t :: t in ta ==> Complete(ta[t])
    ensures forall t :: t in r ==> Complete(r[t])
    ensures r.Keys == ta.Keys + Ids(staff)
    decreases |staff|
  {
    if |staff| == 0 then ta
    else
      IdsSnoc(staff);
      AddOne(AddToStaff(ta, staff[..|staff| - 1], s, g), staff[|staff| - 1].id, s, g)
  }

  /** After the loop, TA `t`'s pile for `g` has `s` once more for every time
      `t` appears among `staff`, and every other pile is unchanged. */
  lemma {:induction false} AddToStaffPile(ta: map<int, StatusPiles>, staff: seq<User>, s: Submission, g: GradingStatus,
                                          t: int, g': GradingStatus)
    requires forall t :: t in ta ==> Complete(ta[t])
    ensures PileOf(AddToStaff(ta, staff, s, g), t, g') ==
      PileOf(ta, t, g') + (if g' == g then Rep(s, CountId(staff, t)) else [])
    decreases |staff|
  {
    if |staff| > 0 {
      var pre := AddToStaff(ta, staff[..|staff| - 1], s, g);
      var last := staff[|staff| - 1];
      AddToStaffPile(ta, staff[..|staff| - 1], s, g, t, g');
      AddToStaffAt(staff, s, t);
      assert PileOf(AddToStaff(ta, staff, s, g), t, g') == PileOf(pre, t, g') + (if t == last.id && g' == g then [s] else []);
      if g' == g {
        SeqAssoc(PileOf(ta, t, g'), Rep(s, CountId(staff[..|staff| - 1], t)), if t == last.id then [s] else []);
      }
    }
  }

  /** One staff member more adds one copy of `s` to the piles of that
      member's id. */
  lemma AddToStaffAt(staff: seq<User>, s: Submission, t': int)
    requires |staff| > 0
    ensures var prefix := staff[..|staff| - 1];
      Rep(s, CountId(staff, t')) == Rep(s, CountId(prefix, t')) + (if t' == staff[|staff| - 1].id then [s] else [])
  {
    CountSnoc(staff, (u: User) => u.id == t');
    RepSnoc(s, CountId(staff[..|staff| - 1], t'));
  }

  /** How many times submission `s` lands in TA `t`'s pile for status `g`:
      once for every time `t` appears among the submitter's staff. */
  function PileWeight(staffFor: StaffMap, classify: Submission -> Result<GradingStatus>, t: int, g: GradingStatus)
    : Submission -> nat
  {
    (s: Submission) => if Counted(staffFor, s) && classify(s) == Ok(g) then CountId(StaffFor(staffFor, s), t) else 0
  }

  /** The submissions that land in TA `t`'s pile for status `g`, in order. */
  function AssignedTo(subs: seq<Submission>, staffFor: StaffMap, classify: Submission -> Result<GradingStatus>,
                      t: int, g: GradingStatus): seq<Submission>
  {
    Repeated(subs, PileWeight(staffFor, classify, t, g))
  }

  /** The ids in the big pile for status `g`. */
  ghost function BigPileOf(subs: seq<Submission>, staffFor: StaffMap, classify: Submission -> Result<GradingStatus>,
                           g: GradingStatus): set<int>
  {
    set i | 0 <= i < |subs| && Counted(staffFor, subs[i]) && classify(subs[i]) == Ok(g) :: subs[i].id
  }

  /** `t` is on the staff of some counted submission's submitter. */
  ghost predicate HasPiles(subs: seq<Submission>, staffFor: StaffMap, t: int) {
    exists i :: 0 <= i < |subs| && Counted(staffFor, subs[i]) && t in Ids(StaffFor(staffFor, subs[i]))
  }

  /** Some counted submission cannot be classified. */
  ghost predicate Unclassifiable(subs: seq<Submission>, staffFor: StaffMap, classify: Submission -> Result<GradingStatus>) {
    exists i :: 0 <= i < |subs| && Counted(staffFor, subs[i]) && classify(subs[i]).Err?
  }

  lemma PilesSnoc(subs: seq<Submission>, staffFor: StaffMap, classify: Submission -> Result<GradingStatus>)
    requires |subs| > 0
    ensures var prefix := subs[..|subs| - 1];
      var s := subs[|subs| - 1];
      && (Unclassifiable(subs, staffFor, classify) <==>
            Unclassifiable(prefix, staffFor, classify) || (Counted(staffFor, s) && classify(s).Err?))
      && (forall t :: HasPiles(subs, staffFor, t) <==>
            HasPiles(prefix, staffFor, t) || (Counted(staffFor, s) && t in Ids(StaffFor(staffFor, s))))
      && (forall g :: BigPileOf(subs, staffFor, classify, g) ==
            BigPileOf(prefix, staffFor, classify, g)
            + (if Counted(staffFor, s) && classify(s) == Ok(g) then {s.id} else {}))
  {
    var prefix := subs[..|subs| - 1];
    var s := subs[|subs| - 1];
    assert forall i :: 0 <= i < |prefix| ==> prefix[i] == subs[i];
    if Unclassifiable(subs, staffFor, classify) && !(Counted(staffFor, s) && classify(s).Err?) {
      var i :| 0 <= i < |subs| && Counted(staffFor, subs[i]) && classify(subs[i]).Err?;
      assert i < |prefix|;
    }
    forall t | HasPiles(subs, staffFor, t) && !(Counted(staffFor, s) && t in Ids(StaffFor(staffFor, s)))
      ensures HasPiles(prefix, staffFor, t)
    {
      var i :| 0 <= i < |subs| && Counted(staffFor, subs[i]) && t in Ids(StaffFor(staffFor, subs[i]));
      assert i < |prefix|;
    }
    forall g ensures BigPileOf(subs, staffFor, classify, g) ==
      BigPileOf(prefix, staffFor, classify, g) + (if Counted(staffFor, s) && classify(s) == Ok(g) then {s.id} else {})
    {
      forall id | id in BigPileOf(subs, staffFor, classify, g)
        ensures id in BigPileOf(prefix, staffFor, classify, g) + (if Counted(staffFor, s) && classify(s) == Ok(g) then {s.id} else {})
      {
        var i :| 0 <= i < |subs| && Counted(staffFor, subs[i]) && classify(subs[i]) == Ok(g) && subs[i].id == id;
        if i < |prefix| {
          assert prefix[i] == subs[i];
        }
      }
    }
  }

  /** The loop shared by `make_grading_piles` and `make_graded_piles` (and the
      inline copy in the ungraded report), with the classifier as a parameter:
      machine-graded submissions are skipped, and every other one is filed
      under its status once per TA of its submitter. */
  function BuildPiles(subs: seq<Submission>, staffFor: StaffMap, classify: Submission -> Result<GradingStatus>)
    : (r: Result<Piles>)
    ensures r.Err? <==> Unclassifiable(subs, staffFor, classify)
    ensures r.Ok? ==> Complete(r.value.big)
    ensures r.Ok? ==> forall g :: g in r.value.big ==> r.value.big[g] == BigPileOf(subs, staffFor, classify, g)
    ensures r.Ok? ==> forall t :: t in r.value.ta <==> HasPiles(subs, staffFor, t)
    ensures r.Ok? ==> forall t :: t in r.value.ta ==> Complete(r.value.ta[t])
    ensures r.Ok? ==> forall t, g :: PileOf(r.value.ta, t, g) == AssignedTo(subs, staffFor, classify, t, g)
    decreases |subs|
  {
    if |subs| == 0 then Ok(Piles(EmptyBigPile(), map[]))
    else
      var prefix := subs[..|subs| - 1];
      var s := subs[|subs| - 1];
      PilesSnoc(subs, staffFor, classify);
      var p :- BuildPiles(prefix, staffFor, classify);
      if !Counted(staffFor, s) then Ok(p)
      else
        var g :- classify(s);
        var ta := AddToStaff(p.ta, StaffFor(staffFor, s), s, g);
        forall t, g' ensures PileOf(ta, t, g') ==
          PileOf(p.ta, t, g') + (if g' == g then Rep(s, CountId(StaffFor(staffFor, s), t)) else [])
        {
          AddToStaffPile(p.ta, StaffFor(staffFor, s), s, g, t, g');
        }
        Ok(Piles(p.big[g := p.big[g] + {s.id}], ta))
  }

  lemma OnStaffOnce(staff: seq<User>, t: int)
    requires CountId(staff, t) <= 1
    ensures CountId(staff, t) == 1 <==> t in Ids(staff)
  {
    CountPositive(staff, (u: User) => u.id == t);
    assert t in Ids(staff) <==> exists j :: 0 <= j < |staff| && staff[j].id == t;
  }

  /** Counted, classified as `g`, and one of `t`'s students. */
  function InPile(staffFor: StaffMap, classify: Submission -> Result<GradingStatus>, t: int, g: GradingStatus)
    : Submission -> bool
  {
    (s: Submission) => Counted(staffFor, s) && classify(s) == Ok(g) && t in Ids(StaffFor(staffFor, s))
  }

  /** A TA listed at most once for every submitter gets, per status, exactly
      the counted submissions of their students with that status, in order. */
  lemma PileIsFilter(subs: seq<Submission>, staffFor: StaffMap, classify: Submission -> Result<GradingStatus>,
                     t: int, g: GradingStatus)
    requires forall i :: 0 <= i < |subs| ==> CountId(StaffFor(staffFor, subs[i]), t) <= 1
    ensures AssignedTo(subs, staffFor, classify, t, g) == Select(subs, InPile(staffFor, classify, t, g))
  {
    var w := PileWeight(staffFor, classify, t, g);
    var q := InPile(staffFor, classify, t, g);
    forall i | 0 <= i < |subs| ensures w(subs[i]) <= 1 && (w(subs[i]) == 1 <==> q(subs[i])) {
      OnStaffOnce(StaffFor(staffFor, subs[i]), t);
    }
    RepeatedAtMostOnce(subs, w, q);
  }

  /** The classifier `make_grading_piles` uses; it never raises. */
  function Classifier(groups: map<int, set<int>>, now: int): Submission -> Result<GradingStatus> {
    (s: Submission) => Ok(ClassifySubmission(s, groups, now))
  }

  /** `make_grading_piles`. */
  function MakeGradingPiles(subs: seq<Submission>, staffFor: StaffMap, groups: map<int, set<int>>, now: int)
    : (r: Piles)
    ensures Complete(r.big)
    ensures forall g :: g in r.big ==> r.big[g] == BigPileOf(subs, staffFor, Classifier(groups, now), g)
    ensures forall t :: t in r.ta <==> HasPiles(subs, staffFor, t)
    ensures forall t :: t in r.ta ==> Complete(r.ta[t])
    ensures forall t, g :: PileOf(r.ta, t, g) == AssignedTo(subs, staffFor, Classifier(groups, now), t, g)
  {
    BuildPiles(subs, staffFor, Classifier(groups, now)).value
  }

  /** `grader["id"] if grader else None`: a person's id, `None` for no grader
      or the falsy sentinel 0, and a `TypeError` for a truthy sentinel, which
      is an `int` and cannot be indexed. */
  function GraderKey(s: Submission): (r: Result<Option<int>>)
    ensures r.Err? <==> s.grader.AutoGrader? && s.grader.sentinel != 0
    ensures r.Ok? && r.value.Some? <==> s.grader.HumanGrader?
    ensures s.grader.HumanGrader? ==> r == Ok(Some(s.grader.user.id))
  {
    match s.grader
    case NoGrader => Ok(None)
    case AutoGrader(n) => if n == 0 then Ok(None) else Err(TypeError("'int' object is not subscriptable"))
    case HumanGrader(u) => Ok(Some(u.id))
  }

  /** The submissions filed under grader key `k`, once per TA of the submitter. */
  function GradedBy(subs: seq<Submission>, staffFor: StaffMap, k: Option<int>): seq<Submission> {
    Repeated(subs, (s: Submission) =>
      if Counted(staffFor, s) && GraderKey(s) == Ok(k) then |StaffFor(staffFor, s)| else 0)
  }

  /** Some counted submission carries a truthy sentinel grader. */
  ghost predicate SentinelCounted(subs: seq<Submission>, staffFor: StaffMap) {
    exists i :: 0 <= i < |subs| && Counted(staffFor, subs[i]) && GraderKey(subs[i]).Err?
  }

  /** `k` is a grader key of some counted submission. */
  ghost predicate GraderSeen(subs: seq<Submission>, staffFor: StaffMap, k: Option<int>) {
    exists i :: 0 <= i < |subs| && Counted(staffFor, subs[i]) && GraderKey(subs[i]) == Ok(k)
  }

  lemma GradedSnoc(subs: seq<Submission>, staffFor: StaffMap)
    requires |subs| > 0
    ensures var prefix := subs[..|subs| - 1];
      var s := subs[|subs| - 1];
      && (SentinelCounted(subs, staffFor) <==>
            SentinelCounted(prefix, staffFor) || (Counted(staffFor, s) && GraderKey(s).Err?))
      && (forall k :: GraderSeen(subs, staffFor, k) <==>
            GraderSeen(prefix, staffFor, k) || (Counted(staffFor, s) && GraderKey(s) == Ok(k)))
  {
    var prefix := subs[..|subs| - 1];
    var s := subs[|subs| - 1];
    assert forall i :: 0 <= i < |prefix| ==> prefix[i] == subs[i];
    if SentinelCounted(subs, staffFor) && !(Counted(staffFor, s) && GraderKey(s).Err?) {
      var i :| 0 <= i < |subs| && Counted(staffFor, subs[i]) && GraderKey(subs[i]).Err?;
      assert i < |prefix|;
    }
    forall k | GraderSeen(subs, staffFor, k) && !(Counted(staffFor, s) && GraderKey(s) == Ok(k))
      ensures GraderSeen(prefix, staffFor, k)
    {
      var i :| 0 <= i < |subs| && Counted(staffFor, subs[i]) && GraderKey(subs[i]) == Ok(k);
      assert i < |prefix|;
    }
  }

  lemma GradedBySnoc(subs: seq<Submission>, staffFor: StaffMap, k: Option<int>)
    requires |subs| > 0 && Counted(staffFor, subs[|subs| - 1]) && GraderKey(subs[|subs| - 1]) == Ok(k)
    ensures GradedBy(subs, staffFor, k) == GradedBy(subs[..|subs| - 1], staffFor, k) + Rep(subs[|subs| - 1], |StaffFor(staffFor, subs[|subs| - 1])|)
    ensures forall k' :: k' != k ==> GradedBy(subs, staffFor, k') == GradedBy(subs[..|subs| - 1], staffFor, k')
  {
  }

  /** The `ta_graded_pile` half of `make_graded_piles`: each counted
      submission is appended under its grader key once per TA. */
  function GradedPile(subs: seq<Submission>, staffFor: StaffMap): (r: Result<map<Option<int>, seq<Submission>>>)
    ensures r.Err? <==> SentinelCounted(subs, staffFor)
    ensures r.Ok? ==> forall k :: k in r.value <==> GraderSeen(subs, staffFor, k)
    ensures r.Ok? ==> forall k :: Get(r.value, k, []) == GradedBy(subs, staffFor, k)
    decreases |subs|
  {
    if |subs| == 0 then Ok(map[])
    else
      var prefix := subs[..|subs| - 1];
      var s := subs[|subs| - 1];
      GradedSnoc(subs, staffFor);
      var m :- GradedPile(prefix, staffFor);
      if !Counted(staffFor, s) then Ok(m)
      else
        var k :- GraderKey(s);
        var r := m[k := Get(m, k, []) + Rep(s, |StaffFor(staffFor, s)|)];
        GradedBySnoc(subs, staffFor, k);
        Ok(r)
  }

  datatype GradedPiles = GradedPiles(piles: Piles, graded: map<Option<int>, seq<Submission>>)

  /** `make_graded_piles`: the grading piles plus, per grader key, what that
      grader has touched. It raises as soon as a counted submission has a truthy
      sentinel grader, which can only be an ungraded one. */
  function MakeGradedPiles(subs: seq<Submission>, staffFor: StaffMap, groups: map<int, set<int>>, now: int)
    : (r: Result<GradedPiles>)
    ensures r.Err? <==> exists i :: 0 <= i < |subs| && |StaffFor(staffFor, subs[i])| > 0
                          && subs[i].grader.AutoGrader? && subs[i].grader.sentinel != 0
                          && subs[i].workflowState != "graded"
    ensures r.Ok? ==> r.value.piles == MakeGradingPiles(subs, staffFor, groups, now)
    ensures r.Ok? ==> forall k :: k in r.value.graded <==> GraderSeen(subs, staffFor, k)
    ensures r.Ok? ==> forall k :: Get(r.value.graded, k, []) == GradedBy(subs, staffFor, k)
  {
    var graded :- GradedPile(subs, staffFor);
    Ok(GradedPiles(MakeGradingPiles(subs, staffFor, groups, now), graded))
  }

  /** Graded by a person. */
  predicate HumanGraded(s: Submission) {
    s.workflowState == "graded" && s.grader.HumanGrader?
  }

  /** The id of a person grader; 0 otherwise (never used as a key then). */
  function GraderId(s: Submission): int {
    if s.grader.HumanGrader? then s.grader.user.id else 0
  }

  /** A graded submission whose grader is the falsy sentinel 0: it passes both
      skip tests and `grader["id"]` raises `TypeError` on it. */
  predicate ZeroSentinelGraded(s: Submission) {
    s.workflowState == "graded" && s.grader == AutoGrader(0)
  }

  datatype GraderPiles = GraderPiles(allGraded: seq<Submission>, byGrader: seq<Entry<int, Submission>>)

  /** One person-graded submission joins `all_graded` and its grader's pile;
      the piles stay the grouping of `all_graded` by grader. */
  function AddGraded(p: GraderPiles, s: Submission): (r: GraderPiles)
    ensures r.allGraded == p.allGraded + [s]
    ensures p.byGrader == GroupBy(p.allGraded, GraderId) && s.grader.HumanGrader? ==>
      r.byGrader == GroupBy(r.allGraded, GraderId)
  {
    var all := p.allGraded + [s];
    assert all[..|all| - 1] == p.allGraded;
    GraderPiles(all, Put(p.byGrader, GraderId(s), s))
  }

  /** `make_ungraded_piles`: the person-graded submissions, in order, and the
      same grouped by grader id in order of first appearance. */
  method MakeUngradedPiles(subs: seq<Submission>) returns (r: Result<GraderPiles>)
    ensures r.Err? <==> exists i :: 0 <= i < |subs| && ZeroSentinelGraded(subs[i])
    ensures r.Ok? ==> r.value.allGraded == Select(subs, HumanGraded)
    ensures r.Ok? ==> r.value.byGrader == GroupBy(r.value.allGraded, GraderId)
  {
    var allGraded: seq<Submission> := [];
    var byGrader: seq<Entry<int, Submission>> := [];
    var i := 0;
    while i < |subs|
      invariant 0 <= i <= |subs|
      invariant forall j :: 0 <= j < i ==> !ZeroSentinelGraded(subs[j])
      invariant allGraded == Select(subs[..i], HumanGraded)
      invariant byGrader == GroupBy(allGraded, GraderId)
    {
      var s := subs[i];
      assert subs[..i + 1][..i] == subs[..i];
      if s.workflowState != "graded" || (s.grader.AutoGrader? && s.grader.sentinel != 0) || s.grader.NoGrader? {
      } else if s.grader.AutoGrader? {
        return Err(TypeError("'int' object is not subscriptable"));
      } else {
        var p := AddGraded(GraderPiles(allGraded, byGrader), s);
        allGraded, byGrader := p.allGraded, p.byGrader;
      }
      i := i + 1;
    }
    assert subs[..i] == subs;
    return Ok(GraderPiles(allGraded, byGrader));
  }

  /** `days_old`: 0 for an unsubmitted submission, otherwise whole days from
      submission to grading (or to now, if not yet graded). */
  function DaysOld(s: Submission, now: int): (d: nat)
    ensures s.submittedAt.None? ==> d == 0
    ensures s.submittedAt.Some? ==> d == CanvasRequest.DaysBetween(s.submittedAt.value, s.gradedAt, now)
  {
    match s.submittedAt
    case None => 0
    case Some(t) => CanvasRequest.DaysBetween(t, s.gradedAt, now)
  }

  predicate Recent(s: Submission, now: int) {
    s.submittedAt.Some? && DaysOld(s, now) < RecentlyThreshold
  }

  predicate Ancient(s: Submission, now: int) {
    s.submittedAt.Some? && DaysOld(s, now) > AncientThreshold
  }

  /** `check_recency`: how many submitted submissions are under three days old
      and how many over seven; unsubmitted ones count as neither. */
  method CheckRecency(pile: seq<Submission>, now: int) returns (recent: nat, ancient: nat)
    ensures recent == Count(pile, (s: Submission) => Recent(s, now))
    ensures ancient == Count(pile, (s: Submission) => Ancient(s, now))
    ensures recent + ancient <= |pile|
  {
    recent, ancient := 0, 0;
    var i := 0;
    while i < |pile|
      invariant 0 <= i <= |pile|
      invariant recent == Count(pile[..i], (s: Submission) => Recent(s, now))
      invariant ancient == Count(pile[..i], (s: Submission) => Ancient(s, now))
    {
      var s := pile[i];
      assert pile[..i + 1][..i] == pile[..i];
      if s.submittedAt.Some? {
        var delay := DaysOld(s, now);
        if delay > AncientThreshold {
          ancient := ancient + 1;
        } else if delay < RecentlyThreshold {
          recent := recent + 1;
        }
      }
      i := i + 1;
    }
    assert pile[..i] == pile;
    DisjointCounts(pile, (s: Submission) => Recent(s, now), (s: Submission) => Ancient(s, now));
  }
}

=== FILE: email_service.dfy ===
/** `src/email_service.py`: which reports are mailed, how they are batched
    per recipient, and the headers and body of each message. Reading the
    attachments and talking to the mail server are not modelled; an
    attachment is its file name. */
module EmailService {

  import opened Wrappers
  import opened Collections

  /** The parts of a report the mailer reads: the subject template, the
      target's name and email, the course name and the file name. */
  datatype Report = Report(
    subject: string,
    targetName: string,
    targetEmail: string,
    courseName: string,
    filename: string)

  datatype ReportSet = ReportSet(reports: seq<Report>)

  // ---------------------------------------------------------------------------
  // Subject templates

  /** The value `str.format` substitutes for a field: the two keyword
      arguments, an index error for an empty (positional) field, a key error
      for any other name. */
  function FieldValue(name: string, course: string, user: string): (r: Result<string>)
    ensures name == "course_name" ==> r == Ok(course)
    ensures name == "user_name" ==> r == Ok(user)
    ensures r.Err? <==> name != "course_name" && name != "user_name"
  {
    if name == "course_name" then Ok(course)
    else if name == "user_name" then Ok(user)
    else if name == "" then Err(IndexError)
    else Err(KeyError(name))
  }

  /** The first index at or after `i` holding a closing brace. */
  function CloseBrace(t: string, i: nat): (r: Option<nat>)
    requires i <= |t|
    ensures r.Some? ==> i <= r.value < |t| && t[r.value] == '}'
    ensures r.Some? ==> forall k :: i <= k < r.value ==> t[k] != '}'
    ensures r.None? ==> forall k :: i <= k < |t| ==> t[k] != '}'
    decreases |t| - i
  {
    if i == |t| then None
    else if t[i] == '}' then Some(i)
    else CloseBrace(t, i + 1)
  }

  /** What the first piece of a template produces, and how many of its
      characters that piece takes up. */
  datatype Piece = Piece(text: string, width: nat)

  /** The first piece of a non-empty template: a doubled brace, a braced
      field, or one plain character. A brace that opens no field or closes
      none raises, and so does a field with no value. */
  function Lead(t: string, course: string, user: string): (r: Result<Piece>)
    requires |t| > 0
    ensures r.Ok? ==> 1 <= r.value.width <= |t|
  {
    if t[0] == '{' then
      if |t| >= 2 && t[1] == '{' then Ok(Piece("{", 2))
      else
        match CloseBrace(t, 1)
        case None => Err(ValueError("Single '{' encountered in format string"))
        case Some(j) =>
          var value :- FieldValue(t[1..j], course, user);
          Ok(Piece(value, j + 1))
    else if t[0] == '}' then
      if |t| >= 2 && t[1] == '}' then Ok(Piece("}", 2))
      else Err(ValueError("Single '}' encountered in format string"))
    else Ok(Piece([t[0]], 1))
  }

  /** `template.format(course_name=course, user_name=user)`: the pieces'
      texts in order; the first piece that raises stops it. */
  function Format(t: string, course: string, user: string): (r: Result<string>)
    ensures (forall k :: 0 <= k < |t| ==> t[k] != '{' && t[k] != '}') ==> r == Ok(t)
    decreases |t|
  {
    if |t| == 0 then Ok("")
    else
      var p :- Lead(t, course, user);
      var rest :- Format(t[p.width..], course, user);
      assert (forall k :: 0 <= k < |t| ==> t[k] != '{' && t[k] != '}') ==> p.text + rest == t by {
        if forall k :: 0 <= k < |t| ==> t[k] != '{' && t[k] != '}' {
          assert p == Piece([t[0]], 1);
          assert [t[0]] + t[1..] == t;
        }
      }
      Ok(p.text + rest)
  }

  /** A text written as a template: every brace doubled. */
  function Escape(s: string): (t: string)
    decreases |s|
  {
    if |s| == 0 then ""
    else (if s[0] == '{' || s[0] == '}' then [s[0], s[0]] else [s[0]]) + Escape(s[1..])
  }

  /** Formatting an escaped text gives the text back, whatever the values. */
  lemma {:induction false} FormatEscape(s: string, course: string, user: string)
    ensures Format(Escape(s), course, user) == Ok(s)
    decreases |s|
  {
    if |s| > 0 {
      var t := Escape(s);
      FormatEscape(s[1..], course, user);
      var w := if s[0] == '{' || s[0] == '}' then 2 else 1;
      assert Lead(t, course, user) == Ok(Piece([s[0]], w));
      assert t[w..] == Escape(s[1..]);
      assert [s[0]] + s[1..] == s;
    }
  }

  /** Text without braces is its own escape. */
  lemma {:induction false} EscapePlain(s: string)
    requires forall k :: 0 <= k < |s| ==> s[k] != '{' && s[k] != '}'
    ensures Escape(s) == s
    decreases |s|
  {
    if |s| > 0 {
      EscapePlain(s[1..]);
      assert [s[0]] + s[1..] == s;
    }
  }

  lemma {:induction false} CloseBraceAppend(x: string, y: string, i: nat)
    requires i <= |x|
    requires CloseBrace(x, i).Some?
    ensures CloseBrace(x + y, i) == CloseBrace(x, i)
    decreases |x| - i
  {
    if x[i] != '}' {
      CloseBraceAppend(x, y, i + 1);
    }
  }

  lemma {:induction false} CloseBraceAt(t: string, i: nat, j: nat)
    requires i <= j < |t| && t[j] == '}'
    requires forall k :: i <= k < j ==> t[k] != '}'
    ensures CloseBrace(t, i) == Some(j)
    decreases j - i
  {
    if i < j {
      CloseBraceAt(t, i + 1, j);
    }
  }

  /** A piece read from the front of a template is read the same whatever
      follows it. */
  lemma LeadAppend(x: string, y: string, course: string, user: string)
    requires |x| > 0 && Lead(x, course, user).Ok?
    ensures Lead(x + y, course, user) == Lead(x, course, user)
  {
    var t := x + y;
    assert t[0] == x[0];
    if x[0] == '{' || x[0] == '}' {
      assert t[1] == x[1];
    }
    if x[0] == '{' && x[1] != '{' {
      var j := CloseBrace(x, 1).value;
      CloseBraceAppend(x, y, 1);
      assert t[1..j] == x[1..j];
    }
  }

  /** A template that formats can be followed by any other: the results
      concatenate. */
  lemma {:induction false} FormatConcat(x: string, y: string, course: string, user: string)
    requires Format(x, course, user).Ok?
    ensures Format(y, course, user).Ok? ==>
              Format(x + y, course, user) == Ok(Format(x, course, user).value + Format(y, course, user).value)
    ensures Format(y, course, user).Err? ==> Format(x + y, course, user) == Format(y, course, user)
    decreases |x|
  {
    if |x| == 0 {
      assert x + y == y;
      assert Format(x, course, user).value == "";
      if Format(y, course, user).Ok? {
        assert "" + Format(y, course, user).value == Format(y, course, user).value;
      }
    } else {
      var p := Lead(x, course, user).value;
      FormatStep(x, p, course, user);
      FormatConcat(x[p.width..], y, course, user);
      FormatConcatStep(x, y, p, course, user);
    }
  }

  /** The step of `FormatConcat`: once the rest of `x` concatenates with `y`,
      so does `x`. */
  lemma FormatConcatStep(x: string, y: string, p: Piece, course: string, user: string)
    requires |x| > 0 && Lead(x, course, user) == Ok(p) && Format(x, course, user).Ok?
    requires p.width <= |x| && Format(x[p.width..], course, user).Ok?
    requires Format(y, course, user).Ok? ==>
      Format(x[p.width..] + y, course, user) == Ok(Format(x[p.width..], course, user).value + Format(y, course, user).value)
    requires Format(y, course, user).Err? ==> Format(x[p.width..] + y, course, user) == Format(y, course, user)
    ensures Format(y, course, user).Ok? ==>
              Format(x + y, course, user) == Ok(Format(x, course, user).value + Format(y, course, user).value)
    ensures Format(y, course, user).Err? ==> Format(x + y, course, user) == Format(y, course, user)
  {
    LeadAppend(x, y, course, user);
    DropAppend(x, y, p.width);
    FormatStep(x, p, course, user);
    FormatStep(x + y, p, course, user);
    if Format(y, course, user).Ok? {
      AppendAssociates(p.text, Format(x[p.width..], course, user).value, Format(y, course, user).value);
    }
  }

  lemma DropAppend(x: string, y: string, w: nat)
    requires w <= |x|
    ensures (x + y)[w..] == x[w..] + y
  {
  }

  lemma AppendAssociates(a: string, b: string, c: string)
    ensures a + (b + c) == (a + b) + c
  {
  }

  /** Formatting a template is its first piece's text before the format of
      the rest. */
  lemma FormatStep(t: string, p: Piece, course: string, user: string)
    requires |t| > 0 && Lead(t, course, user) == Ok(p)
    ensures p.width <= |t|
    ensures Format(t, course, user) ==
      if Format(t[p.width..], course, user).Ok? then Ok(p.text + Format(t[p.width..], course, user).value)
      else Format(t[p.width..], course, user)
  {
  }

  /** A single field formats to its value. */
  lemma FormatField(name: string, course: string, user: string)
    requires |name| > 0 && name[0] != '{'
    requires forall k :: 0 <= k < |name| ==> name[k] != '}'
    ensures Format("{" + name + "}", course, user) ==
      match FieldValue(name, course, user)
      case Ok(v) => Ok(v)
      case Err(e) => Err(e)
  {
    var t := "{" + name + "}";
    var j := |t| - 1;
    assert t[0] == '{' && t[1] == name[0];
    assert forall k :: 1 <= k < j ==> t[k] == name[k - 1];
    CloseBraceAt(t, 1, j);
    assert t[1..j] == name;
    assert t[j + 1..] == "";
    if FieldValue(name, course, user).Ok? {
      var v := FieldValue(name, course, user).value;
      assert Format(t, course, user) == Ok(v + "");
      assert v + "" == v;
    }
  }

  /** The subjects of the report generators,
      "{course_name} Grading Report for {user_name}" and the like: a plain
      prefix-free line with the course name at the front and the user name at
      the end is filled in as expected. */
  lemma FormatCourseLine(middle: string, course: string, user: string)
    requires forall k :: 0 <= k < |middle| ==> middle[k] != '{' && middle[k] != '}'
    ensures Format("{course_name}" + (middle + "{user_name}"), course, user) == Ok(course + (middle + user))
  {
    BracedNames();
    FormatFields("course_name", "{course_name}", middle, "user_name", "{user_name}", course, user);
  }

  lemma BracedNames()
    ensures "{" + "course_name" + "}" == "{course_name}"
    ensures "{" + "user_name" + "}" == "{user_name}"
  {
  }

  /** Two fields around plain text format to the two values around it. */
  lemma FormatFields(n1: string, a: string, middle: string, n2: string, b: string, course: string, user: string)
    requires |n1| > 0 && n1[0] != '{' && forall k :: 0 <= k < |n1| ==> n1[k] != '}'
    requires |n2| > 0 && n2[0] != '{' && forall k :: 0 <= k < |n2| ==> n2[k] != '}'
    requires a == "{" + n1 + "}" && b == "{" + n2 + "}"
    requires FieldValue(n1, course, user).Ok? && FieldValue(n2, course, user).Ok?
    requires forall k :: 0 <= k < |middle| ==> middle[k] != '{' && middle[k] != '}'
    ensures Format(a + (middle + b), course, user) ==
      Ok(FieldValue(n1, course, user).value + (middle + FieldValue(n2, course, user).value))
  {
    FormatField(n1, course, user);
    FormatField(n2, course, user);
    EscapePlain(middle);
    FormatEscape(middle, course, user);
    FormatThree(a, middle, b, course, user);
  }

  lemma FormatThree(a: string, m: string, b: string, course: string, user: string)
    requires Format(a, course, user).Ok? && Format(m, course, user).Ok? && Format(b, course, user).Ok?
    ensures Format(a + (m + b), course, user) ==
      Ok(Format(a, course, user).value + (Format(m, course, user).value + Format(b, course, user).value))
  {
    var fa, fm, fb := Format(a, course, user).value, Format(m, course, user).value, Format(b, course, user).value;
    var mb := m + b;
    assert Format(mb, course, user) == Ok(fm + fb) by {
      FormatConcat(m, b, course, user);
    }
    FormatConcat(a, mb, course, user);
  }

  // ---------------------------------------------------------------------------
  // The To header

  /** `f"{name} <{email}"` as written: the angle bracket is never closed. This
      is the string `send_email` assigns to `msg["To"]`; the mail library
      reparses it on assignment and renders it with the `>` it supplies. */
  function ToHeaderAsWritten(name: string, email: string): (h: string)
    ensures |h| == |name| + 2 + |email|
    ensures h[..|name| + 2] == name + " <" && h[|name| + 2..] == email
  {
    name + " <" + email
  }

  /** The mailbox form `name <email>`. */
  function ToHeader(name: string, email: string): (h: string)
    ensures |h| == |name| + |email| + 3 && h[|h| - 1] == '>'
  {
    name + " <" + email + ">"
  }

  datatype Address = Address(name: string, email: string)

  /** The last index below `n` holding `c`. */
  function LastIndex(s: string, c: char, n: nat): (r: Option<nat>)
    requires n <= |s|
    ensures r.Some? ==> r.value < n && s[r.value] == c
    ensures r.Some? ==> forall k :: r.value < k < n ==> s[k] != c
    ensures r.None? ==> forall k :: 0 <= k < n ==> s[k] != c
  {
    if n == 0 then None
    else if s[n - 1] == c then Some(n - 1)
    else LastIndex(s, c, n - 1)
  }

  /** Reads `name <email>` back, splitting at the last `<`; anything not
      closed by `>` or lacking the space before `<` is not an address. */
  function ParseAddress(h: string): (r: Option<Address>)
    ensures r.Some? ==> ToHeader(r.value.name, r.value.email) == h
  {
    if |h| == 0 || h[|h| - 1] != '>' then None
    else
      match LastIndex(h, '<', |h| - 1)
      case None => None
      case Some(i) =>
        if i == 0 || h[i - 1] != ' ' then None
        else
          var a := Address(h[..i - 1], h[i + 1..|h| - 1]);
          assert ToHeader(a.name, a.email) == h[..i - 1] + h[i - 1..i + 1] + h[i + 1..|h| - 1] + h[|h| - 1..];
          assert h == h[..i - 1] + h[i - 1..i + 1] + h[i + 1..|h| - 1] + h[|h| - 1..];
          Some(a)
  }

  /** The corrected header reads back as the target's name and email, for
      any email without angle brackets. */
  lemma ToHeaderRoundTrip(name: string, email: string)
    requires forall k :: 0 <= k < |email| ==> email[k] != '<' && email[k] != '>'
    ensures ParseAddress(ToHeader(name, email)) == Some(Address(name, email))
  {
    var h := ToHeader(name, email);
    var i := |name| + 1;
    HeaderParts(name, email);
    LastIndexAt(h, '<', |h| - 1, i);
    ParseAt(h, i);
  }

  /** A header closed by `>` whose last `<` sits at `i`, after a space, splits
      there. */
  lemma ParseAt(h: string, i: nat)
    requires |h| > 0 && h[|h| - 1] == '>'
    requires LastIndex(h, '<', |h| - 1) == Some(i) && i > 0 && h[i - 1] == ' '
    ensures ParseAddress(h) == Some(Address(h[..i - 1], h[i + 1..|h| - 1]))
  {
  }

  /** Where the pieces of `name <email>` sit. */
  lemma HeaderParts(name: string, email: string)
    ensures var h := ToHeader(name, email);
      var i := |name| + 1;
      && h[i] == '<' && h[i - 1] == ' '
      && (forall k :: i < k < |h| - 1 ==> h[k] == email[k - i - 1])
      && h[..i - 1] == name
      && h[i + 1..|h| - 1] == email
  {
    var h := ToHeader(name, email);
    var i := |name| + 1;
    assert h[..i - 1] == name;
    assert h[i + 1..|h| - 1] == email;
  }

  lemma {:induction false} LastIndexAt(s: string, c: char, n: nat, i: nat)
    requires i < n <= |s| && s[i] == c
    requires forall k :: i < k < n ==> s[k] != c
    ensures LastIndex(s, c, n) == Some(i)
    decreases n
  {
    if n - 1 != i {
      LastIndexAt(s, c, n - 1, i);
    }
  }

  /** The header as written is no address at all unless the email itself
      happens to end in `>`. */
  lemma ToHeaderAsWrittenUnreadable(name: string, email: string)
    requires |email| == 0 || email[|email| - 1] != '>'
    ensures ParseAddress(ToHeaderAsWritten(name, email)).None?
  {
    var h := ToHeaderAsWritten(name, email);
    if |email| > 0 {
      assert h[|h| - 1] == email[|email| - 1];
    } else {
      assert h[|h| - 1] == '<';
    }
  }

  lemma ToHeaderCounterexample()
    ensures ToHeaderAsWritten("Ada", "ada@udel.edu") == "Ada <ada@udel.edu"
    ensures ParseAddress(ToHeaderAsWritten("Ada", "ada@udel.edu")).None?
    ensures ParseAddress(ToHeader("Ada", "ada@udel.edu")) == Some(Address("Ada", "ada@udel.edu"))
  {
    var name, email := "Ada", "ada@udel.edu";
    AdaHeaderAsWritten();
    ToHeaderAsWrittenUnreadable(name, email);
    ToHeaderRoundTrip(name, email);
  }

  lemma AdaHeaderAsWritten()
    ensures ToHeaderAsWritten("Ada", "ada@udel.edu") == "Ada <ada@udel.edu"
  {
  }

  // ---------------------------------------------------------------------------
  // One message

  const Sender: string := "Canvas Crony Tool <noreply+canvas_crony@udel.edu>"
  const ManyReportsSubject: string := "Canvas Crony Reports"
  const Greeting: string := "Hi, I am the Canvas Crony! I send you regular updates on some of your courses."

  function BodyText(count: nat): string {
    Greeting + if count > 1 then " I have some reports for you!" else " I have a report for you!"
  }

  datatype Message = Message(
    subject: string,
    sender: string,
    to: string,  // the string assigned to `msg["To"]`, before the mail library reparses it
    body: string,
    attachments: seq<string>)

  /** A built message and the value `send_email` returns. */
  datatype Sent = Sent(message: Message, returned: bool)

  function Filenames(reports: seq<Report>): (r: seq<string>)
    ensures |r| == |reports| && forall i :: 0 <= i < |reports| ==> r[i] == reports[i].filename
  {
    seq(|reports|, i requires 0 <= i < |reports| => reports[i].filename)
  }

  /** `send_email`: the headers come from the first report, the string
      assigned to `msg["To"]` lacking its closing `>`; one report keeps its own subject,
      several share a fixed one; every report is attached in order; the
      function reports failure whatever the server says. */
  function SendEmail(reports: seq<Report>): (r: Result<Sent>)
    ensures |reports| == 0 ==> r == Err(IndexError)
    ensures r.Err? <==> |reports| == 0 || (|reports| == 1 && Format(reports[0].subject, reports[0].courseName, reports[0].targetName).Err?)
    ensures r.Ok? && |reports| > 1 ==> r.value.message.subject == ManyReportsSubject
    ensures r.Ok? && |reports| == 1 ==>
              r.value.message.subject == Format(reports[0].subject, reports[0].courseName, reports[0].targetName).value
    ensures r.Ok? ==> r.value.message.sender == Sender
    ensures r.Ok? ==> r.value.message.to == ToHeaderAsWritten(reports[0].targetName, reports[0].targetEmail)
    ensures r.Ok? ==> r.value.message.attachments == Filenames(reports)
    ensures r.Ok? ==> !r.value.returned
  {
    if |reports| == 0 then Err(IndexError)
    else
      var report := reports[0];
      var subject :- if |reports| > 1 then Ok(ManyReportsSubject)
                     else Format(report.subject, report.courseName, report.targetName);
      var msg := Message(subject, Sender, ToHeaderAsWritten(report.targetName, report.targetEmail),
                         BodyText(|reports|), Filenames(reports));
      Ok(Sent(msg, false))
  }

  /** The body says only whether there is one report or several. */
  lemma BodyDependsOnCount(a: seq<Report>, b: seq<Report>)
    requires SendEmail(a).Ok? && SendEmail(b).Ok?
    ensures (|a| > 1) == (|b| > 1) ==> SendEmail(a).value.message.body == SendEmail(b).value.message.body
    ensures (|a| > 1) != (|b| > 1) ==> SendEmail(a).value.message.body != SendEmail(b).value.message.body
  {
    assert SendEmail(a).value.message.body == BodyText(|a|);
    assert SendEmail(b).value.message.body == BodyText(|b|);
    if (|a| > 1) != (|b| > 1) {
      BodyTextsDiffer();
    }
  }

  lemma BodyTextsDiffer()
    ensures BodyText(1) != BodyText(2)
  {
    var one := BodyText(1);
    var many := BodyText(2);
    assert one[|Greeting| + 8] == 'a';
    assert many[|Greeting| + 8] == 's';
  }

  /** The string `send_email` assigns to `msg["To"]` is unclosed, so it never
      reads back as a name and address unless the email ends in `>`. */
  lemma SentHeaderUnclosed(reports: seq<Report>)
    requires SendEmail(reports).Ok?
    requires var e := reports[0].targetEmail; |e| == 0 || e[|e| - 1] != '>'
    ensures ParseAddress(SendEmail(reports).value.message.to).None?
    ensures SendEmail(reports).value.message.to != ToHeader(reports[0].targetName, reports[0].targetEmail)
  {
    var name, email := reports[0].targetName, reports[0].targetEmail;
    ToHeaderAsWrittenUnreadable(name, email);
  }

  // ---------------------------------------------------------------------------
  // Batching per recipient

  /** Every report of every set, in order. */
  function AllReports(sets: seq<ReportSet>): (r: seq<Report>)
    ensures forall x :: x in r <==> exists i :: 0 <= i < |sets| && x in sets[i].reports
    decreases |sets|
  {
    if |sets| == 0 then []
    else
      var pre := sets[..|sets| - 1];
      assert forall i :: 0 <= i < |pre| ==> pre[i] == sets[i];
      AllReports(pre) + sets[|sets| - 1].reports
  }

  /** `not only_emails or email in only_emails`. */
  function Kept(only: seq<string>): Report -> bool {
    (r: Report) => |only| == 0 || r.targetEmail in only
  }

  function TargetEmail(r: Report): string {
    r.targetEmail
  }

  /** `grouped_targets`: the kept reports by target email, the emails in the
      order first met. */
  function Recipients(sets: seq<ReportSet>, only: seq<string>): (r: seq<Entry<string, Report>>)
    ensures DistinctKeys(r)
    ensures forall k :: HasKey(r, k) <==>
      exists x :: x in AllReports(sets) && (|only| == 0 || x.targetEmail in only) && x.targetEmail == k
  {
    var kept := Select(AllReports(sets), Kept(only));
    GroupByShape(kept, TargetEmail);
    KeptEmails(sets, only);
    GroupBy(kept, TargetEmail)
  }

  /** The target emails of the kept reports are those of the reports the
      allow-list lets through. */
  lemma KeptEmails(sets: seq<ReportSet>, only: seq<string>)
    ensures var kept := Select(AllReports(sets), Kept(only));
      forall k :: Occurs(kept, TargetEmail, k) <==>
        exists x :: x in AllReports(sets) && (|only| == 0 || x.targetEmail in only) && x.targetEmail == k
  {
    var kept := Select(AllReports(sets), Kept(only));
    forall x | x in AllReports(sets) && (|only| == 0 || x.targetEmail in only)
      ensures exists i :: 0 <= i < |kept| && TargetEmail(kept[i]) == x.targetEmail
    {
      var n :| 0 <= n < |AllReports(sets)| && AllReports(sets)[n] == x;
      assert Kept(only)(x);
      var i :| 0 <= i < |kept| && kept[i] == x;
    }
    forall i | 0 <= i < |kept|
      ensures kept[i] in AllReports(sets) && (|only| == 0 || kept[i].targetEmail in only)
    {
      assert Kept(only)(kept[i]);
    }
  }

  /** Each kept report lands in exactly one batch, the batch of its email,
      in order; no batch is empty and no email has two batches. */
  lemma RecipientsPartition(sets: seq<ReportSet>, only: seq<string>)
    ensures var kept := Select(AllReports(sets), Kept(only));
      var g := Recipients(sets, only);
      && DistinctKeys(g)
      && TotalLen(g) == |kept|
      && (forall i :: 0 <= i < |g| ==> g[i].items == Select(kept, KeyIs(TargetEmail, g[i].key)))
      && (forall i :: 0 <= i < |g| ==> |g[i].items| > 0)
      && (forall i, j :: 0 <= i < |g| && 0 <= j < |g[i].items| ==> TargetEmail(g[i].items[j]) == g[i].key)
      && (forall x :: x in kept <==> exists i :: 0 <= i < |g| && x in g[i].items)
  {
    var kept := Select(AllReports(sets), Kept(only));
    GroupByPartitions(kept, TargetEmail);
    GroupByCovers(kept, TargetEmail);
  }

  /** A report reaches a batch exactly when the allow-list is empty or
      names its target. */
  lemma KeptIffAllowed(sets: seq<ReportSet>, only: seq<string>, x: Report)
    requires x in AllReports(sets)
    ensures x in Select(AllReports(sets), Kept(only)) <==> (|only| == 0 || x.targetEmail in only)
  {
  }

  /** One message per batch, in batch order; the first message whose subject
      does not format stops the rest. */
  function SendAll(groups: seq<Entry<string, Report>>): (r: Result<seq<Sent>>)
    ensures r.Err? <==> exists i :: 0 <= i < |groups| && SendEmail(groups[i].items).Err?
    ensures r.Ok? ==> |r.value| == |groups|
    ensures r.Ok? ==> forall i :: 0 <= i < |groups| ==>
      r.value[i].message.attachments == Filenames(groups[i].items) && !r.value[i].returned
    ensures r.Ok? ==> forall i :: 0 <= i < |groups| ==> SendEmail(groups[i].items) == Ok(r.value[i])
    ensures r.Err? ==> exists i :: (0 <= i < |groups| && SendEmail(groups[i].items) == Err(r.error) &&
                                    forall j :: 0 <= j < i ==> SendEmail(groups[j].items).Ok?)
  {
    MapResult(groups, (g: Entry<string, Report>) => SendEmail(g.items))
  }

  /** `send_emails`: one `send_email` call per recipient, in the order the
      recipients were first met; a run stops only on a lone report whose
      subject does not format. */
  function SendEmails(sets: seq<ReportSet>, only: seq<string>): (r: Result<seq<Sent>>)
    ensures r.Ok? ==> |r.value| == |Recipients(sets, only)|
    ensures r.Ok? ==> forall i :: 0 <= i < |Recipients(sets, only)| ==>
      SendEmail(Recipients(sets, only)[i].items) == Ok(r.value[i])
    ensures r.Err? <==> SomeSubjectFails(Recipients(sets, only))
  {
    var groups := Recipients(sets, only);
    RecipientsPartition(sets, only);
    assert forall i :: 0 <= i < |groups| ==> (SendEmail(groups[i].items).Err? <==> SubjectFails(groups[i].items));
    SendAll(groups)
  }

  /** Some batch is a lone report whose subject does not format. */
  ghost predicate SomeSubjectFails(groups: seq<Entry<string, Report>>) {
    exists i :: 0 <= i < |groups| && SubjectFails(groups[i].items)
  }

  /** A lone report whose subject template does not format. */
  predicate SubjectFails(items: seq<Report>) {
    |items| == 1 && Format(items[0].subject, items[0].courseName, items[0].targetName).Err?
  }

  /** Batching never hands `send_email` an empty list, so the only way a
      run stops is a lone report whose subject template does not format. */
  lemma SendEmailsFailsOnlyOnSubject(sets: seq<ReportSet>, only: seq<string>)
    requires SendEmails(sets, only).Err?
    ensures exists i :: 0 <= i < |Recipients(sets, only)| && SubjectFails(Recipients(sets, only)[i].items)
  {
    RecipientsPartition(sets, only);
  }
}

=== FILE: filesystem.dfy ===
/** `src/filesystem.py`: making a string safe to use as a file name. */
module Filesystem {

  /** The characters `clean_filename` replaces: `/ \ ? % * : | " < >`, DEL and
      the control characters 0x00 to 0x1F. */
  predicate Forbidden(c: char) {
    c in "/\\?%*:|\"<>" || c as int == 0x7F || c as int <= 0x1F
  }

  /** `clean_filename`: every forbidden character becomes '-'. */
  function CleanFilename(dirty: string): (clean: string)
    ensures |clean| == |dirty|
    ensures forall i :: 0 <= i < |dirty| && Forbidden(dirty[i]) ==> clean[i] == '-'
    ensures forall i :: 0 <= i < |dirty| && !Forbidden(dirty[i]) ==> clean[i] == dirty[i]
    ensures forall i :: 0 <= i < |clean| ==> !Forbidden(clean[i])
  {
    seq(|dirty|, i requires 0 <= i < |dirty| => if Forbidden(dirty[i]) then '-' else dirty[i])
  }

  /** A cleaned name is already clean. */
  lemma CleanFilenameIdempotent(dirty: string)
    ensures CleanFilename(CleanFilename(dirty)) == CleanFilename(dirty)
  {
  }
}

=== FILE: grading_reports.dfy ===
/** The per-TA figures of the instructor grading sheet in
    `src/reports/reporters/grading_reports.py`: how many submissions a staff
    member graded, how many were assigned to them, the difference, and the
    whole-number percentages graded within a week and after two weeks. The
    spreadsheet itself is not modelled; a row is the record of its six
    cells. */
module GradingReports {

  import opened Wrappers
  import opened CanvasData
  import opened Collections
  import Text
  import CanvasRequest
  import StatsHelpers
  import CourseHelpers
  import Canvas

  const MainPageHeaders: seq<string> := [
    "TA", "Total Graded", "Total Assigned", "Work Difference",
    "Graded within 1 week", "Graded after 2 weeks"
  ]

  // ---------------------------------------------------------------------------
  // Total assigned

  /** The summed pile sizes of the statuses in `gs`. */
  function PileSizes(p: CourseHelpers.StatusPiles, gs: seq<GradingStatus>): nat
    decreases |gs|
  {
    if |gs| == 0 then 0 else PileSizes(p, gs[..|gs| - 1]) + |Get(p, gs[|gs| - 1], [])|
  }

  /** `sum(len(submissions) for submissions in piles.values())`: every status
      appears once in AllStatuses, so summing over it visits each pile of the
      dict exactly once and absent statuses add nothing. */
  function AssignedCount(p: CourseHelpers.StatusPiles): (n: nat)
    ensures p == map[] ==> n == 0
    ensures n == 0 <==> forall g :: g in p ==> p[g] == []
    ensures forall g :: g in p ==> |p[g]| <= n
  {
    forall g | g in p ensures |p[g]| <= PileSizes(p, AllStatuses) {
      CanvasData.StatusesDistinct(g);
      PileSizesCovers(p, AllStatuses, g);
    }
    EmptyPileSizes(p, AllStatuses);
    PileSizes(p, AllStatuses)
  }

  lemma {:induction false} PileSizesCovers(p: CourseHelpers.StatusPiles, gs: seq<GradingStatus>, g: GradingStatus)
    requires g in gs
    ensures |Get(p, g, [])| <= PileSizes(p, gs)
    decreases |gs|
  {
    if gs[|gs| - 1] != g {
      assert g in gs[..|gs| - 1];
      PileSizesCovers(p, gs[..|gs| - 1], g);
    }
  }

  lemma {:induction false} EmptyPileSizes(p: CourseHelpers.StatusPiles, gs: seq<GradingStatus>)
    ensures (forall g :: g in p ==> p[g] == []) ==> PileSizes(p, gs) == 0
    decreases |gs|
  {
    if |gs| > 0 {
      EmptyPileSizes(p, gs[..|gs| - 1]);
    }
  }

  /** Adding one submission to the pile of status `g`, in place, raises the
      total by exactly one: the total counts each pile entry once. */
  lemma AssignedCountAddOne(p: CourseHelpers.StatusPiles, g: GradingStatus, s: Submission)
    requires g in p
    ensures AssignedCount(p[g := p[g] + [s]]) == AssignedCount(p) + 1
  {
    CanvasData.StatusesDistinct(g);
    PileSizesAddOne(p, AllStatuses, g, s);
  }

  lemma {:induction false} PileSizesAddOne(p: CourseHelpers.StatusPiles, gs: seq<GradingStatus>, g: GradingStatus, s: Submission)
    requires g in p
    requires forall i, j :: 0 <= i < j < |gs| ==> gs[i] != gs[j]
    ensures PileSizes(p[g := p[g] + [s]], gs) == PileSizes(p, gs) + (if g in gs then 1 else 0)
    decreases |gs|
  {
    if |gs| > 0 {
      var pre := gs[..|gs| - 1];
      PileSizesAddOne(p, pre, g, s);
      if gs[|gs| - 1] == g {
        assert g !in pre by {
          forall i | 0 <= i < |pre| ensures pre[i] != g {
            assert gs[i] != gs[|gs| - 1];
          }
        }
      } else {
        assert g in gs <==> g in pre;
      }
    }
  }

  // ---------------------------------------------------------------------------
  // Grading delays

  /** `days_between(graded_at, submitted_at)`: `None` when the submission has
      no grading time, which `strptime` rejects. A missing submission time is
      read as now. */
  function Delay(s: Submission, now: int): Option<nat> {
    match s.gradedAt
    case None => None
    case Some(t) => Some(CanvasRequest.DaysBetween(t, s.submittedAt, now))
  }

  function WithinWeek(now: int): Submission -> bool {
    s => Delay(s, now).Some? && Delay(s, now).value <= 7
  }

  function AfterTwoWeeks(now: int): Submission -> bool {
    s => Delay(s, now).Some? && Delay(s, now).value > 14
  }

  /** `(100 * k) // n if n else 0`. */
  function Percent(k: nat, n: nat): (p: nat)
    requires k <= n
    ensures n == 0 ==> p == 0
    ensures n > 0 ==> p * n <= 100 * k < (p + 1) * n
    ensures p <= 100
  {
    if n == 0 then 0 else (100 * k) / n
  }

  /** The cell text of a whole-number percentage. */
  function PercentCell(p: nat): string {
    Text.IntText(p) + "%"
  }

  /** The source writes a percentage as `f"{f(p)}%"`; since `f` of a whole
      number drops the `.00`, that is the plain decimal and a percent sign. */
  lemma PercentCellIsF(p: nat)
    ensures StatsHelpers.F(Text.IntText(p) + ".00") + "%" == PercentCell(p)
  {
    StatsHelpers.FWholeNumber(p);
  }

  // ---------------------------------------------------------------------------
  // A staff row

  datatype StaffRow = StaffRow(
    name: string,
    graded: nat,
    assignedCount: nat,
    difference: int,
    withinWeek: nat,
    afterTwoWeeks: nat)

  /** A submission in the graded pile with no grading time makes
      `days_between` raise. */
  predicate Untimed(s: Submission) {
    s.gradedAt.None?
  }

  /** Some graded submission has no grading time. */
  predicate SomeUntimed(graded: seq<Submission>) {
    exists i :: 0 <= i < |graded| && graded[i].gradedAt.None?
  }

  /** One row of the sheet for staff member `ta`. */
  function StaffRowFor(ta: User, piles: CourseHelpers.GradedPiles, now: int): (r: Result<StaffRow>)
    ensures var graded := Get(piles.graded, Some(ta.id), []);
      && (r.Err? <==> SomeUntimed(graded))
      && (r.Ok? ==>
            && r.value.name == ta.name
            && r.value.graded == |graded|
            && r.value.assignedCount == AssignedCount(Get(piles.piles.ta, ta.id, map[]))
            && r.value.difference == r.value.assignedCount - r.value.graded)
  {
    var graded := Get(piles.graded, Some(ta.id), []);
    var total := AssignedCount(Get(piles.piles.ta, ta.id, map[]));
    CountPositive(graded, Untimed);
    if Count(graded, Untimed) > 0 then Err(TypeError("strptime() argument 1 must be str, not None"))
    else
      var within := Count(graded, WithinWeek(now));
      var after := Count(graded, AfterTwoWeeks(now));
      Ok(StaffRow(ta.name, |graded|, total, total - |graded|,
                  Percent(within, |graded|), Percent(after, |graded|)))
  }

  /** The two percentage columns of a row are the floored shares of the
      graded submissions graded within a week and after two weeks; both are 0
      for a grader with nothing graded, and together they never exceed 100. */
  lemma {:induction false} StaffRowPercents(ta: User, piles: CourseHelpers.GradedPiles, now: int)
    requires StaffRowFor(ta, piles, now).Ok?
    ensures var graded := Get(piles.graded, Some(ta.id), []);
      var row := StaffRowFor(ta, piles, now).value;
      && row.withinWeek == Percent(Count(graded, WithinWeek(now)), |graded|)
      && row.afterTwoWeeks == Percent(Count(graded, AfterTwoWeeks(now)), |graded|)
      && (|graded| == 0 ==> row.withinWeek == 0 && row.afterTwoWeeks == 0)
      && row.withinWeek + row.afterTwoWeeks <= 100
  {
    var graded := Get(piles.graded, Some(ta.id), []);
    DisjointCounts(graded, WithinWeek(now), AfterTwoWeeks(now));
    PercentsShareHundred(Count(graded, WithinWeek(now)), Count(graded, AfterTwoWeeks(now)), |graded|);
  }

  /** Floor percentages of two disjoint parts of the same whole never add up
      to more than the whole. */
  lemma PercentsShareHundred(a: nat, b: nat, n: nat)
    requires a + b <= n
    ensures Percent(a, n) + Percent(b, n) <= 100
  {
    if n > 0 {
      var pa, pb := Percent(a, n), Percent(b, n);
      assert pa * n <= 100 * a && pb * n <= 100 * b;
      assert (pa + pb) * n == pa * n + pb * n;
      CancelFactor(pa + pb, 100, n);
    }
  }

  lemma CancelFactor(x: nat, y: nat, n: nat)
    requires n > 0 && x * n <= y * n
    ensures x <= y
  {
    if x > y {
      MulSplit(x, y, n);
      MulAtLeastOnce(x - y, n);
    }
  }

  lemma MulSplit(x: nat, y: nat, n: nat)
    requires y <= x
    ensures x * n == y * n + (x - y) * n
  {}

  lemma MulAtLeastOnce(d: nat, n: nat)
    requires d >= 1
    ensures d * n >= n
  {}

  /** A row shows more graded than assigned as a negative difference, for a
      grader who graded submissions of students not assigned to them. */
  lemma DifferenceMayBeNegative(ta: User, piles: CourseHelpers.GradedPiles, now: int)
    requires StaffRowFor(ta, piles, now).Ok?
    requires ta.id !in piles.piles.ta && |Get(piles.graded, Some(ta.id), [])| > 0
    ensures StaffRowFor(ta, piles, now).value.difference < 0
  {
  }

  // ---------------------------------------------------------------------------
  // The sheet

  /** The rows of the sheet below the header, one per staff member in order;
      the first row that raises stops the sheet. */
  function StaffRows(staff: seq<User>, piles: CourseHelpers.GradedPiles, now: int): (r: Result<seq<StaffRow>>)
    ensures r.Err? <==> SomeRowFails(staff, piles, now)
    ensures r.Ok? ==> |r.value| == |staff|
    ensures r.Ok? ==> forall i :: 0 <= i < |staff| ==> r.value[i] == StaffRowFor(staff[i], piles, now).value
  {
    MapResult(staff, (ta: User) => StaffRowFor(ta, piles, now))
  }

  /** Some staff member's row raises. */
  ghost predicate SomeRowFails(staff: seq<User>, piles: CourseHelpers.GradedPiles, now: int) {
    exists i :: 0 <= i < |staff| && StaffRowFor(staff[i], piles, now).Err?
  }

  /** The cell texts of one row, in the column order of the header. */
  function RowCells(row: StaffRow): (cells: seq<string>)
    ensures |cells| == 6 == |MainPageHeaders|
    ensures cells[0] == row.name
    ensures cells[4] == Text.IntText(row.withinWeek) + "%" && cells[5] == Text.IntText(row.afterTwoWeeks) + "%"
  {
    [row.name, Text.IntText(row.graded), Text.IntText(row.assignedCount), Text.IntText(row.difference),
     PercentCell(row.withinWeek), PercentCell(row.afterTwoWeeks)]
  }

  /** The worksheet: the header in row 0, then the course's staff member `i`
      (`course["staff"].values()`, in the dict's order) in row `i + 1`. */
  function GradingSheet(course: Canvas.Course, piles: CourseHelpers.GradedPiles, now: int): (r: Result<seq<seq<string>>>)
    ensures r.Err? <==> SomeRowFails(course.staff, piles, now)
    ensures r.Ok? ==> |r.value| == |course.staff| + 1 && r.value[0] == MainPageHeaders
    ensures r.Ok? ==> forall i :: 0 <= i < |course.staff| ==>
      StaffRowFor(course.staff[i], piles, now).Ok? && r.value[i + 1] == RowCells(StaffRowFor(course.staff[i], piles, now).value)
    ensures r.Ok? ==> forall i :: 0 <= i < |course.staff| ==>
      |r.value[i + 1]| == 6 && r.value[i + 1][0] == course.staff[i].name
  {
    match StaffRows(course.staff, piles, now)
    case Err(e) => Err(e)
    case Ok(rows) =>
      Ok(Sheet(rows))
  }

  /** For a course whose staff is built from its cohorts, as
      `Canvas.Rehydrate` builds it, the sheet has one row per distinct staff
      id of the cohorts, in the order each id first appears, each carrying
      the name of the id's last listing. */
  lemma SheetRowPerStaffId(c: Canvas.Course, piles: CourseHelpers.GradedPiles, now: int)
    requires c.staff == Canvas.Staff(c.cohorts)
    requires GradingSheet(c, piles, now).Ok?
    ensures forall k :: Occurs(c.staff, Canvas.UserId, k) <==>
      exists i, j :: 0 <= i < |c.cohorts| && 0 <= j < |c.cohorts[i].staff| && c.cohorts[i].staff[j].id == k
    ensures forall m, n :: 0 <= m < n < |c.staff| ==> c.staff[m].id != c.staff[n].id
    ensures forall m, n :: 0 <= m < n < |c.staff| ==>
      FirstAt(Canvas.AllStaff(c.cohorts), Canvas.UserId, c.staff[m].id) <
      FirstAt(Canvas.AllStaff(c.cohorts), Canvas.UserId, c.staff[n].id)
    ensures forall n :: 0 <= n < |c.staff| ==>
      && c.staff[n].id in ByKey(Canvas.AllStaff(c.cohorts), Canvas.UserId)
      && GradingSheet(c, piles, now).value[n + 1][0] == ByKey(Canvas.AllStaff(c.cohorts), Canvas.UserId)[c.staff[n].id].name
  {
  }


  /** Row `i` of a successful `StaffRows` belongs to staff member `i`. */
  lemma StaffRowsNames(staff: seq<User>, piles: CourseHelpers.GradedPiles, now: int)
    requires StaffRows(staff, piles, now).Ok?
    ensures forall i :: 0 <= i < |staff| ==> StaffRows(staff, piles, now).value[i].name == staff[i].name
  {
    var rows := StaffRows(staff, piles, now).value;
    forall i | 0 <= i < |staff|
      ensures rows[i].name == staff[i].name
    {
      assert rows[i] == StaffRowFor(staff[i], piles, now).value;
    }
  }

  /** The header row above the cells of each staff row. */
  function Sheet(rows: seq<StaffRow>): (r: seq<seq<string>>)
    ensures |r| == |rows| + 1 && r[0] == MainPageHeaders
    ensures forall i :: 0 <= i < |rows| ==> r[i + 1] == RowCells(rows[i])
  {
    var cells := SheetRows(rows);
    assert forall i :: 0 <= i < |rows| ==> ([MainPageHeaders] + cells)[i + 1] == cells[i];
    [MainPageHeaders] + cells
  }

  /** The cells of each staff row, in order. */
  function SheetRows(rows: seq<StaffRow>): (r: seq<seq<string>>)
    ensures |r| == |rows|
    ensures forall i :: 0 <= i < |rows| ==> r[i] == RowCells(rows[i])
  {
    seq(|rows|, i requires 0 <= i < |rows| => RowCells(rows[i]))
  }
}

=== FILE: legacy_score_reports.dfy ===
/** The pure parts of the older `src/reports/score_reports.py`: its own grader
    loop, its unclamped five-number summary, its mean and variance without an
    empty-input guard, its fractional non-zero scores and the in-place
    renaming of each stored table's corner cell. */
module LegacyScoreReports {

  import opened Wrappers
  import opened CanvasData
  import opened Collections
  import CourseHelpers
  import StatsHelpers
  import ScoreReporter

  // ---------------------------------------------------------------------------
  // Grouping by grader

  /** A graded submission whose grader cannot be subscripted: no grader at
      all, or the falsy sentinel 0. This copy of the loop has no `grader is
      None` guard, so both reach `grader["id"]`. */
  predicate Unsubscriptable(s: Submission) {
    s.workflowState == "graded" && (s.grader.NoGrader? || s.grader == AutoGrader(0))
  }

  /** The loop of `make_score_reports` over the submissions: person-graded
      submissions go into `all_graded` and into the pile of their grader; the
      first unsubscriptable one raises. */
  function LegacyGraderPiles(subs: seq<Submission>): (r: Result<CourseHelpers.GraderPiles>)
    ensures r.Err? <==> exists i :: 0 <= i < |subs| && Unsubscriptable(subs[i])
    ensures r.Ok? ==> r.value.allGraded == Select(subs, CourseHelpers.HumanGraded)
    ensures r.Ok? ==> r.value.byGrader == GroupBy(r.value.allGraded, CourseHelpers.GraderId)
    decreases |subs|
  {
    if |subs| == 0 then Ok(CourseHelpers.GraderPiles([], []))
    else
      var pre := subs[..|subs| - 1];
      var s := subs[|subs| - 1];
      assert forall i :: 0 <= i < |pre| ==> pre[i] == subs[i];
      match LegacyGraderPiles(pre)
      case Err(e) => Err(e)
      case Ok(p) => LegacyStep(p, s)
  }

  /** One pass of the loop body: skip what is not graded or graded by a
      truthy sentinel, raise on an unsubscriptable grader, file the rest. */
  function LegacyStep(p: CourseHelpers.GraderPiles, s: Submission): (r: Result<CourseHelpers.GraderPiles>)
    ensures r.Err? <==> Unsubscriptable(s)
    ensures r.Ok? ==> r.value.allGraded == p.allGraded + (if CourseHelpers.HumanGraded(s) then [s] else [])
    ensures r.Ok? && p.byGrader == GroupBy(p.allGraded, CourseHelpers.GraderId) ==>
      r.value.byGrader == GroupBy(r.value.allGraded, CourseHelpers.GraderId)
  {
    if s.workflowState != "graded" then Ok(p)
    else match s.grader
      case NoGrader => Err(TypeError("'NoneType' object is not subscriptable"))
      case AutoGrader(n) =>
        if n != 0 then Ok(p) else Err(TypeError("'int' object is not subscriptable"))
      case HumanGrader(_) => Ok(CourseHelpers.AddGraded(p, s))
  }

  /** Every person-graded submission sits in exactly one pile, the pile of its
      own grader, in order; the pile lengths sum to `len(all_graded)`. */
  lemma LegacyPilesPartition(subs: seq<Submission>)
    requires LegacyGraderPiles(subs).Ok?
    ensures var p := LegacyGraderPiles(subs).value;
      && DistinctKeys(p.byGrader)
      && TotalLen(p.byGrader) == |p.allGraded|
      && (forall i :: 0 <= i < |p.byGrader| ==>
            p.byGrader[i].items == Select(p.allGraded, KeyIs(CourseHelpers.GraderId, p.byGrader[i].key)))
      && (forall i :: 0 <= i < |p.allGraded| ==> p.allGraded[i].grader.HumanGrader?)
  {
    var p := LegacyGraderPiles(subs).value;
    GroupByPartitions(p.allGraded, CourseHelpers.GraderId);
  }

  /** A submission with no grader that `make_ungraded_piles` skips stops this
      loop with a `TypeError`. */
  lemma UngradedByNobodyRaises(s: Submission)
    requires s.workflowState == "graded" && s.grader.NoGrader?
    ensures LegacyGraderPiles([s]).Err?
    ensures !CourseHelpers.ZeroSentinelGraded(s)
  {
    assert Unsubscriptable([s][0]);
  }

  // ---------------------------------------------------------------------------
  // The unclamped summary

  /** `iqr` of this file: the sorted scores at `ceil(n * k / 4)` for k = 1, 2, 3,
      without the clamp to `n - 1`, so an index equal to `n` raises. */
  function UnclampedIqr(scores: seq<real>): (r: Result<seq<StatsHelpers.Cell>>)
    ensures r.Err? ==> r.error == IndexError
    ensures r.Ok? ==> |r.value| == 5
  {
    var s := StatsHelpers.SortScores(scores);
    var n := |s|;
    var i1, i2, i3 := StatsHelpers.CeilQuarter(n, 1), StatsHelpers.CeilQuarter(n, 2), StatsHelpers.CeilQuarter(n, 3);
    if i1 >= n || i2 >= n || i3 >= n || n == 0 then Err(IndexError)
    else
      Ok([StatsHelpers.Num(s[0]), StatsHelpers.Num(s[i1]), StatsHelpers.Num(s[i2]),
          StatsHelpers.Num(s[i3]), StatsHelpers.Num(s[n - 1])])
  }

  /** The unclamped summary fails exactly for fewer than four scores, and
      from four on it agrees with the clamped one. */
  lemma UnclampedIqrFailsBelowFour(scores: seq<real>)
    ensures UnclampedIqr(scores).Err? <==> |scores| < 4
    ensures |scores| >= 4 ==> UnclampedIqr(scores) == Ok(StatsHelpers.Iqr(scores))
  {
    var n := |scores|;
    if n >= 4 {
      UnclampedFromFour(scores);
    } else {
      assert StatsHelpers.CeilQuarter(n, 3) >= n;
    }
  }

  lemma UnclampedFromFour(scores: seq<real>)
    requires |scores| >= 4
    requires StatsHelpers.CeilQuarter(|scores|, 1) < |scores| - 1
    requires StatsHelpers.CeilQuarter(|scores|, 2) < |scores| - 1
    requires StatsHelpers.CeilQuarter(|scores|, 3) <= |scores| - 1
    ensures UnclampedIqr(scores) == Ok(StatsHelpers.Iqr(scores))
  {
    var n := |scores|;
    assert StatsHelpers.QuartileIndex(n, 1) == StatsHelpers.CeilQuarter(n, 1);
    assert StatsHelpers.QuartileIndex(n, 2) == StatsHelpers.CeilQuarter(n, 2);
    assert StatsHelpers.QuartileIndex(n, 3) == StatsHelpers.CeilQuarter(n, 3);
  }

  /** A single score: the clamped summary repeats it five times, the
      unclamped one raises. */
  lemma OneScoreCounterexample()
    ensures UnclampedIqr([50.0]).Err?
    ensures StatsHelpers.Iqr([50.0]) == [StatsHelpers.Num(50.0), StatsHelpers.Num(50.0),
      StatsHelpers.Num(50.0), StatsHelpers.Num(50.0), StatsHelpers.Num(50.0)]
  {
    UnclampedIqrFailsBelowFour([50.0]);
    var s := StatsHelpers.SortScores([50.0]);
    assert 50.0 in multiset(s);
    assert s == [50.0];
  }

  // ---------------------------------------------------------------------------
  // Mean and variance without a guard

  /** `get_normal_stats` of this file: divides by `len(scores)` unguarded. */
  function LegacyNormalStats(scores: seq<real>): (r: Result<StatsHelpers.NormalStats>)
    ensures r.Err? <==> |scores| == 0
    ensures r.Err? ==> r.error == ZeroDivisionError
  {
    if |scores| == 0 then Err(ZeroDivisionError)
    else
      var n := |scores| as real;
      var mean := StatsHelpers.Sum(scores) / n;
      Ok(StatsHelpers.Stats(mean, StatsHelpers.SumSquaredDeviations(scores, mean) / n))
  }

  /** On any non-empty input the two versions compute the same mean and
      variance; only the empty input differs. */
  lemma LegacyNormalStatsAgree(scores: seq<real>)
    ensures |scores| > 0 ==> LegacyNormalStats(scores) == Ok(StatsHelpers.GetNormalStats(scores))
    ensures |scores| == 0 ==> StatsHelpers.GetNormalStats(scores).NoStats?
  {
  }

  /** The statistics of one staff report, in the order the report computes
      them. */
  datatype StaffStats = StaffStats(
    iqrAll: seq<StatsHelpers.Cell>,
    iqrNonzero: seq<StatsHelpers.Cell>,
    statsAll: StatsHelpers.NormalStats,
    statsNonzero: StatsHelpers.NormalStats)

  /** The IQR table, then the mean-and-variance table, of one grader's staff
      report: `iqr(all_scores)`, `iqr(nonzero_scores)`, then
      `get_normal_stats` of each; the first that raises stops the report.
      Since `iqr` already rejects every list shorter than four, the
      unguarded division of `get_normal_stats` is never reached with an
      empty list, and the report fails only with `IndexError`. */
  function LegacyStaffStats(graded: seq<Submission>): (r: Result<StaffStats>)
    ensures r.Err? <==> |graded| < 4 || |LegacyNonzeroScores(graded)| < 4
    ensures r.Err? ==> r.error == IndexError
  {
    var all := ScoreReporter.AllScores(graded);
    var nonzero := LegacyNonzeroScores(graded);
    UnclampedIqrFailsBelowFour(all);
    UnclampedIqrFailsBelowFour(nonzero);
    var iqrAll :- UnclampedIqr(all);
    var iqrNonzero :- UnclampedIqr(nonzero);
    // Both lists hold at least four scores here, so neither division raises.
    Ok(StaffStats(iqrAll, iqrNonzero, LegacyNormalStats(all).value, LegacyNormalStats(nonzero).value))
  }

  /** When the legacy report gets through its statistics, they are the
      clamped summaries and the guarded mean and variance of the same lists. */
  lemma LegacyStaffStatsAgree(graded: seq<Submission>)
    requires LegacyStaffStats(graded).Ok?
    ensures var r := LegacyStaffStats(graded).value;
      var all := ScoreReporter.AllScores(graded);
      var nonzero := LegacyNonzeroScores(graded);
      && r.iqrAll == StatsHelpers.Iqr(all)
      && r.iqrNonzero == StatsHelpers.Iqr(nonzero)
      && r.statsAll == StatsHelpers.GetNormalStats(all)
      && r.statsNonzero == StatsHelpers.GetNormalStats(nonzero)
  {
    var all := ScoreReporter.AllScores(graded);
    var nonzero := LegacyNonzeroScores(graded);
    UnclampedIqrFailsBelowFour(all);
    UnclampedIqrFailsBelowFour(nonzero);
    LegacyNormalStatsAgree(all);
    LegacyNormalStatsAgree(nonzero);
  }

  /** A grader whose every score is zero has no non-zero scores. The
      unguarded statistics of that empty list would raise
      `ZeroDivisionError`, but the report raises `IndexError` in `iqr`
      first; the guarded version reports blanks. */
  lemma AllZeroGraderRaises(graded: seq<Submission>)
    requires forall i :: 0 <= i < |graded| ==> graded[i].score == Some(0.0)
    ensures LegacyNonzeroScores(graded) == []
    ensures LegacyNormalStats(LegacyNonzeroScores(graded)) == Err(ZeroDivisionError)
    ensures LegacyStaffStats(graded) == Err(IndexError)
    ensures StatsHelpers.GetNormalStats(ScoreReporter.NonzeroScores(graded)).NoStats?
  {
    ZeroScoresNotScorable(graded);
    ScoreReporter.NonzeroScoresAreSelected(graded);
  }

  lemma {:induction false} ZeroScoresNotScorable(graded: seq<Submission>)
    requires forall i :: 0 <= i < |graded| ==> graded[i].score == Some(0.0)
    ensures LegacyNonzeroScores(graded) == []
    ensures Select(graded, ScoreReporter.Scorable) == []
    decreases |graded|
  {
    if |graded| > 0 {
      ZeroScoresNotScorable(graded[..|graded| - 1]);
    }
  }

  // ---------------------------------------------------------------------------
  // Non-zero scores as fractions

  /** `nonzero_scores` of this file: `score / points`, without the factor 100
      that `all_scores` carries. */
  function LegacyNonzeroScores(graded: seq<Submission>): (r: seq<real>)
    ensures |r| <= |graded|
    decreases |graded|
  {
    if |graded| == 0 then []
    else
      var s := graded[|graded| - 1];
      LegacyNonzeroScores(graded[..|graded| - 1])
      + (if ScoreReporter.Truthy(s.score) && ScoreReporter.Truthy(s.assignment.pointsPossible)
         then [s.score.value / s.assignment.pointsPossible.value] else [])
  }

  /** The older fractions are the newer percentages divided by 100, entry by
      entry, so the two reports' non-zero rows differ by that factor. */
  lemma {:induction false} LegacyNonzeroAreFractions(graded: seq<Submission>)
    ensures |LegacyNonzeroScores(graded)| == |ScoreReporter.NonzeroScores(graded)|
    ensures forall i :: 0 <= i < |LegacyNonzeroScores(graded)| ==>
      100.0 * LegacyNonzeroScores(graded)[i] == ScoreReporter.NonzeroScores(graded)[i]
    decreases |graded|
  {
    if |graded| > 0 {
      var pre := graded[..|graded| - 1];
      LegacyNonzeroAreFractions(pre);
      var s := graded[|graded| - 1];
      if ScoreReporter.Scorable(s) {
        var x, p := s.score.value, s.assignment.pointsPossible.value;
        assert 100.0 * (x / p) == 100.0 * x / p;
      }
    }
  }

  // ---------------------------------------------------------------------------
  // Renaming the corner cell

  type Table = seq<seq<string>>

  /** `stat_table[0][0] = ta["name"]`. */
  function RenameHeader(t: Table, name: string): (r: Table)
    requires |t| >= 1 && |t[0]| >= 1
    ensures |r| == |t| && |r[0]| == |t[0]| && r[0][0] == name
    ensures r[0][1..] == t[0][1..] && r[1..] == t[1..]
  {
    t[0 := t[0][0 := name]]
  }

  /** Renaming twice keeps only the second name. Each instructor's report
      renames every stored table again, always with the same TA's name, so
      the later reports print the tables exactly as the first one left
      them. */
  lemma RenameHeaderLastWins(t: Table, a: string, b: string)
    requires |t| >= 1 && |t[0]| >= 1
    ensures RenameHeader(RenameHeader(t, a), b) == RenameHeader(t, b)
    ensures RenameHeader(RenameHeader(t, a), a) == RenameHeader(t, a)
  {
    var ta := RenameHeader(t, a);
    assert ta[0][0 := b] == t[0][0 := b];
    assert ta[0][0 := a] == t[0][0 := a];
  }
}

=== FILE: score_reporter.dfy ===
/** The pure parts of `src/reports/reporters/score_reports.py`: grouping a
    grader's submissions by assignment, counting zeroes and perfects, the two
    normalised score lists and the transposition of per-grader tables into
    per-statistic tables. */
module ScoreReporter {

  import opened Wrappers
  import opened CanvasData
  import opened Collections

  // ---------------------------------------------------------------------------
  // Grouping by assignment

  function AssignmentKey(s: Submission): Option<int> {
    Some(s.assignment.id)
  }

  /** `graded_by_assignment`: the whole list under `None`, then one list per
      assignment id in order of first appearance. */
  function GradedByAssignment(graded: seq<Submission>): (g: seq<Entry<Option<int>, Submission>>)
    ensures |g| >= 1 && g[0] == Entry(None, graded)
  {
    [Entry(None, graded)] + GroupBy(graded, AssignmentKey)
  }

  /** The entry under `None` holds everything; the remaining entries carry
      distinct assignment ids, hold exactly that assignment's submissions in
      their original order, and together hold each submission once. */
  lemma GradedByAssignmentPartitions(graded: seq<Submission>)
    ensures var g := GradedByAssignment(graded);
      && g[0].items == graded
      && DistinctKeys(g)
      && (forall i :: 1 <= i < |g| ==>
            g[i].key.Some? && g[i].items == Select(graded, KeyIs(AssignmentKey, g[i].key)))
      && (forall id :: HasKey(g, Some(id)) <==> exists i :: 0 <= i < |graded| && graded[i].assignment.id == id)
      && TotalLen(g[1..]) == |graded|
  {
    var g := GradedByAssignment(graded);
    var rest := GroupBy(graded, AssignmentKey);
    GroupByPartitions(graded, AssignmentKey);
    assert g[1..] == rest;
    forall i | 1 <= i < |g|
      ensures g[i].key.Some? && g[i].items == Select(graded, KeyIs(AssignmentKey, g[i].key))
    {
      assert g[i] == rest[i - 1];
      assert HasKey(rest, rest[i - 1].key);
    }
    forall i, j | 0 <= i < j < |g| ensures g[i].key != g[j].key {
      if i > 0 {
        assert g[i] == rest[i - 1] && g[j] == rest[j - 1];
      }
    }
    GradedByAssignmentKeys(graded);
  }

  /** The assignment groups are keyed by exactly the graded assignments' ids. */
  lemma GradedByAssignmentKeys(graded: seq<Submission>)
    ensures var g := GradedByAssignment(graded);
      forall id :: HasKey(g, Some(id)) <==> exists i :: 0 <= i < |graded| && graded[i].assignment.id == id
  {
    var g := GradedByAssignment(graded);
    var rest := GroupBy(graded, AssignmentKey);
    GroupByPartitions(graded, AssignmentKey);
    assert g[1..] == rest;
    forall id | HasKey(g, Some(id)) ensures exists i :: 0 <= i < |graded| && graded[i].assignment.id == id {
      var j :| 0 <= j < |g| && g[j].key == Some(id);
      assert g[j] == rest[j - 1];
      assert HasKey(rest, Some(id));
      var i :| 0 <= i < |graded| && AssignmentKey(graded[i]) == Some(id);
    }
    forall id | exists i :: 0 <= i < |graded| && graded[i].assignment.id == id ensures HasKey(g, Some(id)) {
      var i :| 0 <= i < |graded| && graded[i].assignment.id == id;
      assert AssignmentKey(graded[i]) == Some(id);
      assert HasKey(rest, Some(id));
      var j :| 0 <= j < |rest| && rest[j].key == Some(id);
      assert g[j + 1].key == Some(id);
    }
  }

  // ---------------------------------------------------------------------------
  // Zeroes and perfects

  /** `sub["score"] == 0`: an absent score is not zero. */
  predicate IsZero(s: Submission) {
    s.score == Some(0.0)
  }

  /** `sub["score"] == sub["assignment"]["points_possible"]`: two absent
      values compare equal, so an unscored submission of an assignment without
      points counts as perfect. */
  predicate IsPerfect(s: Submission) {
    s.score == s.assignment.pointsPossible
  }

  datatype Extents = Extents(graded: nat, zeroes: nat, perfects: nat)

  /** The three counts of the extents table. */
  function CountExtents(graded: seq<Submission>): (e: Extents)
    ensures e.graded == |graded|
    ensures e.zeroes == |Select(graded, IsZero)| && e.perfects == |Select(graded, IsPerfect)|
    ensures e.zeroes <= e.graded && e.perfects <= e.graded
    ensures e.zeroes > 0 <==> exists i :: 0 <= i < |graded| && graded[i].score == Some(0.0)
    ensures e.perfects > 0 <==> exists i :: 0 <= i < |graded| && graded[i].score == graded[i].assignment.pointsPossible
  {
    CountPositive(graded, IsZero);
    CountPositive(graded, IsPerfect);
    Extents(|graded|, Count(graded, IsZero), Count(graded, IsPerfect))
  }

  /** When no assignment is worth zero points, no submission is both a zero
      and a perfect, so the two counts together stay within the graded count. */
  lemma ZeroesAndPerfectsDisjoint(graded: seq<Submission>)
    requires forall i :: 0 <= i < |graded| ==> graded[i].assignment.pointsPossible != Some(0.0)
    ensures var e := CountExtents(graded); e.zeroes + e.perfects <= e.graded
  {
    DisjointCounts(graded, IsZero, IsPerfect);
  }

  /** On an assignment worth zero points a zero is also a perfect. */
  lemma ZeroPointAssignmentCountsTwice(s: Submission)
    requires s.score == Some(0.0) && s.assignment.pointsPossible == Some(0.0)
    ensures CountExtents([s]) == Extents(1, 1, 1)
  {
    assert Select([s], IsZero) == Select([], IsZero) + [s];
    assert Select([s], IsPerfect) == Select([], IsPerfect) + [s];
  }

  // ---------------------------------------------------------------------------
  // Normalised scores

  /** Python truthiness of an optional number. */
  predicate Truthy(x: Option<real>) {
    x.Some? && x.value != 0.0
  }

  /** Both the score and the points possible are truthy. */
  predicate Scorable(s: Submission) {
    Truthy(s.score) && Truthy(s.assignment.pointsPossible)
  }

  /** One entry of `all_scores`: a percentage when both numbers are truthy,
      otherwise the raw score, or 0 for a missing score. */
  function NormScore(s: Submission): (x: real)
    ensures Scorable(s) ==> x * s.assignment.pointsPossible.value == 100.0 * s.score.value
    ensures !Scorable(s) && Truthy(s.score) ==> x == s.score.value
    ensures !Truthy(s.score) ==> x == 0.0
  {
    if Truthy(s.assignment.pointsPossible) && Truthy(s.score) then
      100.0 * s.score.value / s.assignment.pointsPossible.value
    else if Truthy(s.score) then s.score.value
    else 0.0
  }

  /** `all_scores`. */
  function AllScores(graded: seq<Submission>): (r: seq<real>)
    ensures |r| == |graded|
    ensures forall i :: 0 <= i < |graded| ==> r[i] == NormScore(graded[i])
    decreases |graded|
  {
    if |graded| == 0 then []
    else AllScores(graded[..|graded| - 1]) + [NormScore(graded[|graded| - 1])]
  }

  /** `nonzero_scores`: percentages of the scorable submissions only. */
  function NonzeroScores(graded: seq<Submission>): (r: seq<real>)
    ensures |r| <= |graded|
    ensures forall i :: 0 <= i < |r| ==> r[i] != 0.0
    decreases |graded|
  {
    if |graded| == 0 then []
    else
      var s := graded[|graded| - 1];
      NonzeroScores(graded[..|graded| - 1])
      + (if Truthy(s.score) && Truthy(s.assignment.pointsPossible)
         then [100.0 * s.score.value / s.assignment.pointsPossible.value] else [])
  }

  /** The non-zero list is `all_scores` of the scorable submissions: the
      entries of `all_scores` at exactly the positions both numbers are
      truthy, in order. */
  lemma {:induction false} NonzeroScoresAreSelected(graded: seq<Submission>)
    ensures NonzeroScores(graded) == AllScores(Select(graded, Scorable))
    decreases |graded|
  {
    if |graded| > 0 {
      var pre := graded[..|graded| - 1];
      var s := graded[|graded| - 1];
      NonzeroScoresAreSelected(pre);
      if Scorable(s) {
        var sel := Select(pre, Scorable) + [s];
        assert Select(graded, Scorable) == sel;
        assert sel[..|sel| - 1] == Select(pre, Scorable);
      } else {
        assert Select(graded, Scorable) == Select(pre, Scorable);
      }
    }
  }

  // ---------------------------------------------------------------------------
  // Transposing tables

  type Table = seq<seq<string>>

  /** The precondition `combine_tables` needs to run without an IndexError:
      a first table with a header row, no more names than tables, and every
      table used having each row of the first table, none of them empty. */
  predicate Combinable(tables: seq<Table>, names: seq<string>) {
    && |tables| >= 1 && |tables[0]| >= 1 && |names| <= |tables|
    && (forall j :: 1 <= j < |tables[0]| ==> |tables[0][j]| >= 1)
    && (forall t :: 0 <= t < |names| ==> |tables[t]| >= |tables[0]|)
    && (forall t, j :: 0 <= t < |names| && 1 <= j < |tables[0]| ==> |tables[t][j]| >= 1)
  }

  /** The output table for row `j`: the first table's header, then row `j` of
      each named table with its first cell replaced by the name. */
  function Column(tables: seq<Table>, names: seq<string>, j: nat): Table
    requires Combinable(tables, names) && 1 <= j < |tables[0]|
  {
    [tables[0][0]] + seq(|names|, t requires 0 <= t < |names| => tables[t][j][0 := names[t]])
  }

  /** Each output table is the first table's header followed by one row per
      name, in order; row `t + 1` is row `j` of table `t` with only its first
      cell replaced by the name. */
  lemma ColumnShape(tables: seq<Table>, names: seq<string>, j: nat)
    requires Combinable(tables, names) && 1 <= j < |tables[0]|
    ensures var c := Column(tables, names, j);
      && |c| == |names| + 1 && c[0] == tables[0][0]
      && forall t :: 0 <= t < |names| ==>
           && |c[t + 1]| == |tables[t][j]|
           && c[t + 1][0] == names[t]
           && c[t + 1][1..] == tables[t][j][1..]
  {
  }

  datatype Named = Named(name: string, table: Table)

  predicate HasName(d: seq<Named>, k: string) {
    exists i :: 0 <= i < |d| && d[i].name == k
  }

  predicate DistinctNames(d: seq<Named>) {
    forall i, j :: 0 <= i < j < |d| ==> d[i].name != d[j].name
  }

  /** The position of the entry named `k`. */
  function FindName(d: seq<Named>, k: string): (r: Option<nat>)
    ensures r.Some? ==> r.value < |d| && d[r.value].name == k
    ensures r.None? <==> !HasName(d, k)
    decreases |d|
  {
    if |d| == 0 then None
    else if d[|d| - 1].name == k then Some(|d| - 1)
    else
      var r := FindName(d[..|d| - 1], k);
      assert HasName(d, k) ==> HasName(d[..|d| - 1], k) by {
        if HasName(d, k) {
          var i :| 0 <= i < |d| && d[i].name == k;
          assert d[..|d| - 1][i].name == k;
        }
      }
      r
  }

  /** `d[k] = t` on an insertion-ordered dict: an existing entry is replaced
      in place, a new one goes at the end. */
  function Assign(d: seq<Named>, k: string, t: Table): (r: seq<Named>)
    requires DistinctNames(d)
    ensures DistinctNames(r)
    ensures forall n :: HasName(r, n) <==> HasName(d, n) || n == k
    ensures |r| == if HasName(d, k) then |d| else |d| + 1
    ensures forall i :: 0 <= i < |d| ==> r[i].name == d[i].name
    ensures forall i :: 0 <= i < |r| ==> (r[i].name == k ==> r[i].table == t)
    ensures forall i :: 0 <= i < |r| ==> (r[i].name != k ==> i < |d| && r[i] == d[i])
  {
    match FindName(d, k)
    case Some(i) =>
      var r := d[i := Named(k, t)];
      assert forall n :: HasName(r, n) ==> HasName(d, n) by {
        forall n | HasName(r, n) ensures HasName(d, n) {
          var j :| 0 <= j < |r| && r[j].name == n;
          assert d[j].name == n;
        }
      }
      assert forall n :: HasName(d, n) ==> HasName(r, n) by {
        forall n | HasName(d, n) ensures HasName(r, n) {
          var j :| 0 <= j < |d| && d[j].name == n;
          assert r[j].name == n;
        }
      }
      r
    case None =>
      var r := d + [Named(k, t)];
      assert r[|d|].name == k;
      assert forall n :: HasName(r, n) ==> HasName(d, n) || n == k by {
        forall n | HasName(r, n) && n != k ensures HasName(d, n) {
          var j :| 0 <= j < |r| && r[j].name == n;
          assert d[j].name == n;
        }
      }
      assert forall n :: HasName(d, n) ==> HasName(r, n) by {
        forall n | HasName(d, n) ensures HasName(r, n) {
          var j :| 0 <= j < |d| && d[j].name == n;
          assert r[j].name == n;
        }
      }
      r
  }

  /** The last data row, among rows `1..upto`, whose first cell is `k`. */
  function LastRow(t0: Table, k: string, upto: nat): (j: Option<nat>)
    requires upto <= |t0| && forall j :: 1 <= j < |t0| ==> |t0[j]| >= 1
    ensures j.Some? ==> 1 <= j.value < upto && t0[j.value][0] == k
    ensures j.Some? ==> forall l :: j.value < l < upto ==> t0[l][0] != k
    ensures j.None? <==> forall l :: 1 <= l < upto ==> t0[l][0] != k
  {
    if upto <= 1 then None
    else if t0[upto - 1][0] == k then Some(upto - 1)
    else LastRow(t0, k, upto - 1)
  }

  /** Row `j` is the last row named by its own first cell among `1..j+1`;
      for every other name the last row is unchanged. */
  lemma LastRowStep(t0: Table, j: nat)
    requires 1 <= j < |t0| && forall l :: 1 <= l < |t0| ==> |t0[l]| >= 1
    ensures LastRow(t0, t0[j][0], j + 1) == Some(j)
    ensures forall n :: n != t0[j][0] ==> LastRow(t0, n, j + 1) == LastRow(t0, n, j)
  {
  }

  /** `d` holds, under each name that rows `1..upto` of the first table
      carry, the column of the last such row, and nothing else. */
  ghost predicate LastWins(tables: seq<Table>, names: seq<string>, d: seq<Named>, upto: nat)
    requires Combinable(tables, names) && upto <= |tables[0]|
  {
    && DistinctNames(d)
    && (forall k :: HasName(d, k) <==> LastRow(tables[0], k, upto).Some?)
    && (forall i :: 0 <= i < |d| ==>
          && LastRow(tables[0], d[i].name, upto).Some?
          && d[i].table == Column(tables, names, LastRow(tables[0], d[i].name, upto).value))
  }

  /** One turn of the loop: assigning row `j`'s column under its name. */
  lemma AssignStep(tables: seq<Table>, names: seq<string>, d: seq<Named>, upto: nat)
    requires Combinable(tables, names) && 2 <= upto <= |tables[0]|
    requires LastWins(tables, names, d, upto - 1)
    ensures LastWins(tables, names, Assign(d, tables[0][upto - 1][0], Column(tables, names, upto - 1)), upto)
  {
    var j := upto - 1;
    var k := tables[0][j][0];
    var c := Column(tables, names, j);
    var r := Assign(d, k, c);
    LastRowStep(tables[0], j);
    forall n ensures HasName(r, n) <==> LastRow(tables[0], n, j + 1).Some? {
      assert HasName(d, n) <==> LastRow(tables[0], n, j).Some?;
    }
    forall i | 0 <= i < |r|
      ensures LastRow(tables[0], r[i].name, j + 1).Some?
      ensures r[i].table == Column(tables, names, LastRow(tables[0], r[i].name, j + 1).value)
    {
      AssignStepAt(tables, names, d, upto, i);
    }
  }

  /** The entry at position `i` after one turn of the loop. */
  lemma AssignStepAt(tables: seq<Table>, names: seq<string>, d: seq<Named>, upto: nat, i: nat)
    requires Combinable(tables, names) && 2 <= upto <= |tables[0]|
    requires LastWins(tables, names, d, upto - 1)
    requires i < |Assign(d, tables[0][upto - 1][0], Column(tables, names, upto - 1))|
    ensures var r := Assign(d, tables[0][upto - 1][0], Column(tables, names, upto - 1));
      && LastRow(tables[0], r[i].name, upto).Some?
      && r[i].table == Column(tables, names, LastRow(tables[0], r[i].name, upto).value)
  {
    var j := upto - 1;
    var k := tables[0][j][0];
    var r := Assign(d, k, Column(tables, names, j));
    LastRowStep(tables[0], j);
    if r[i].name != k {
      assert r[i] == d[i];
      assert LastRow(tables[0], r[i].name, j + 1) == LastRow(tables[0], d[i].name, j);
    }
  }

  /** The dict after the loop has handled rows `1..upto` of the first table. */
  function CombineUpTo(tables: seq<Table>, names: seq<string>, upto: nat): (r: seq<Named>)
    requires Combinable(tables, names) && 1 <= upto <= |tables[0]|
    ensures LastWins(tables, names, r, upto)
    decreases upto
  {
    if upto == 1 then []
    else
      var d := CombineUpTo(tables, names, upto - 1);
      AssignStep(tables, names, d, upto);
      Assign(d, tables[0][upto - 1][0], Column(tables, names, upto - 1))
  }

  /** `combine_tables`: one table per data row of the first table, keyed by
      that row's first cell. A name that several rows share keeps the table
      of the last of them. */
  function CombineTables(tables: seq<Table>, names: seq<string>): (r: seq<Named>)
    requires Combinable(tables, names)
    ensures DistinctNames(r)
    ensures forall k :: HasName(r, k) <==> exists j :: 1 <= j < |tables[0]| && tables[0][j][0] == k
    ensures forall i :: 0 <= i < |r| ==>
      && LastRow(tables[0], r[i].name, |tables[0]|).Some?
      && r[i].table == Column(tables, names, LastRow(tables[0], r[i].name, |tables[0]|).value)
  {
    var r := CombineUpTo(tables, names, |tables[0]|);
    assert LastWins(tables, names, r, |tables[0]|);
    forall k | exists j :: 1 <= j < |tables[0]| && tables[0][j][0] == k ensures HasName(r, k) {
      var j :| 1 <= j < |tables[0]| && tables[0][j][0] == k;
      assert LastRow(tables[0], k, |tables[0]|).Some?;
    }
    r
  }
}

=== FILE: sorting.dfy ===
/** Python's `sorted(xs, key=...)`: a stable sort under a total preorder,
    written as an insertion sort. */
module Sorting {

  ghost predicate TotalPreorder<T(!new)>(le: (T, T) -> bool) {
    && (forall a, b :: le(a, b) || le(b, a))
    && (forall a, b, c :: le(a, b) && le(b, c) ==> le(a, c))
  }

  ghost predicate Antisymmetric<T(!new)>(le: (T, T) -> bool) {
    forall a, b :: le(a, b) && le(b, a) ==> a == b
  }

  ghost predicate Sorted<T>(s: seq<T>, le: (T, T) -> bool) {
    forall i, j :: 0 <= i < j < |s| ==> le(s[i], s[j])
  }

  /** Inserts `x` into `s` after the leading elements not above it, which
      keeps equal elements in arrival order. */
  function Insert<T(!new)>(x: T, s: seq<T>, le: (T, T) -> bool): (r: seq<T>)
    ensures |r| == |s| + 1
    ensures multiset(r) == multiset(s) + multiset{x}
    decreases |s|
  {
    if |s| == 0 then [x]
    else if !le(s[0], x) then [x] + s
    else
      assert s == [s[0]] + s[1..];
      [s[0]] + Insert(x, s[1..], le)
  }

  /** Inserting into a sorted sequence keeps it sorted. */
  lemma {:induction false} InsertSorted<T(!new)>(x: T, s: seq<T>, le: (T, T) -> bool)
    requires TotalPreorder(le) && Sorted(s, le)
    ensures Sorted(Insert(x, s, le), le)
    decreases |s|
  {
    if |s| > 0 && le(s[0], x) {
      var tail := s[1..];
      InsertSorted(x, tail, le);
      var t := Insert(x, tail, le);
      forall k | 0 <= k < |t| ensures le(s[0], t[k]) {
        assert t[k] in multiset(t);
        if t[k] != x {
          assert t[k] in multiset(tail);
          var j :| 0 <= j < |tail| && tail[j] == t[k];
          assert s[j + 1] == tail[j];
        }
      }
    }
  }

  /** `sorted(s)` under `le`. */
  function Sort<T(!new)>(s: seq<T>, le: (T, T) -> bool): (r: seq<T>)
    requires TotalPreorder(le)
    ensures multiset(r) == multiset(s)
    ensures |r| == |s|
    ensures Sorted(r, le)
    decreases |s|
  {
    if |s| == 0 then []
    else
      assert s == s[..|s| - 1] + [s[|s| - 1]];
      InsertSorted(s[|s| - 1], Sort(s[..|s| - 1], le), le);
      Insert(s[|s| - 1], Sort(s[..|s| - 1], le), le)
  }

  /** Under a total order there is only one sorted arrangement of a multiset. */
  lemma {:induction false} SortedUnique<T(!new)>(a: seq<T>, b: seq<T>, le: (T, T) -> bool)
    requires TotalPreorder(le) && Antisymmetric(le)
    requires Sorted(a, le) && Sorted(b, le)
    requires multiset(a) == multiset(b)
    ensures a == b
    decreases |a|
  {
    assert |b| == |a| by { assert |multiset(a)| == |multiset(b)|; }
    if |a| > 0 {
      HeadIsLeast(a, b[0], le);
      HeadIsLeast(b, a[0], le);
      assert a[0] == b[0];
      TailMultiset(a);
      TailMultiset(b);
      SortedUnique(a[1..], b[1..], le);
      assert a == [a[0]] + a[1..];
      assert b == [b[0]] + b[1..];
    }
  }

  /** The head of a sorted sequence is below every element of it. */
  lemma HeadIsLeast<T>(a: seq<T>, x: T, le: (T, T) -> bool)
    requires Sorted(a, le) && |a| > 0 && x in multiset(a)
    requires forall y :: le(y, y)
    ensures le(a[0], x)
  {
    var i :| 0 <= i < |a| && a[i] == x;
    if i > 0 {
      assert le(a[0], a[i]);
    }
  }

  lemma TailMultiset<T>(a: seq<T>)
    requires |a| > 0
    ensures multiset(a[1..]) == multiset(a) - multiset{a[0]}
  {
    assert a == [a[0]] + a[1..];
  }
}

=== FILE: stats_helpers.dfy ===
/** `src/reports/stats_helpers.py`: the five-number summary, population mean
    and variance, and the trailing-zero trim used on every printed figure.
    Scores are exact reals; `"%.2f"` formatting and `math.sqrt` are not part of
    this model, so the cells hold numbers and the standard deviation is
    omitted. */
module StatsHelpers {

  import Text
  import Sorting

  // ---------------------------------------------------------------------------
  // The trailing-zero trim

  /** `f`: `rstrip("0")` then `rstrip(".")` of an already formatted number. */
  function F(s: string): (r: string)
    ensures |r| <= |s| && r == s[..|r|]
  {
    Text.RStrip(Text.RStrip(s, '0'), '.')
  }

  /** On `"%.2f"` output (`whole` digits, a point, two decimals) `f` drops
      trailing zero decimals and then a bare point, and never touches the
      integer part: "3.50" gives "3.5", "3.00" gives "3", "10.00" gives "10". */
  lemma FFixedTwo(whole: string, a: char, b: char)
    requires |whole| > 0 && whole[|whole| - 1] != '.'
    requires Text.IsDigit(a) && Text.IsDigit(b)
    ensures F(whole + "." + [a, b]) ==
      if b != '0' then whole + "." + [a, b]
      else if a != '0' then whole + "." + [a]
      else whole
  {
    var s := whole + "." + [a, b];
    var s1 := whole + "." + [a];
    var s2 := whole + ".";
    assert s[..|s| - 1] == s1;
    assert s1[..|s1| - 1] == s2;
    assert s2[..|s2| - 1] == whole;
    if b != '0' {
      assert Text.RStrip(s, '0') == s;
      assert Text.RStrip(s, '.') == s;
    } else if a != '0' {
      assert Text.RStrip(s, '0') == Text.RStrip(s1, '0') == s1;
      assert Text.RStrip(s1, '.') == s1;
    } else {
      assert Text.RStrip(s, '0') == Text.RStrip(s1, '0') == Text.RStrip(s2, '0') == s2;
      assert Text.RStrip(s2, '.') == Text.RStrip(whole, '.') == whole;
    }
  }

  lemma FExamples()
    ensures F("3.50") == "3.5" && F("3.00") == "3" && F("10.00") == "10" && F("2.25") == "2.25"
  {
    assert "3.50" == "3" + "." + ['5', '0'] && "3.5" == "3" + "." + ['5'];
    FFixedTwo("3", '5', '0');
    assert "3.00" == "3" + "." + ['0', '0'];
    FFixedTwo("3", '0', '0');
    assert "10.00" == "10" + "." + ['0', '0'];
    FFixedTwo("10", '0', '0');
    assert "2.25" == "2" + "." + ['2', '5'];
    FFixedTwo("2", '2', '5');
  }

  /** A whole number printed with two zero decimals comes back as `str(n)`:
      the grading report's percentages read "57%", not "57.00%". */
  lemma FWholeNumber(n: int)
    ensures F(Text.IntText(n) + ".00") == Text.IntText(n)
  {
    var w := Text.IntText(n);
    assert w[|w| - 1] != '.' by {
      if n >= 0 {
        assert Text.IsDigit(w[|w| - 1]);
      } else {
        assert w == "-" + Text.NatText(-n);
        assert Text.IsDigit(Text.NatText(-n)[|Text.NatText(-n)| - 1]);
      }
    }
    assert w + ".00" == w + "." + ['0', '0'];
    FFixedTwo(w, '0', '0');
  }

  // ---------------------------------------------------------------------------
  // The five-number summary

  /** A printed cell: empty, or a number. */
  datatype Cell = Blank | Num(x: real)

  predicate RealLe(a: real, b: real) {
    a <= b
  }

  lemma RealLeTotalOrder()
    ensures Sorting.TotalPreorder(RealLe) && Sorting.Antisymmetric(RealLe)
  {
  }

  /** `sorted(scores)`. */
  function SortScores(scores: seq<real>): (s: seq<real>)
    ensures multiset(s) == multiset(scores) && |s| == |scores|
    ensures forall i, j :: 0 <= i < j < |s| ==> s[i] <= s[j]
  {
    RealLeTotalOrder();
    var s := Sorting.Sort(scores, RealLe);
    assert forall i, j :: 0 <= i < j < |s| ==> RealLe(s[i], s[j]);
    s
  }

  lemma SortedExtremes(scores: seq<real>, s: seq<real>)
    requires multiset(s) == multiset(scores) && |s| == |scores| > 0
    requires forall i, j :: 0 <= i < j < |s| ==> s[i] <= s[j]
    ensures forall k :: 0 <= k < |scores| ==> s[0] <= scores[k] <= s[|s| - 1]
    ensures forall i :: 0 <= i < |s| ==> s[i] in multiset(scores)
  {
    forall k | 0 <= k < |scores| ensures s[0] <= scores[k] <= s[|s| - 1] {
      assert scores[k] in multiset(s);
    }
    forall i | 0 <= i < |s| ensures s[i] in multiset(scores) {
      assert s[i] in multiset(s);
    }
  }

  /** `n * k` for `k` in 1..3, written as a sum so that it stays linear. */
  function Scaled(n: nat, k: nat): nat
    requires 1 <= k <= 3
  {
    if k == 1 then n else if k == 2 then n + n else n + n + n
  }

  /** `math.ceil(n * k / 4)` for a whole `n >= 0` and `k` in 1..3. */
  function CeilQuarter(n: nat, k: nat): nat
    requires 1 <= k <= 3
  {
    (Scaled(n, k) + 3) / 4
  }

  /** `CeilQuarter` is the ceiling: the least `c` with `4 c >= n k`. */
  lemma CeilQuarterIsCeiling(n: nat, k: nat)
    requires 1 <= k <= 3
    ensures 4 * CeilQuarter(n, k) >= n * k
    ensures 4 * (CeilQuarter(n, k) - 1) < n * k
  {
    assert Scaled(n, k) == n * k;
  }

  /** `min(n - 1, math.ceil(n * k / 4))`: the clamped quartile index. */
  function QuartileIndex(n: nat, k: nat): (i: nat)
    requires n >= 1 && 1 <= k <= 3
    ensures i < n
    ensures i == n - 1 || i == CeilQuarter(n, k)
    ensures i <= CeilQuarter(n, k)
  {
    var c := CeilQuarter(n, k);
    if n - 1 < c then n - 1 else c
  }

  /** Later quartiles never sit at earlier indices. */
  lemma QuartileIndexMonotone(n: nat, j: nat, k: nat)
    requires n >= 1 && 1 <= j <= k <= 3
    ensures QuartileIndex(n, j) <= QuartileIndex(n, k)
  {
  }

  /** `iqr`: five blanks for no scores, otherwise the minimum, the three
      clamped quartiles and the maximum of the sorted scores. */
  function Iqr(scores: seq<real>): (r: seq<Cell>)
    ensures |r| == 5
    ensures |scores| == 0 <==> r == [Blank, Blank, Blank, Blank, Blank]
    ensures |scores| > 0 ==> r[0].Num? && r[1].Num? && r[2].Num? && r[3].Num? && r[4].Num?
    ensures |scores| > 0 ==>
              var s := SortScores(scores);
              var n := |s|;
              && r[0].x == s[0]
              && r[1].x == s[QuartileIndex(n, 1)]
              && r[2].x == s[QuartileIndex(n, 2)]
              && r[3].x == s[QuartileIndex(n, 3)]
              && r[4].x == s[n - 1]
  {
    if |scores| == 0 then [Blank, Blank, Blank, Blank, Blank]
    else
      var s := SortScores(scores);
      var n := |s|;
      QuartileIndexMonotone(n, 1, 2);
      QuartileIndexMonotone(n, 2, 3);
      Picks(s, QuartileIndex(n, 1), QuartileIndex(n, 2), QuartileIndex(n, 3))
  }

  /** The five numbers of a non-empty summary are scores, ascending, and the
      first and last bound every score. */
  lemma IqrSummary(scores: seq<real>)
    requires |scores| > 0
    ensures var r := Iqr(scores);
      && r[0].x in multiset(scores) && r[1].x in multiset(scores) && r[2].x in multiset(scores)
      && r[3].x in multiset(scores) && r[4].x in multiset(scores)
      && r[0].x <= r[1].x <= r[2].x <= r[3].x <= r[4].x
      && forall k :: 0 <= k < |scores| ==> r[0].x <= scores[k] <= r[4].x
  {
    var s := SortScores(scores);
    var n := |s|;
    var r := Iqr(scores);
    var lo, hi := s[0], s[n - 1];
    assert r[0].x == lo && r[4].x == hi;
    QuartileIndexMonotone(n, 1, 2);
    QuartileIndexMonotone(n, 2, 3);
    SortedPicks(scores, s, QuartileIndex(n, 1), QuartileIndex(n, 2), QuartileIndex(n, 3));
    forall k | 0 <= k < |scores| ensures lo <= scores[k] <= hi {
    }
  }

  /** Entries of a sorted copy at ascending indices ascend, are scores, and
      lie between its first and last entries, which bound every score. */
  lemma SortedPicks(scores: seq<real>, s: seq<real>, i: nat, j: nat, k: nat)
    requires multiset(s) == multiset(scores) && |s| == |scores| > 0
    requires forall a, b :: 0 <= a < b < |s| ==> s[a] <= s[b]
    requires i <= j <= k < |s|
    ensures s[0] <= s[i] <= s[j] <= s[k] <= s[|s| - 1]
    ensures s[0] in multiset(scores) && s[i] in multiset(scores) && s[j] in multiset(scores)
      && s[k] in multiset(scores) && s[|s| - 1] in multiset(scores)
    ensures forall m :: 0 <= m < |scores| ==> s[0] <= scores[m] <= s[|s| - 1]
  {
    SortedExtremes(scores, s);
  }

  /** The minimum, the cells at three ascending indices and the maximum. */
  function Picks(s: seq<real>, i: nat, j: nat, k: nat): (r: seq<Cell>)
    requires i <= j <= k < |s|
    requires forall a, b :: 0 <= a < b < |s| ==> s[a] <= s[b]
    ensures |r| == 5 && r[0].Num? && r[1].Num? && r[2].Num? && r[3].Num? && r[4].Num?
    ensures r[0].x == s[0] && r[1].x == s[i] && r[2].x == s[j] && r[3].x == s[k] && r[4].x == s[|s| - 1]
    ensures r[0].x <= r[1].x <= r[2].x <= r[3].x <= r[4].x
  {
    assert s[0] <= s[i] <= s[j] <= s[k] <= s[|s| - 1];
    [Num(s[0]), Num(s[i]), Num(s[j]), Num(s[k]), Num(s[|s| - 1])]
  }

  /** The summary depends on the scores only as a multiset: reordering the
      input changes nothing. */
  lemma IqrPermutationInvariant(a: seq<real>, b: seq<real>)
    requires multiset(a) == multiset(b)
    ensures Iqr(a) == Iqr(b)
  {
    assert |a| == |multiset(a)| == |multiset(b)| == |b|;
    if |a| > 0 {
      RealLeTotalOrder();
      var sa := SortScores(a);
      var sb := SortScores(b);
      assert Sorting.Sorted(sa, RealLe);
      assert Sorting.Sorted(sb, RealLe);
      Sorting.SortedUnique(sa, sb, RealLe);
    }
  }

  // ---------------------------------------------------------------------------
  // Mean and variance

  function Sum(xs: seq<real>): real
    decreases |xs|
  {
    if |xs| == 0 then 0.0 else Sum(xs[..|xs| - 1]) + xs[|xs| - 1]
  }

  /** `sum((x - m) ** 2 for x in xs)`. */
  function SumSquaredDeviations(xs: seq<real>, m: real): (r: real)
    ensures r >= 0.0
    decreases |xs|
  {
    if |xs| == 0 then 0.0
    else
      var d := xs[|xs| - 1] - m;
      SumSquaredDeviations(xs[..|xs| - 1], m) + d * d
  }

  datatype NormalStats = NoStats | Stats(mean: real, variance: real)

  /** `get_normal_stats`: nothing for no scores, otherwise the mean and the
      population variance (divided by `n`, not `n - 1`). */
  function GetNormalStats(scores: seq<real>): (r: NormalStats)
    ensures r.NoStats? <==> |scores| == 0
    ensures r.Stats? ==> r.mean * (|scores| as real) == Sum(scores)
    ensures r.Stats? ==> r.variance >= 0.0
    ensures r.Stats? ==> r.variance * (|scores| as real) == SumSquaredDeviations(scores, r.mean)
  {
    if |scores| == 0 then NoStats
    else
      var n := |scores| as real;
      var mean := Sum(scores) / n;
      Stats(mean, SumSquaredDeviations(scores, mean) / n)
  }

  lemma {:induction false} SumConstant(xs: seq<real>, c: real)
    requires forall i :: 0 <= i < |xs| ==> xs[i] == c
    ensures Sum(xs) == (|xs| as real) * c
    decreases |xs|
  {
    if |xs| > 0 {
      SumConstant(xs[..|xs| - 1], c);
    }
  }

  lemma {:induction false} DeviationsFromConstant(xs: seq<real>, c: real)
    requires forall i :: 0 <= i < |xs| ==> xs[i] == c
    ensures SumSquaredDeviations(xs, c) == 0.0
    decreases |xs|
  {
    if |xs| > 0 {
      DeviationsFromConstant(xs[..|xs| - 1], c);
    }
  }

  /** Identical scores have their common value as mean and no variance. */
  lemma VarianceOfConstant(scores: seq<real>, c: real)
    requires |scores| > 0
    requires forall i :: 0 <= i < |scores| ==> scores[i] == c
    ensures GetNormalStats(scores) == Stats(c, 0.0)
  {
    SumConstant(scores, c);
    DeviationsFromConstant(scores, c);
  }
}

=== FILE: text.dfy ===
/** The few Python string operations the model relies on: `str(int)`,
    ASCII `lower()` and `title()`, `rstrip(c)` and code-point string ordering. */
module Text {

  predicate IsDigit(c: char) {
    '0' <= c <= '9'
  }

  predicate AllDigits(s: string) {
    forall i :: 0 <= i < |s| ==> IsDigit(s[i])
  }

  function DigitChar(d: nat): (c: char)
    requires d < 10
    ensures IsDigit(c)
    ensures (c as int) - ('0' as int) == d
  {
    "0123456789"[d]
  }

  function DigitValue(c: char): nat
    requires IsDigit(c)
  {
    (c as int) - ('0' as int)
  }

  /** Python's `str(n)` for a non-negative integer: decimal, no leading zeros. */
  function NatText(n: nat): (s: string)
    ensures 1 <= |s|
    ensures AllDigits(s)
    ensures |s| > 1 ==> s[0] != '0'
    decreases n
  {
    if n < 10 then [DigitChar(n)] else NatText(n / 10) + [DigitChar(n % 10)]
  }

  /** Python's `str(n)` for any integer. */
  function IntText(n: int): (s: string)
    ensures 1 <= |s|
    ensures n >= 0 ==> AllDigits(s)
    ensures n < 0 <==> s[0] == '-'
  {
    if n < 0 then "-" + NatText(-n) else NatText(n)
  }

  /** Reads a string of decimal digits back as a number (`int(s)`). */
  function ParseNat(s: string): nat
    requires AllDigits(s)
    decreases |s|
  {
    if |s| == 0 then 0 else 10 * ParseNat(s[..|s| - 1]) + DigitValue(s[|s| - 1])
  }

  /** `int(str(n)) == n`: the decimal rendering loses nothing. */
  lemma {:induction false} ParseNatText(n: nat)
    ensures ParseNat(NatText(n)) == n
    decreases n
  {
    var s := NatText(n);
    if n >= 10 {
      ParseNatText(n / 10);
      assert s[..|s| - 1] == NatText(n / 10);
    }
  }

  /** The leading digit of `str(n)` for a non-negative `n`. */
  function LeadingDigit(n: nat): (d: nat)
    ensures d < 10
    ensures NatText(n)[0] == DigitChar(d)
    decreases n
  {
    if n < 10 then n else LeadingDigit(n / 10)
  }

  /** Every number from 200 to 299 is written starting with '2'. */
  lemma TwoHundredsStartWithTwo(n: int)
    requires 200 <= n < 300
    ensures IntText(n)[0] == '2'
  {
    assert LeadingDigit(n) == LeadingDigit(n / 10) == LeadingDigit(n / 100);
  }

  function LowerChar(c: char): (d: char)
    ensures 'A' <= c <= 'Z' ==> 'a' <= d <= 'z'
    ensures !('A' <= c <= 'Z') ==> d == c
  {
    if 'A' <= c <= 'Z' then (c as int + 32) as char else c
  }

  function UpperChar(c: char): (d: char)
    ensures 'a' <= c <= 'z' ==> 'A' <= d <= 'Z'
    ensures !('a' <= c <= 'z') ==> d == c
  {
    if 'a' <= c <= 'z' then (c as int - 32) as char else c
  }

  predicate IsCased(c: char) {
    'a' <= c <= 'z' || 'A' <= c <= 'Z'
  }

  /** `s.lower()` on ASCII letters: no capital is left, each capital becomes
      its small letter, and every other character is kept. */
  function Lower(s: string): (r: string)
    ensures |r| == |s|
    ensures forall i :: 0 <= i < |r| ==> !('A' <= r[i] <= 'Z')
    ensures forall i :: 0 <= i < |s| && 'A' <= s[i] <= 'Z' ==> r[i] as int == s[i] as int + 32
    ensures forall i :: 0 <= i < |s| && !('A' <= s[i] <= 'Z') ==> r[i] == s[i]
  {
    seq(|s|, i requires 0 <= i < |s| => LowerChar(s[i]))
  }

  /** Lower-casing twice is lower-casing once. */
  lemma LowerIdempotent(s: string)
    ensures Lower(Lower(s)) == Lower(s)
  {
  }

  /** How `title()` writes one character, given whether a letter precedes it. */
  function TitleChar(c: char, afterLetter: bool): char {
    if !IsCased(c) then c else if afterLetter then LowerChar(c) else UpperChar(c)
  }

  /** `s.title()` on ASCII letters: a letter is upper-cased when the character
      before it is not a letter (or it comes first), lower-cased otherwise;
      other characters are kept. */
  function Title(s: string): (r: string)
    ensures |r| == |s|
    ensures forall i :: 0 <= i < |s| ==> r[i] == TitleChar(s[i], i > 0 && IsCased(s[i - 1]))
  {
    TitleFrom(s, false)
  }

  function TitleFrom(s: string, afterLetter: bool): (r: string)
    ensures |r| == |s|
    ensures forall i :: 0 <= i < |s| ==> r[i] == TitleChar(s[i], if i == 0 then afterLetter else IsCased(s[i - 1]))
    decreases |s|
  {
    if |s| == 0 then ""
    else
      var rest := TitleFrom(s[1..], IsCased(s[0]));
      assert forall i :: 1 <= i < |s| ==> s[1..][i - 1] == s[i];
      [TitleChar(s[0], afterLetter)] + rest
  }

  /** `s.rstrip(c)`: drops every trailing `c`. */
  function RStrip(s: string, c: char): (r: string)
    ensures |r| <= |s|
    ensures r == s[..|r|]
    ensures |r| > 0 ==> r[|r| - 1] != c
    ensures forall i :: |r| <= i < |s| ==> s[i] == c
    decreases |s|
  {
    if |s| > 0 && s[|s| - 1] == c then RStrip(s[..|s| - 1], c) else s
  }

  predicate StartsWith(s: string, prefix: string) {
    |prefix| <= |s| && s[..|prefix|] == prefix
  }

  /** Python's `a <= b` on strings: lexicographic by code point. */
  predicate StrLe(a: string, b: string)
    decreases |a|
  {
    if |a| == 0 then true
    else if |b| == 0 then false
    else if a[0] != b[0] then a[0] < b[0]
    else StrLe(a[1..], b[1..])
  }

  lemma {:induction false} StrLeReflexive(a: string)
    ensures StrLe(a, a)
    decreases |a|
  {
    if |a| > 0 {
      StrLeReflexive(a[1..]);
    }
  }

  lemma {:induction false} StrLeTotal(a: string, b: string)
    ensures StrLe(a, b) || StrLe(b, a)
    decreases |a|
  {
    if |a| > 0 && |b| > 0 && a[0] == b[0] {
      StrLeTotal(a[1..], b[1..]);
    }
  }

  lemma {:induction false} StrLeTransitive(a: string, b: string, c: string)
    requires StrLe(a, b) && StrLe(b, c)
    ensures StrLe(a, c)
    decreases |a|
  {
    if |a| > 0 && |b| > 0 && |c| > 0 && a[0] == b[0] && b[0] == c[0] {
      StrLeTransitive(a[1..], b[1..], c[1..]);
    }
  }

  lemma {:induction false} StrLeAntisymmetric(a: string, b: string)
    requires StrLe(a, b) && StrLe(b, a)
    ensures a == b
    decreases |a|
  {
    if |a| > 0 && |b| > 0 {
      StrLeAntisymmetric(a[1..], b[1..]);
      assert a == [a[0]] + a[1..];
      assert b == [b[0]] + b[1..];
    }
  }
}

=== FILE: ungraded_reports.dfy ===
/** `src/reports/ungraded_reports.py`: the older ungraded report, with its own
    copies of the classifier and pile builder, the per-status summary table and
    the list of links ordered by age. */
module UngradedReports {

  import opened Wrappers
  import opened CanvasData
  import opened Collections
  import opened CourseHelpers
  import Text
  import Sorting

  // ---------------------------------------------------------------------------
  // The strict availability check

  /** `availability[key] and past_date(availability[key])`: an absent key
      raises `KeyError`; `None` is falsy. */
  function StrictPassed(f: Field, key: string, now: int): (r: Result<bool>)
    ensures r.Err? <==> f.Missing?
    ensures r.Err? ==> r.error == KeyError(key)
    ensures r.Ok? ==> r.value == Passed(f, now)
  {
    match f
    case Missing => Err(KeyError(key))
    case Null => Ok(false)
    case At(t) => Ok(t < now)
  }

  /** This file's `check_availability`: the same precedence as the lenient
      version, but each key is read with `[]`, in order, and only until the
      answer is known. */
  function StrictCheckAvailability(w: Window, now: int): (r: Result<Availability>)
    ensures r.Ok? ==> r.value == CheckAvailability(w, now)
    ensures r.Err? <==>
      || w.lockAt.Missing?
      || (!Passed(w.lockAt, now) && w.dueAt.Missing?)
      || (!Passed(w.lockAt, now) && !Passed(w.dueAt, now) && w.unlockAt.Missing?)
  {
    var locked :- StrictPassed(w.lockAt, "lock_at", now);
    if locked then Ok(Locked)
    else
      var due :- StrictPassed(w.dueAt, "due_at", now);
      if due then Ok(PastDue)
      else
        var unlocked :- StrictPassed(w.unlockAt, "unlock_at", now);
        if unlocked then Ok(Open) else Ok(Future)
  }

  /** With every key present the strict check agrees with the lenient one. */
  lemma StrictAgreesWhenComplete(w: Window, now: int)
    requires !w.lockAt.Missing? && !w.dueAt.Missing? && !w.unlockAt.Missing?
    ensures StrictCheckAvailability(w, now) == Ok(CheckAvailability(w, now))
  {
  }

  /** This file's `classify_availability`: the same override resolution, then
      the strict check. */
  function LegacyClassifyAvailability(s: Submission, groups: map<int, set<int>>, now: int): Result<Availability> {
    StrictCheckAvailability(ResolveWindow(s.assignment, s.user, groups), now)
  }

  /** This file's `classify_submission`: the same decision tree, except that
      reading the availability can raise. */
  function LegacyClassify(s: Submission, groups: map<int, set<int>>, now: int): (r: Result<GradingStatus>)
    ensures r.Ok? ==> r.value == ClassifySubmission(s, groups, now)
    ensures r.Err? <==> s.workflowState != "graded" && !s.late
                        && LegacyClassifyAvailability(s, groups, now).Err?
  {
    if s.workflowState == "graded" then Ok(Graded)
    else
      var attempted := Attempted(s);
      if s.late then
        if attempted then Ok(ResubmittedLate) else Ok(NotYetGradedLate)
      else if s.missing || s.submittedAt.None? then
        var availability :- LegacyClassifyAvailability(s, groups, now);
        Ok(UnsubmittedStatus(availability))
      else
        var availability :- LegacyClassifyAvailability(s, groups, now);
        if availability == Locked then
          if attempted then Ok(ResubmittedReady) else Ok(NotYetGradedReady)
        else
          if attempted then Ok(ResubmittedEarly) else Ok(NotYetGradedEarly)
  }

  function LegacyClassifier(groups: map<int, set<int>>, now: int): Submission -> Result<GradingStatus> {
    (s: Submission) => LegacyClassify(s, groups, now)
  }

  /** Two classifiers that agree wherever the first succeeds build the same
      piles whenever the first builds any. */
  lemma {:induction false} BuildPilesAgree(subs: seq<Submission>, staffFor: StaffMap,
                                           c1: Submission -> Result<GradingStatus>,
                                           c2: Submission -> Result<GradingStatus>)
    requires forall i :: 0 <= i < |subs| && c1(subs[i]).Ok? ==> c2(subs[i]) == c1(subs[i])
    ensures BuildPiles(subs, staffFor, c1).Ok? ==> BuildPiles(subs, staffFor, c2) == BuildPiles(subs, staffFor, c1)
    decreases |subs|
  {
    if |subs| > 0 {
      BuildPilesAgree(subs[..|subs| - 1], staffFor, c1, c2);
    }
  }

  /** The piles `make_ungraded_reports` builds inline: with the same roster,
      they are `make_grading_piles`' piles whenever no needed window key is
      absent, and otherwise the report raises `KeyError`. */
  function UngradedPiles(subs: seq<Submission>, staffFor: StaffMap, groups: map<int, set<int>>, now: int)
    : (r: Result<Piles>)
    ensures r.Err? <==> exists i :: 0 <= i < |subs| && Counted(staffFor, subs[i])
                          && LegacyClassify(subs[i], groups, now).Err?
    ensures r.Ok? ==> r.value == MakeGradingPiles(subs, staffFor, groups, now)
  {
    var r := BuildPiles(subs, staffFor, LegacyClassifier(groups, now));
    BuildPilesAgree(subs, staffFor, LegacyClassifier(groups, now), Classifier(groups, now));
    r
  }

  // ---------------------------------------------------------------------------
  // The summary table

  const SummaryHeader: seq<string> := ["", "Total", "Past 3 Days", "Past Week", "Older"]

  function RecentCount(pile: seq<Submission>, now: int): nat {
    Count(pile, (s: Submission) => Recent(s, now))
  }

  function AncientCount(pile: seq<Submission>, now: int): nat {
    Count(pile, (s: Submission) => Ancient(s, now))
  }

  /** The submissions of a pile that are neither recent nor old. */
  function NormalCount(pile: seq<Submission>, now: int): nat {
    DisjointCounts(pile, (s: Submission) => Recent(s, now), (s: Submission) => Ancient(s, now));
    |pile| - RecentCount(pile, now) - AncientCount(pile, now)
  }

  /** One row: the title-cased status, the pile size, and how many of the pile
      are recent, in between, and old. */
  function SummaryRow(g: GradingStatus, pile: seq<Submission>, now: int): (row: seq<string>)
    ensures |row| == 5
    ensures row[0] == Text.Title(Tag(g))
    ensures forall k :: 1 <= k < 5 ==> Text.AllDigits(row[k])
  {
    [Text.Title(Tag(g)), Text.NatText(|pile|), Text.NatText(RecentCount(pile, now)),
     Text.NatText(NormalCount(pile, now)), Text.NatText(AncientCount(pile, now))]
  }

  /** Read back as numbers, the last three cells of a row split the total:
      recent, in between and old add up to the pile size, with recent and old
      the `check_recency` counts. */
  lemma SummaryRowCounts(g: GradingStatus, pile: seq<Submission>, now: int)
    ensures var row := SummaryRow(g, pile, now);
      && Text.ParseNat(row[1]) == |pile|
      && Text.ParseNat(row[2]) == Count(pile, (s: Submission) => Recent(s, now))
      && Text.ParseNat(row[4]) == Count(pile, (s: Submission) => Ancient(s, now))
      && Text.ParseNat(row[2]) + Text.ParseNat(row[3]) + Text.ParseNat(row[4]) == Text.ParseNat(row[1])
  {
    var row := SummaryRow(g, pile, now);
    var recent, normal, ancient := RecentCount(pile, now), NormalCount(pile, now), AncientCount(pile, now);
    assert row[1..] == [Text.NatText(|pile|), Text.NatText(recent), Text.NatText(normal), Text.NatText(ancient)];
    Text.ParseNatText(|pile|);
    Text.ParseNatText(recent);
    Text.ParseNatText(normal);
    Text.ParseNatText(ancient);
    assert recent + normal + ancient == |pile|;
  }

  /** The statuses among `gs` whose pile is non-empty, in order. */
  function NonEmpty(piles: StatusPiles, gs: seq<GradingStatus>): (r: seq<GradingStatus>)
    ensures |r| <= |gs|
    ensures forall i :: 0 <= i < |r| ==> r[i] in gs && |Get(piles, r[i], [])| > 0
    ensures forall i :: 0 <= i < |gs| && |Get(piles, gs[i], [])| > 0 ==> gs[i] in r
  {
    Select(gs, (g: GradingStatus) => |Get(piles, g, [])| > 0)
  }

  /** The table of one TA's piles: the header row, then one row per status
      with a non-empty pile, in `order`, the order of the piles' keys (the
      declaration order, `AllStatuses`, for piles built from `EmptyPiles`). */
  function SummaryTable(piles: StatusPiles, order: seq<GradingStatus>, now: int): (t: seq<seq<string>>)
    ensures |t| == 1 + |NonEmpty(piles, order)|
    ensures t[0] == SummaryHeader
    ensures forall i :: 1 <= i < |t| ==>
      t[i] == SummaryRow(NonEmpty(piles, order)[i - 1], Get(piles, NonEmpty(piles, order)[i - 1], []), now)
  {
    var gs := NonEmpty(piles, order);
    [SummaryHeader] + seq(|gs|, i requires 0 <= i < |gs| => SummaryRow(gs[i], Get(piles, gs[i], []), now))
  }

  // ---------------------------------------------------------------------------
  // The list of links

  /** One entry of `flat_pile`: `(days_old(submission), status, submission)`. */
  datatype Item = Item(age: nat, status: GradingStatus, sub: Submission)

  function ItemsOf(g: GradingStatus, pile: seq<Submission>, now: int): (r: seq<Item>)
    ensures |r| == |pile|
    ensures forall i :: 0 <= i < |pile| ==> r[i] == Item(DaysOld(pile[i], now), g, pile[i])
  {
    seq(|pile|, i requires 0 <= i < |pile| => Item(DaysOld(pile[i], now), g, pile[i]))
  }

  /** The comprehension before sorting: the critical piles in the order of
      `gs`, each pile in its own order. */
  function Gather(piles: StatusPiles, gs: seq<GradingStatus>, now: int): (r: seq<Item>)
    ensures forall k :: 0 <= k < |r| ==>
      && IsCritical(r[k].status) && r[k].status in gs
      && r[k].sub in Get(piles, r[k].status, [])
      && r[k].age == DaysOld(r[k].sub, now)
    ensures forall j, i :: 0 <= j < |gs| && IsCritical(gs[j]) && 0 <= i < |Get(piles, gs[j], [])| ==>
      Item(DaysOld(Get(piles, gs[j], [])[i], now), gs[j], Get(piles, gs[j], [])[i]) in r
    ensures |r| == CriticalSize(piles, gs)
    decreases |gs|
  {
    if |gs| == 0 then []
    else
      var g := gs[|gs| - 1];
      var prefix := gs[..|gs| - 1];
      assert forall j :: 0 <= j < |prefix| ==> prefix[j] == gs[j];
      Gather(piles, prefix, now) + (if IsCritical(g) then ItemsOf(g, Get(piles, g, []), now) else [])
  }

  /** How many submissions the critical piles among `gs` hold together, a
      submission filed twice counted twice. */
  function CriticalSize(piles: StatusPiles, gs: seq<GradingStatus>): nat
    decreases |gs|
  {
    if |gs| == 0 then 0
    else
      var g := gs[|gs| - 1];
      CriticalSize(piles, gs[..|gs| - 1]) + if IsCritical(g) then |Get(piles, g, [])| else 0
  }

  /** A pile's items hold each of its submissions as often as the pile does. */
  lemma {:induction false} ItemsOfCount(g: GradingStatus, pile: seq<Submission>, now: int, x: Item)
    ensures multiset(ItemsOf(g, pile, now))[x] ==
      if x.status == g && x.age == DaysOld(x.sub, now) then multiset(pile)[x.sub] else 0
    decreases |pile|
  {
    if |pile| > 0 {
      var pre := pile[..|pile| - 1];
      var last := pile[|pile| - 1];
      ItemsOfCount(g, pre, now, x);
      assert ItemsOf(g, pile, now) == ItemsOf(g, pre, now) + [Item(DaysOld(last, now), g, last)];
      assert pile == pre + [last];
    }
  }

  /** Each item is gathered once per listing of its status in `gs` and per
      filing of its submission in that status's pile; nothing is merged. */
  lemma {:induction false} GatherCounts(piles: StatusPiles, gs: seq<GradingStatus>, now: int, x: Item)
    ensures multiset(Gather(piles, gs, now))[x] ==
      if IsCritical(x.status) && x.age == DaysOld(x.sub, now)
      then multiset(gs)[x.status] * multiset(Get(piles, x.status, []))[x.sub]
      else 0
    decreases |gs|
  {
    if |gs| > 0 {
      var pre := gs[..|gs| - 1];
      var g := gs[|gs| - 1];
      var pile := Get(piles, g, []);
      var ok := IsCritical(x.status) && x.age == DaysOld(x.sub, now);
      var m := multiset(Get(piles, x.status, []))[x.sub];
      var c0 := multiset(pre)[x.status];
      var before := multiset(Gather(piles, pre, now))[x];
      var added := if IsCritical(g) && x.status == g && x.age == DaysOld(x.sub, now) then multiset(pile)[x.sub] else 0;
      assert multiset(Gather(piles, gs, now))[x] == before + added by {
        var tail := if IsCritical(g) then ItemsOf(g, pile, now) else [];
        assert Gather(piles, gs, now) == Gather(piles, pre, now) + tail;
        ItemsOfCount(g, pile, now, x);
      }
      assert before == if ok then c0 * m else 0 by {
        GatherCounts(piles, pre, now, x);
      }
      assert multiset(gs)[x.status] == c0 + if x.status == g then 1 else 0 by {
        MultisetSnoc(gs);
      }
      assert added == if ok && x.status == g then m else 0;
      CountStep(ok, x.status == g, multiset(gs)[x.status], c0, m, before, added);
    }
  }

  /** One more listing of a status adds one more copy of each of its items. */
  lemma CountStep(ok: bool, same: bool, total: nat, c0: nat, m: nat, before: nat, added: nat)
    requires total == c0 + if same then 1 else 0
    requires before == if ok then c0 * m else 0
    requires added == if ok && same then m else 0
    ensures before + added == if ok then total * m else 0
  {
    if ok && same {
      MulSucc(c0, m);
    }
  }

  lemma MultisetSnoc<T>(xs: seq<T>)
    requires |xs| > 0
    ensures multiset(xs) == multiset(xs[..|xs| - 1]) + multiset{xs[|xs| - 1]}
  {
    assert xs == xs[..|xs| - 1] + [xs[|xs| - 1]];
  }

  lemma MulSucc(c: nat, m: nat)
    ensures (c + 1) * m == c * m + m
  {
  }

  /** The sort key `(-age, status)`: older first, then by status text. */
  predicate ItemLe(a: Item, b: Item) {
    a.age > b.age || (a.age == b.age && Text.StrLe(Tag(a.status), Tag(b.status)))
  }

  lemma ItemLeTotalPreorder()
    ensures Sorting.TotalPreorder(ItemLe)
  {
    forall a: Item, b: Item ensures ItemLe(a, b) || ItemLe(b, a) {
      Text.StrLeTotal(Tag(a.status), Tag(b.status));
    }
    forall a: Item, b: Item, c: Item | ItemLe(a, b) && ItemLe(b, c) ensures ItemLe(a, c) {
      if a.age == b.age && b.age == c.age {
        Text.StrLeTransitive(Tag(a.status), Tag(b.status), Tag(c.status));
      }
    }
  }

  /** `flat_pile`: the critical items sorted oldest first, ties by status text,
      remaining ties in gathering order. */
  function FlatPile(piles: StatusPiles, now: int): (r: seq<Item>)
    ensures multiset(r) == multiset(Gather(piles, AllStatuses, now))
    ensures Sorting.Sorted(r, ItemLe)
  {
    ItemLeTotalPreorder();
    Sorting.Sort(Gather(piles, AllStatuses, now), ItemLe)
  }

  /** Every filing of a critical submission is one entry of `flat_pile`, and
      nothing else is. */
  lemma FlatPileCounts(piles: StatusPiles, now: int, x: Item)
    ensures multiset(FlatPile(piles, now))[x] ==
      if IsCritical(x.status) && x.age == DaysOld(x.sub, now)
      then multiset(Get(piles, x.status, []))[x.sub]
      else 0
  {
    GatherCounts(piles, AllStatuses, now, x);
    StatusOnce(x.status);
  }

  lemma StatusOnce(g: GradingStatus)
    ensures multiset(AllStatuses)[g] == 1
  {
    var m := multiset{
      Graded, NotYetGradedLate, ResubmittedLate, NotYetGradedReady, ResubmittedReady,
      NotYetGradedEarly, ResubmittedEarly, InProgress, MissedDueDate, MissedLockDate,
      FutureAssignments};
    assert multiset(AllStatuses) == m;
    match g
    case Graded =>
    case NotYetGradedLate =>
    case ResubmittedLate =>
    case NotYetGradedReady =>
    case ResubmittedReady =>
    case NotYetGradedEarly =>
    case ResubmittedEarly =>
    case InProgress =>
    case MissedDueDate =>
    case MissedLockDate =>
    case FutureAssignments =>
  }

  function Pow2(k: nat): (p: nat)
    ensures p >= 1
  {
    if k == 0 then 1 else 2 * Pow2(k - 1)
  }

  /** The largest `k` with `2^k <= n`. */
  function FloorLog2(n: nat): (k: nat)
    requires n >= 1
    ensures Pow2(k) <= n < Pow2(k + 1)
  {
    if n < 2 then 0 else 1 + FloorLog2(n / 2)
  }

  lemma {:induction false} FloorLog2Monotone(a: nat, b: nat)
    requires 1 <= a <= b
    ensures FloorLog2(a) <= FloorLog2(b)
    decreases a
  {
    if a >= 2 {
      FloorLog2Monotone(a / 2, b / 2);
    }
  }

  /** `round(math.log2(age)) if age > 0 else 0`, computed exactly: the nearest
      integer `k` to `log2(age)`, i.e. `2^(k - 1/2) <= age < 2^(k + 1/2)`,
      squared and doubled to stay in whole numbers. No tie can arise, since
      `log2(age)` is never an odd multiple of 1/2. */
  function LogBucket(age: nat): (k: nat)
    ensures age > 0 ==> Pow2(2 * k) <= 2 * age * age < Pow2(2 * k + 2)
    ensures age == 0 ==> k == 0
  {
    if age == 0 then 0
    else
      var sq := age * age;
      assert 2 * age * age == 2 * sq;
      var l := FloorLog2(sq);
      var k := (l + 1) / 2;
      Pow2Succ(l);
      Pow2Succ(l + 1);
      Pow2Succ(l + 2);
      k
  }

  lemma Pow2Succ(n: nat)
    ensures Pow2(n + 1) == 2 * Pow2(n)
  {
  }

  /** An older item never falls in a lower bucket. */
  lemma LogBucketMonotone(a: nat, b: nat)
    requires a <= b
    ensures LogBucket(a) <= LogBucket(b)
  {
    if a > 0 {
      MulMonotone(a, b, a);
      MulMonotone(a, b, b);
      FloorLog2Monotone(a * a, b * b);
    }
  }

  lemma MulMonotone(x: nat, y: nat, c: nat)
    requires x <= y
    ensures x * c <= y * c
  {
  }

  /** A line of the links section; a header for age `a` is written as
      `f"{a} day{'s' if a > 1 else ''} ago:\n"`, and the model keeps only `a`. */
  datatype Line =
    | CaughtUp
    | Header(age: nat)
    | Link(text: string, assignmentId: int, userId: int)

  const CaughtUpText: string := "You are all caught up on grading! Great work!"

  /** The link for one item: `"{assignment name}: {student name}"`, pointing at
      the SpeedGrader page of that assignment and student. */
  function LinkFor(it: Item): Line {
    Link(it.sub.assignment.name + ": " + it.sub.user.name, it.sub.assignment.id, it.sub.user.id)
  }

  /** The loop of `list_actual_links` from a given previous bucket: a header
      whenever the item's bucket drops below the last header's, then the
      link. The source buckets by `LogBucket`; the loop is stated for any
      bucket function so that its lemmas do not depend on the arithmetic. */
  function RenderFrom(flat: seq<Item>, previous: Option<nat>, bucket: nat -> nat): (r: seq<Line>)
    ensures previous.None? && |flat| > 0 ==> |r| > 0 && r[0] == Header(flat[0].age)
    ensures |r| == |flat| + |HeaderAges(r)|
    ensures forall i :: 0 <= i < |r| ==> !r[i].CaughtUp?
    decreases |flat|
  {
    if |flat| == 0 then []
    else
      var it := flat[0];
      var b := bucket(it.age);
      if previous.None? || b < previous.value then
        var rest := RenderFrom(flat[1..], Some(b), bucket);
        LinksAppend([Header(it.age), LinkFor(it)], rest);
        [Header(it.age), LinkFor(it)] + rest
      else
        var rest := RenderFrom(flat[1..], previous, bucket);
        LinksAppend([LinkFor(it)], rest);
        [LinkFor(it)] + rest
  }

  /** The links of a section, in order. */
  function Links(lines: seq<Line>): (r: seq<Line>)
    ensures forall i :: 0 <= i < |r| ==> r[i].Link?
    decreases |lines|
  {
    if |lines| == 0 then []
    else (if lines[0].Link? then [lines[0]] else []) + Links(lines[1..])
  }

  /** The header ages of a section, in order. */
  function HeaderAges(lines: seq<Line>): seq<nat>
    decreases |lines|
  {
    if |lines| == 0 then []
    else (if lines[0].Header? then [lines[0].age] else []) + HeaderAges(lines[1..])
  }

  lemma LinksAppend(a: seq<Line>, b: seq<Line>)
    ensures Links(a + b) == Links(a) + Links(b)
    ensures HeaderAges(a + b) == HeaderAges(a) + HeaderAges(b)
  {
    if |a| > 0 {
      assert (a + b)[1..] == a[1..] + b;
      LinksAppend(a[1..], b);
    } else {
      assert a + b == b;
    }
  }

  /** One link per item, in order. */
  function LinksOf(flat: seq<Item>): (r: seq<Line>)
    ensures |r| == |flat|
    ensures forall i :: 0 <= i < |flat| ==> r[i] == LinkFor(flat[i])
    decreases |flat|
  {
    if |flat| == 0 then [] else [LinkFor(flat[0])] + LinksOf(flat[1..])
  }

  /** Buckets never rise along the list. */
  ghost predicate BucketsDescend(flat: seq<Item>, bucket: nat -> nat) {
    forall i, j :: 0 <= i < j < |flat| ==> bucket(flat[j].age) <= bucket(flat[i].age)
  }

  /** One step of the rendering loop. */
  lemma RenderStep(flat: seq<Item>, previous: Option<nat>, bucket: nat -> nat)
    requires |flat| > 0
    ensures var b := bucket(flat[0].age);
      var header := previous.None? || b < previous.value;
      var tail := RenderFrom(flat[1..], if header then Some(b) else previous, bucket);
      && Links(RenderFrom(flat, previous, bucket)) == [LinkFor(flat[0])] + Links(tail)
      && HeaderAges(RenderFrom(flat, previous, bucket)) == (if header then [flat[0].age] else []) + HeaderAges(tail)
  {
    var b := bucket(flat[0].age);
    var header := previous.None? || b < previous.value;
    var tail := RenderFrom(flat[1..], if header then Some(b) else previous, bucket);
    var front := if header then [Header(flat[0].age), LinkFor(flat[0])] else [LinkFor(flat[0])];
    assert RenderFrom(flat, previous, bucket) == front + tail;
    LinksAppend(front, tail);
    assert Links(front) == [LinkFor(flat[0])];
    assert HeaderAges(front) == (if header then [flat[0].age] else []);
  }

  /** Rendering keeps every link, in order. */
  lemma {:induction false} RenderLinks(flat: seq<Item>, previous: Option<nat>, bucket: nat -> nat)
    ensures Links(RenderFrom(flat, previous, bucket)) == LinksOf(flat)
    decreases |flat|
  {
    if |flat| > 0 {
      var b := bucket(flat[0].age);
      var header := previous.None? || b < previous.value;
      RenderStep(flat, previous, bucket);
      RenderLinks(flat[1..], if header then Some(b) else previous, bucket);
    }
  }

  /** The header buckets strictly decrease, each below `previous`. */
  lemma {:induction false} RenderHeadersDecrease(flat: seq<Item>, previous: Option<nat>, bucket: nat -> nat)
    ensures var h := HeaderAges(RenderFrom(flat, previous, bucket));
      && (forall i, j :: 0 <= i < j < |h| ==> bucket(h[j]) < bucket(h[i]))
      && (previous.Some? ==> forall i :: 0 <= i < |h| ==> bucket(h[i]) < previous.value)
    decreases |flat|
  {
    if |flat| > 0 {
      var b := bucket(flat[0].age);
      var header := previous.None? || b < previous.value;
      var previous' := if header then Some(b) else previous;
      RenderStep(flat, previous, bucket);
      RenderHeadersDecrease(flat[1..], previous', bucket);
      if header {
        DecreasingCons(flat[0].age, HeaderAges(RenderFrom(flat[1..], previous', bucket)), previous, bucket);
      }
    }
  }

  /** A header whose bucket is below `previous` and above every later header's
      keeps the header buckets strictly decreasing. */
  lemma DecreasingCons(a: nat, th: seq<nat>, previous: Option<nat>, bucket: nat -> nat)
    requires forall i, j :: 0 <= i < j < |th| ==> bucket(th[j]) < bucket(th[i])
    requires forall i :: 0 <= i < |th| ==> bucket(th[i]) < bucket(a)
    requires previous.Some? ==> bucket(a) < previous.value
    ensures forall i, j :: 0 <= i < j < |[a] + th| ==> bucket(([a] + th)[j]) < bucket(([a] + th)[i])
    ensures previous.Some? ==> forall i :: 0 <= i < |[a] + th| ==> bucket(([a] + th)[i]) < previous.value
  {
    var h := [a] + th;
    forall i, j | 0 <= i < j < |h|
      ensures bucket(h[j]) < bucket(h[i])
    {
      assert h[j] == th[j - 1];
      if i > 0 {
        assert h[i] == th[i - 1];
      }
    }
    forall i | 0 <= i < |h| && previous.Some?
      ensures bucket(h[i]) < previous.value
    {
      if i > 0 {
        assert h[i] == th[i - 1];
      }
    }
  }


  /** Some header age in `h` falls in bucket `b`. */
  ghost predicate Announced(h: seq<nat>, b: nat, bucket: nat -> nat) {
    exists j :: 0 <= j < |h| && bucket(h[j]) == b
  }

  lemma AnnouncedPrepend(front: seq<nat>, h: seq<nat>, b: nat, bucket: nat -> nat)
    ensures Announced(h, b, bucket) ==> Announced(front + h, b, bucket)
    ensures Announced(front, b, bucket) ==> Announced(front + h, b, bucket)
  {
    if Announced(h, b, bucket) {
      var j :| 0 <= j < |h| && bucket(h[j]) == b;
      assert (front + h)[|front| + j] == h[j];
    }
    if Announced(front, b, bucket) {
      var j :| 0 <= j < |front| && bucket(front[j]) == b;
      assert (front + h)[j] == front[j];
    }
  }

  /** On a list whose buckets descend, every item's bucket is announced by a
      header, or was already announced as `previous`. */
  lemma {:induction false} RenderCovers(flat: seq<Item>, previous: Option<nat>, bucket: nat -> nat)
    requires BucketsDescend(flat, bucket)
    requires previous.Some? && |flat| > 0 ==> bucket(flat[0].age) <= previous.value
    ensures forall i :: 0 <= i < |flat| ==>
      Announced(HeaderAges(RenderFrom(flat, previous, bucket)), bucket(flat[i].age), bucket)
      || (previous.Some? && bucket(flat[i].age) == previous.value)
    decreases |flat|
  {
    if |flat| > 0 {
      var b0 := bucket(flat[0].age);
      var header := previous.None? || b0 < previous.value;
      var previous' := if header then Some(b0) else previous;
      var rest := flat[1..];
      var front := if header then [flat[0].age] else [];
      RenderStep(flat, previous, bucket);
      assert BucketsDescend(rest, bucket);
      RenderCovers(rest, previous', bucket);
      var h := HeaderAges(RenderFrom(flat, previous, bucket));
      var th := HeaderAges(RenderFrom(rest, previous', bucket));
      assert h == front + th;
      forall i | 0 <= i < |flat|
        ensures Announced(h, bucket(flat[i].age), bucket) || (previous.Some? && bucket(flat[i].age) == previous.value)
      {
        var b := bucket(flat[i].age);
        AnnouncedPrepend(front, th, b, bucket);
        if header {
          assert bucket(front[0]) == b0;
        }
        if i > 0 {
          assert rest[i - 1] == flat[i];
        }
      }
    }
  }

  /** `list_actual_links`: the caught-up message when nothing critical is
      pending, otherwise every critical item as a link, oldest first, each run
      of one bucket introduced by a header. */
  function ListActualLinks(piles: StatusPiles, now: int): (r: seq<Line>)
    ensures r == [CaughtUp] <==> |FlatPile(piles, now)| == 0
    ensures Links(r) == LinksOf(FlatPile(piles, now))
    ensures r == ExpectedLines(FlatPile(piles, now))
  {
    SortedDescends(FlatPile(piles, now));
    LinesOf(FlatPile(piles, now))
  }

  /** The lines for a sorted list of items: the caught-up line alone for no
      items, otherwise the rendered headers and links. */
  function LinesOf(flat: seq<Item>): (r: seq<Line>)
    ensures r == [CaughtUp] <==> |flat| == 0
    ensures Links(r) == LinksOf(flat)
    ensures BucketsDescend(flat, LogBucket) ==> r == ExpectedLines(flat)
  {
    var lines := RenderFrom(flat, None, LogBucket);
    RenderLinks(flat, None, LogBucket);
    LinksAppend(if |flat| == 0 then [CaughtUp] else [], lines);
    assert BucketsDescend(flat, LogBucket) ==> lines == LinesFrom(flat, 0, LogBucket) by {
      if BucketsDescend(flat, LogBucket) {
        RenderFromExpected(flat, LogBucket);
      }
    }
    if |flat| == 0 then
      assert lines == [];
      [CaughtUp] + lines
    else
      assert lines[0] != CaughtUp;
      [] + lines
  }

  /** What a section should read, item by item: the caught-up line when
      there are no items, otherwise each item's `LinesAt` in order. */
  function ExpectedLines(flat: seq<Item>): seq<Line> {
    (if |flat| == 0 then [CaughtUp] else []) + LinesFrom(flat, 0, LogBucket)
  }

  /** The lines for item `i`: its header when it opens the list or its
      bucket is below the previous item's, then its link. */
  function LinesAt(flat: seq<Item>, i: nat, bucket: nat -> nat): seq<Line>
    requires i < |flat|
  {
    (if i == 0 || bucket(flat[i].age) < bucket(flat[i - 1].age) then [Header(flat[i].age)] else [])
    + [LinkFor(flat[i])]
  }

  /** The lines for items `k..` joined in order. */
  function LinesFrom(flat: seq<Item>, k: nat, bucket: nat -> nat): seq<Line>
    requires k <= |flat|
    decreases |flat| - k
  {
    if k == |flat| then [] else LinesAt(flat, k, bucket) + LinesFrom(flat, k + 1, bucket)
  }

  /** On a list whose buckets descend, the loop writes exactly the item-by-item
      lines: the bucket of the last header is always the previous item's. */
  lemma RenderFromExpected(flat: seq<Item>, bucket: nat -> nat)
    requires BucketsDescend(flat, bucket)
    ensures RenderFrom(flat, None, bucket) == LinesFrom(flat, 0, bucket)
  {
    RenderSuffix(flat, 0, bucket);
    assert flat[0..] == flat;
  }

  /** The loop from item `k`, with the previous item's bucket as the last
      header's, writes the lines of items `k..`. */
  lemma {:induction false} RenderSuffix(flat: seq<Item>, k: nat, bucket: nat -> nat)
    requires BucketsDescend(flat, bucket)
    requires k <= |flat|
    ensures RenderFrom(flat[k..], if k == 0 then None else Some(bucket(flat[k - 1].age)), bucket)
         == LinesFrom(flat, k, bucket)
    decreases |flat| - k
  {
    if k < |flat| {
      var previous := if k == 0 then None else Some(bucket(flat[k - 1].age));
      var rest := flat[k..];
      assert rest[0] == flat[k];
      assert rest[1..] == flat[k + 1..];
      if k > 0 {
        assert bucket(flat[k].age) <= bucket(flat[k - 1].age);
      }
      RenderOne(rest, previous, bucket);
      RenderSuffix(flat, k + 1, bucket);
    }
  }

  /** One step of the loop when a header is skipped only for an item of the
      last header's bucket. */
  lemma RenderOne(flat: seq<Item>, previous: Option<nat>, bucket: nat -> nat)
    requires |flat| > 0
    requires previous.Some? ==> bucket(flat[0].age) <= previous.value
    ensures RenderFrom(flat, previous, bucket)
         == (if previous.None? || bucket(flat[0].age) < previous.value then [Header(flat[0].age)] else [])
            + [LinkFor(flat[0])] + RenderFrom(flat[1..], Some(bucket(flat[0].age)), bucket)
  {
    var b := bucket(flat[0].age);
    if previous.None? || b < previous.value {
      assert [Header(flat[0].age), LinkFor(flat[0])] == [Header(flat[0].age)] + [LinkFor(flat[0])];
    } else {
      assert previous == Some(b);
      assert [] + [LinkFor(flat[0])] == [LinkFor(flat[0])];
    }
  }

  /** The headers of a TA's links announce strictly decreasing buckets, and
      every critical item's bucket gets a header. */
  lemma LinkHeaders(piles: StatusPiles, now: int)
    ensures var h := HeaderAges(ListActualLinks(piles, now));
      && (forall i, j :: 0 <= i < j < |h| ==> LogBucket(h[j]) < LogBucket(h[i]))
      && (forall i :: 0 <= i < |FlatPile(piles, now)| ==> Announced(h, LogBucket(FlatPile(piles, now)[i].age), LogBucket))
  {
    LinesHeaders(FlatPile(piles, now), ListActualLinks(piles, now));
  }

  /** The header facts for any oldest-first list of items, as its section
      should read. */
  lemma LinesHeaders(flat: seq<Item>, lines: seq<Line>)
    requires Sorting.Sorted(flat, ItemLe)
    requires lines == ExpectedLines(flat)
    ensures var h := HeaderAges(lines);
      && (forall i, j :: 0 <= i < j < |h| ==> LogBucket(h[j]) < LogBucket(h[i]))
      && (forall i :: 0 <= i < |flat| ==> Announced(h, LogBucket(flat[i].age), LogBucket))
  {
    SortedDescends(flat);
    RenderFromExpected(flat, LogBucket);
    RenderedHeaders(flat, lines, LogBucket);
  }

  /** The same for any bucket function under which the items descend. */
  lemma {:induction false} RenderedHeaders(flat: seq<Item>, lines: seq<Line>, bucket: nat -> nat)
    requires BucketsDescend(flat, bucket)
    requires lines == (if |flat| == 0 then [CaughtUp] else []) + RenderFrom(flat, None, bucket)
    ensures var h := HeaderAges(lines);
      && (forall i, j :: 0 <= i < j < |h| ==> bucket(h[j]) < bucket(h[i]))
      && (forall i :: 0 <= i < |flat| ==> Announced(h, bucket(flat[i].age), bucket))
  {
    var caught: seq<Line> := if |flat| == 0 then [CaughtUp] else [];
    var h := HeaderAges(RenderFrom(flat, None, bucket));
    LinksAppend(caught, RenderFrom(flat, None, bucket));
    assert HeaderAges(caught) == [];
    assert HeaderAges(lines) == h;
    RenderHeadersDecrease(flat, None, bucket);
    RenderCovers(flat, None, bucket);
  }

  /** Oldest-first order puts the buckets in descending order. */
  lemma SortedDescends(flat: seq<Item>)
    requires Sorting.Sorted(flat, ItemLe)
    ensures BucketsDescend(flat, LogBucket)
  {
    forall i, j | 0 <= i < j < |flat| ensures LogBucket(flat[j].age) <= LogBucket(flat[i].age) {
      assert ItemLe(flat[i], flat[j]);
      LogBucketMonotone(flat[j].age, flat[i].age);
    }
  }
}

=== FILE: wrappers.dfy ===
/** Failure-compatible wrappers shared by every module of the model, and the
    kinds of exception the modelled Python code can raise. */
module Wrappers {

  datatype Option<+T> = None | Some(value: T) {

    predicate IsFailure() {
      None?
    }

    function PropagateFailure<U>(): Option<U>
      requires None?
    {
      None
    }

    function Extract(): T
      requires Some?
    {
      value
    }

    /** The value, or `default` when there is none (Python's `d.get(k, default)`). */
    function GetOr(default: T): T {
      match this
      case Some(v) => v
      case None => default
    }
  }

  /** The exceptions the modelled code raises, named after the Python class. */
  datatype Exception =
    | KeyError(key: string)
    | TypeError(what: string)
    | IndexError
    | ZeroDivisionError
    | RequestFailed(message: string)
    | ValueError(what: string)

  datatype Result<+T> = Ok(value: T) | Err(error: Exception) {

    predicate IsFailure() {
      Err?
    }

    function PropagateFailure<U>(): Result<U>
      requires Err?
    {
      Err(error)
    }

    function Extract(): T
      requires Ok?
    {
      value
    }
  }

  /** A check that either passes or raises. */
  datatype Outcome = Pass | Fail(error: Exception) {

    predicate IsFailure() {
      Fail?
    }

    function PropagateFailure<U>(): Result<U>
      requires Fail?
    {
      Err(error)
    }
  }

  /** Looks `k` up in `m`, or `default` when absent. */
  function Get<K, V>(m: map<K, V>, k: K, default: V): (v: V)
    ensures k in m ==> v == m[k]
    ensures k !in m ==> v == default
  {
    if k in m then m[k] else default
  }
}
